=== FILE: README.md ===
# Madori spatiotemporal voxels in Dafny

This project models the core of Madori, a map viewer for spatiotemporal voxels,
as pure Dafny functions over immutable datatypes. It covers:

- **The identifier parser** (`ParseId`, with its grammar and round trips in `IdSyntax`).
  It reads comma-separated `Z/F/X/Y[_interval/T]` text into `VoxelDefinition`s.
  - An axis value is a scalar or a pair.
  - F has an inverted "unbounded" sentinel `[2^Z-1, -2^Z]`.
  - An X pair with `lo > hi` wraps through the antimeridian.
  - A tick window has an exclusive upper tick.
- **The JSON importer** (`JsonImport`).
  It reaches the same definitions from structured ids. It keeps the first definition per spatial key and accumulates tooltip text per key.
- **The range compiler and expander** (`Expand`, plus the older `LegacyExpand`).
  - Compact mode keeps ranges and splits a wrapping X range into two tiles.
  - Exhaustive mode lists unit cells, x outermost, then y, then f.
  - The older expander sorts every pair and never wraps.
- **The tile projector** (`Projector`).
  It gives slippy-map longitudes, an altitude of `2^25/2^Z` per floor, a closed five-point ring and the tile's own `Z/F/X/Y` as its id. The projector uses column `X+1` for the east edge and ignores `X2` and `F2`, as the original does.
- **The viewport filter and detail levels** (`Viewport`, `Layer`).
- **The polygon cache and render-time selection** (`Layer`, `LegacyLayer`).
  - The cache key uses the bucket `floor(t/10)`.
  - Eviction is first-in first-out past 500 entries.
  - It applies a level-of-detail prefix cut and a half-open time filter.
  - Polygons are grouped by colour.
  - An item whose viewport filter leaves nothing falls back to its full list.
  - The generation step as the original's import resolves it is modelled separately (`LayerAsWritten`). It draws nothing; see "## Findings". `Layer.Generate` is the intended step and the rest of the model uses it.
- **The colour panel helpers** (`ColorPanel`): unique values, hex to RGBA, the cyclic preset colour map, and the override map.
- **Two stores** modelled as sequential state machines: the item store (`Items`) and the voxel store (`VoxelStore`).

Shared pieces:
- `Wrappers` holds `Option` and `Result`.
- `Text` holds JavaScript's decimal `Number`, `String(n)`, `trim`, `split` and `join`.
- `Seqs` holds filter, subsequence, flatten and first-occurrence deduplication.
- `Voxels` holds the value types.

Some things are parameters rather than part of the model:
- Latitude (`atan(sinh(...))`) is a function `lat: real -> real`.
- The colour conversion `colorHexToRgba` (not part of this model) is a function `toRgba`.
- The preset colour list is a non-empty parameter.

Where the original yields `NaN` or throws, the model returns a `Failure` or `None`. The stores turn a parse failure into an empty voxel list. For a structural error this matches the original's `catch`. For a non-numeric number the original neither throws nor drops anything; "## Left out" gives the difference.

## Model

| member | source | states |
|---|---|---|
| ParseId.StripDecoration | src/utils/parse-spatiotemporal-id.ts:6-8 | The first `[` is removed, then the first `]` of what is left, then every `'`. The other characters keep their order. Every `'` goes, but at most one `[` and one `]`, and every other character keeps its count. |
| Text.RemoveFirst | src/utils/parse-spatiotemporal-id.ts:6-7 | `replace` with a one-character string pattern removes the first occurrence and no other, and returns the text unchanged when the character is absent. |
| Text.RemoveAll | src/utils/parse-spatiotemporal-id.ts:8 | `replace` with a global pattern keeps exactly the other characters, in order. |
| ParseId.MapAllSpec | src/utils/parse-spatiotemporal-id.ts:18-46 | The loop gives one result per token, in order. It fails exactly when some token fails, since an exception aborts the whole parse. |
| IdSyntax.ParseIdList | src/utils/parse-spatiotemporal-id.ts:9-46 | Id texts joined by commas parse back to their definitions, one per token, in input order. |
| IdSyntax.ParseBracketedList | src/utils/parse-spatiotemporal-id.ts:6-46 | The printed array form `['t1','t2',...]` parses to the same definitions as the plain comma list `t1,t2,...`. |
| IdSyntax.StripBracketed | src/utils/parse-spatiotemporal-id.ts:6-8 | Stripping the brackets and quotes of `['t1','t2',...]` leaves exactly `t1,t2,...`. |
| IdSyntax.ParseBlankInput | src/utils/parse-spatiotemporal-id.ts:9-16 | Input made only of blanks, commas and quotes parses to the empty list. |
| IdSyntax.ParseTokenSpec | src/utils/parse-spatiotemporal-id.ts:21-42 | The text of any identifier parses back to the definition it denotes, with or without a time part. |
| IdSyntax.CutsAtFirstUnderscore | src/utils/parse-spatiotemporal-id.ts:24-28 | A token is cut at its first `_`. Everything after it, including later `_`, is the time part. |
| IdSyntax.NoUnderscoreNoTime | src/utils/parse-spatiotemporal-id.ts:24-33 | A token without `_` gives a definition with both times absent. |
| IdSyntax.ParsePartsWindow | src/utils/parse-spatiotemporal-id.ts:33-41 | A parsed definition's start and end times are those of its time part. |
| IdSyntax.ParseDimShape | src/utils/parse-spatiotemporal-id.ts:49-89 | Every axis shape parses to its value. `-` is the F sentinel, or the full X/Y axis (scalar 0 at Z=0). `a:-` ends at `2^Z-1`. `-:b` starts at `-2^Z` on F and 0 otherwise. `a:b` is sorted except on X. A bare integer is a scalar. |
| IdSyntax.ParseDimFrom | src/utils/parse-spatiotemporal-id.ts:64-70 | `a:-` gives `[a, 2^Z-1]` on every axis. |
| IdSyntax.ParseDimUpTo | src/utils/parse-spatiotemporal-id.ts:71-77 | `-:b` gives `[-2^Z, b]` on F and `[0, b]` on X and Y. |
| IdSyntax.ParseDimBetween | src/utils/parse-spatiotemporal-id.ts:78-85 | `a:b` gives `[min, max]` on F and Y. On X it keeps `[a, b]`, so `a > b` survives as a wrap. |
| IdSyntax.ParseDimSingle | src/utils/parse-spatiotemporal-id.ts:86-88 | A bare integer gives a scalar. |
| IdSyntax.ParseTimeShape | src/utils/parse-spatiotemporal-id.ts:99-119 | `interval/shape` parses to the window of that shape. `-` gives no window. |
| IdSyntax.TickWindowFrom | src/utils/parse-spatiotemporal-id.ts:105-107 | `a:-` gives `[i*a, +infinity]`. |
| IdSyntax.TickWindowUpTo | src/utils/parse-spatiotemporal-id.ts:108-110 | `-:b` gives `[0, i*(b+1)]`. |
| IdSyntax.TickWindowBetween | src/utils/parse-spatiotemporal-id.ts:111-115 | `a:b` gives `[i*a, i*(b+1)]`, not reordered, with an exclusive upper tick. |
| IdSyntax.TickWindowSingle | src/utils/parse-spatiotemporal-id.ts:116-118 | Tick `t` gives `[i*t, i*(t+1)]`. |
| JsonImport.JsonDimAgrees | src/utils/JsonToVoxelDefinition.ts:17-33 | A missing axis gives the same value as the parser's `-`. A one-element array gives a scalar. A two-element array agrees with the parser's `a:b` exactly when the axis is X or the pair is not descending, because the importer never sorts. |
| JsonImport.JsonTimeAgrees | src/utils/JsonToVoxelDefinition.ts:35-45 | A missing `i` or `t` gives no window. A single tick `t` gives `[i*t, i*(t+1)]`. A pair gives `[i*t1, i*(t2+1)]`. Each matches the parser's window for the same text. |
| JsonImport.SpatialKeyText | src/utils/JsonToVoxelDefinition.ts:9-15 | The spatial key is the parser's `Z/F/X/Y` text, with `-` for a missing axis, `a` for one element and `a:b` for two. |
| JsonImport.SpatialKeyParts | src/utils/JsonToVoxelDefinition.ts:9-15 | Splitting a key at `/` gives back its four parts. |
| JsonImport.SpatialKeyInjective | src/utils/JsonToVoxelDefinition.ts:9-15 | Two ids have the same key exactly when they have the same z, f, x and y arrays. Time and ref are not part of the key. |
| JsonImport.DefinitionDenotes | src/utils/JsonToVoxelDefinition.ts:59-69 | For ids whose f and y are not descending, the importer's definition is the one the parser reads from the id's text. The key text parses to the same definition without its window. |
| JsonImport.SameDefinitionTwoKeys | src/utils/JsonToVoxelDefinition.ts:67-71 | Keys are textual. An id without x and one with the explicit full pair give equal definitions under two keys, so both are kept. |
| JsonImport.ImportSpec | src/utils/JsonToVoxelDefinition.ts:59-71 | The kept visits are a subsequence of all visits in data/ids order. Their keys are distinct and cover every visited key. Each is the first visit with its key. Definition k is the definition of kept visit k. |
| JsonImport.FirstVisitKept | src/utils/JsonToVoxelDefinition.ts:67-71 | The first visit of every key contributes its definition. |
| JsonImport.ImportTooltipKeys | src/utils/JsonToVoxelDefinition.ts:67-76 | The tooltip map's keys are exactly the keys of the emitted definitions, so there are as many definitions as tooltips. |
| JsonImport.TooltipKeys | src/utils/JsonToVoxelDefinition.ts:73-76 | The accumulating map has exactly the visited keys. |
| JsonImport.TooltipText | src/utils/JsonToVoxelDefinition.ts:73-76 | A key's tooltip is `key | ` followed by the `name: value` lines of all its visits in order, joined by newlines. A key has a tooltip exactly when it was visited. |
| JsonImport.JsonToVoxelDefinition | src/utils/JsonToVoxelDefinition.ts:54-81 | There is one definition per kept visit. |
| Expand.CompactOne | src/utils/expand-voxel-range.ts:34-64 | Compact mode gives two tiles for a wrapping X pair and one tile otherwise. |
| Expand.CompactOneNonWrapping | src/utils/expand-voxel-range.ts:34-49 | A scalar or non-wrapping X gives one tile spanning `X..X2`. `(F,F2)` and `(Y,Y2)` are the stored pairs, not re-sorted. The id and times are copied. |
| Expand.CompactOneWrapping | src/utils/expand-voxel-range.ts:50-64 | A wrapping X `lo > hi` gives `[lo, 2^Z-1]` then `[0, hi]`, equal in every other field. |
| Expand.CompactLength | src/utils/expand-voxel-range.ts:25-69 | Compact output has one tile per definition plus one per wrapping definition. |
| Expand.CompactAppend | src/utils/expand-voxel-range.ts:28-66 | Compact output is the in-order concatenation of each definition's tiles. |
| Expand.CompactIds | src/utils/expand-voxel-range.ts:28-32 | Every compact tile carries the `originalId` of the definition it came from. |
| Expand.OriginalIdParses | src/utils/expand-voxel-range.ts:9-12 | `originalId` parses back to its definition with F and Y sorted, X as stored, and no window. |
| Expand.FormatDimShape | src/utils/expand-voxel-range.ts:9-12 | `formatDim` writes a scalar as a number and a pair as `a:b` in stored order. |
| Expand.RangeEnumeration | src/utils/expand-voxel-range.ts:4-7 | For an ascending value, the range from `toRange` lists exactly what `enumerateRange` lists. |
| Expand.EnumerateRangeSpec | src/utils/expand-voxel-range.ts:97-101 | `enumerateRange` ignores pair order. It runs from min to max, one step at a time, and has length `max-min+1`. |
| Expand.EnumerateUnboundedF | src/utils/expand-voxel-range.ts:97-101 | The F sentinel enumerates `-2^Z .. 2^Z-1`. |
| Expand.EnumerateXWrapping | src/utils/expand-voxel-range.ts:103-114 | A wrapping X pair enumerates `lo..2^Z-1` and then `0..hi`, with length `(2^Z-lo)+hi+1`. |
| Expand.EnumerateXNoDuplicates | src/utils/expand-voxel-range.ts:109-113 | For `0 <= hi < lo < 2^Z` the wrapped enumeration has no duplicates. |
| Expand.EnumerateXMember | src/utils/expand-voxel-range.ts:103-114 | A column is enumerated exactly when it lies in `[lo, hi]`. For a wrapping pair, that means `[lo, 2^Z)` or `[0, hi]`. |
| Expand.CellsIndex | src/utils/expand-voxel-range.ts:80-90 | Cell `(i*|ys|+j)*|fs|+k` is `(xs[i], ys[j], fs[k])`, so x is outermost and f innermost. |
| Expand.CellsMember | src/utils/expand-voxel-range.ts:80-90 | A cell is listed exactly when its coordinates come from the three enumerations. |
| Expand.CellsLength | src/utils/expand-voxel-range.ts:80-91 | A box lists `|xs|*|ys|*|fs|` cells. |
| Expand.ExpandOneTiles | src/utils/expand-voxel-range.ts:83-88 | Every exhaustive tile is a unit cell from the enumerations. Its `originalId` is `Z/f/x/y`, and the times are copied. |
| Expand.CellIdParses | src/utils/expand-voxel-range.ts:85 | A cell's `Z/f/x/y` id parses back to that cell. |
| Expand.ExpandAllAppend | src/utils/expand-voxel-range.ts:74-92 | Exhaustive output is the in-order concatenation over definitions. |
| Expand.ExpandAllLength | src/utils/expand-voxel-range.ts:71-95 | Exhaustive output length is the sum of `|xs|*|ys|*|fs|` over definitions. |
| Expand.CoveredUnitTiles | src/utils/expand-voxel-range.ts:80-90 | The unit tiles of a cell list cover exactly that list. |
| Expand.ExpandOneCovers | src/utils/expand-voxel-range.ts:74-90 | The unit tiles of one definition cover exactly its box: x from `enumerateXRange`, y and f from `enumerateRange`, in that nesting. |
| Expand.CompactNonWrappingCovers | src/utils/expand-voxel-range.ts:34-49 | With ascending F and Y, the one compact tile of a non-wrapping definition covers the same box as the enumerations. |
| Expand.CompactWrappingCovers | src/utils/expand-voxel-range.ts:50-64 | With ascending F and Y, the two tiles of a wrapping definition cover the columns `lo..2^Z-1` and then `0..hi`. |
| Expand.CoverageNonWrapping | src/utils/expand-voxel-range.ts:34-49 | With ascending F and Y, the single compact tile covers the exhaustive cells in the same order. |
| Expand.CoverageWrapping | src/utils/expand-voxel-range.ts:50-64 | With ascending F and Y, the two wrapped tiles cover the exhaustive cells in the same order. |
| Expand.CoverageOne | src/utils/expand-voxel-range.ts:29-90 | With ascending F and Y, one definition's compact tiles cover exactly its exhaustive cells. |
| Expand.CoverageAgreement | src/utils/expand-voxel-range.ts:25-114 | With ascending F and Y, compact mode covers the same cell list as exhaustive mode. |
| LegacyExpand.LegacyLength | src/utils/HyperVoxelToPureVoxel.ts:8-24 | The older expander outputs the sum over definitions of `|xs|*|ys|*|fs|` cells. |
| LegacyExpand.LegacyAppend | src/utils/HyperVoxelToPureVoxel.ts:8-24 | Its output is the in-order concatenation over definitions. |
| LegacyExpand.LegacyNoDedup | src/utils/HyperVoxelToPureVoxel.ts:25-27 | Nothing is deduplicated: repeating the input repeats the output. |
| LegacyExpand.LegacyMember | src/utils/HyperVoxelToPureVoxel.ts:9-23 | A cell is output exactly when it has the definition's Z and each coordinate lies within the sorted bounds of its axis. |
| LegacyExpand.EnumerateMember | src/utils/HyperVoxelToPureVoxel.ts:33-38 | A number is enumerated exactly when it lies between the sorted bounds. |
| LegacyExpand.LegacyReversedX | src/utils/HyperVoxelToPureVoxel.ts:33-38 | A "wrapping" X pair `[a, b]` with `a > b` enumerates `b..a`. There is no wraparound. |
| LegacyExpand.LegacyAgreesWithExpand | src/utils/HyperVoxelToPureVoxel.ts:12-23 | For a non-wrapping X, the older expander lists exactly the cells of the newer exhaustive mode, in the same order. |
| Projector.PvoxelToPolygon | src/utils/PureVoxelToPolygon.ts:27-46 | There is exactly one polygon per tile. |
| Projector.PolygonsSpec | src/utils/PureVoxelToPolygon.ts:31-45 | Polygon i has the given colour and tile i's times. Its `voxelID` parses to tile i's own `Z/F/X/Y`. Its ring is closed. |
| Projector.PolygonsAppend | src/utils/PureVoxelToPolygon.ts:31 | Projection maps in order over concatenations. |
| Projector.LongitudeEdges | src/utils/PureVoxelToPolygon.ts:56-61 | `minLon` is the west edge of column X. `maxLon` is the west edge of column X+1. The width is `360/2^Z > 0`, and `X2` plays no part. |
| Projector.ColumnsTileTheGlobe | src/utils/PureVoxelToPolygon.ts:57-61 | Column edges rise strictly from -180 at column 0 to 180 at column `2^Z`. |
| Projector.RowsShareEdges | src/utils/PureVoxelToPolygon.ts:63-68 | `minLat` of row Y equals `maxLat` of row Y+1, because both use the same latitude function. |
| Projector.RowOrientation | src/utils/PureVoxelToPolygon.ts:63-68 | For any decreasing latitude function, `maxLat > minLat`. |
| Projector.AltitudeStep | src/utils/PureVoxelToPolygon.ts:77-79 | For `Z <= 25`, the elevation is `2^(25-Z)` and the altitude is `2^(25-Z)*F`. |
| Projector.FloorsStack | src/utils/PureVoxelToPolygon.ts:109-111 | The elevation is positive and independent of F, F2 and the id. Altitude plus elevation is the altitude of floor F+1. |
| Projector.RingShape | src/utils/PureVoxelToPolygon.ts:84-97 | The ring has 5 points at one altitude, and the first equals the last. Its vertices are the box corners and its edges are axis-parallel. Its signed area is that of the box, so it winds counter-clockwise. |
| Projector.VoxelIdParses | src/utils/PureVoxelToPolygon.ts:102-104 | `voxelID` parses back to the tile's own scalar `Z/F/X/Y`. |
| Projector.VoxelIdInjective | src/utils/PureVoxelToPolygon.ts:102-104 | Equal `voxelID`s mean equal Z, F, X and Y. |
| Projector.UnitTileId | src/utils/PureVoxelToPolygon.ts:102-104 | For an exhaustive unit tile, `voxelID` equals its `originalId`. |
| Viewport.MinVoxelZoomLevel | src/utils/ViewportOptimization.ts:20-27 | The result is one of 2, 4, 8, 12, 16, 24. |
| Viewport.MinVoxelZoomMonotone | src/utils/ViewportOptimization.ts:20-27 | It never decreases with zoom. It is 2 exactly below 3, at most 8 exactly below 9, and 24 exactly from 15. |
| Viewport.DetailLevel | src/utils/ViewportOptimization.ts:105-110 | The result is at most 3. |
| Viewport.DetailLevelMonotone | src/utils/ViewportOptimization.ts:105-110 | It never decreases with zoom. It is 0 exactly below 5, at most 1 exactly below 10, and 3 exactly from 15. |
| Viewport.LongitudeInRangeGap | src/utils/ViewportOptimization.ts:32-38 | For `min > max`, the test accepts exactly the longitudes outside the open gap `(max, min)`. |
| Viewport.ViewWindow | src/utils/ViewportOptimization.ts:52-55 | The latitude window is clamped to `[-85, 85]`. |
| Viewport.LonTestIsIntersection | src/utils/ViewportOptimization.ts:79-82 | The three-way longitude test holds exactly when `[lon-m, lon+m]` meets the voxel's plain or wrapped longitude arc. |
| Viewport.KeepSpec | src/utils/ViewportOptimization.ts:57-88 | A voxel is kept exactly when its Z is at most the zoom's limit, its longitude arc meets the window, and its linear latitude box meets the clamped latitude window. |
| Viewport.FilterVoxelsByViewport | src/utils/ViewportOptimization.ts:44-89 | The filter never adds voxels. |
| Viewport.FilterSpec | src/utils/ViewportOptimization.ts:44-89 | The result is an order-preserving subsequence. A voxel is in it exactly when it is in the input and passes the test. Every kept voxel has `Z <= getMinVoxelZoomLevel(zoom)`. |
| Viewport.FullWrapDropped | src/utils/ViewportOptimization.ts:73-82 | A wrapped X pair covering every column (`[5,4]` at Z=3) collapses to a single longitude, 45. So it is dropped for a viewport at -100 even though it spans the globe. |
| Viewport.FilterVoxelArraysByViewport | src/utils/ViewportOptimization.ts:94-99 | The outer length is preserved. |
| Viewport.FilterArraysFlatten | src/utils/ViewportOptimization.ts:94-99 | Filtering each list and concatenating equals filtering the concatenation, so each list is filtered on its own. |
| Layer.DetailLevelForZoom | src/utils/GenerateLayer.ts:18-23 | The result is at most 3. |
| Layer.DetailLevelForZoomSpec | src/utils/GenerateLayer.ts:18-23 | It agrees with the viewport module's detail level and never decreases. It is 0 exactly below 5 and 3 exactly from 15. With no view state the level is 3. |
| Layer.RequestedDetail | src/utils/GenerateLayer.ts:132 | The detail level asked for is at most 3. |
| Layer.BucketSpan | src/utils/GenerateLayer.ts:36 | Time t is in bucket k exactly when `10k <= t < 10k+10`. |
| Layer.CacheKeyInjective | src/utils/GenerateLayer.ts:31-37 | Two keys are equal exactly when the item ids, the detail levels and the 10-second buckets are equal. |
| Layer.LookupStore | src/utils/GenerateLayer.ts:104 | After `set(k, ps)`, `get(k)` is `ps` and every other key reads as before. |
| Layer.StoreAbsent | src/utils/GenerateLayer.ts:104 | Setting a new key appends it last in insertion order. |
| Layer.EvictFirst | src/utils/GenerateLayer.ts:98-103 | With distinct keys, deleting the first key removes exactly the earliest entry. |
| Layer.CacheHit | src/utils/GenerateLayer.ts:45-50 | On a hit, the stored list is returned verbatim and the cache is unchanged. |
| Layer.CacheMiss | src/utils/GenerateLayer.ts:52-105 | On a miss, the result is freshly generated by the intended step `Generate` (see "## Findings"). The earliest entry goes when there are more than 500. The new entry is appended and the cache stays valid. |
| Layer.InsertFresh | src/utils/GenerateLayer.ts:98-104 | Eviction then insertion of a new key keeps the keys distinct and non-empty, with at most 501 entries. |
| Layer.GetOrGenerateValid | src/utils/GenerateLayer.ts:39-106 | Every lookup-or-generate step keeps the cache valid. |
| Layer.SameBucketReuses | src/utils/GenerateLayer.ts:45-50 | A second request for the same item, detail and bucket returns the first result, even at a different exact time. |
| Layer.LodSpec | src/utils/GenerateLayer.ts:55-75 | The result is a prefix of the zoom-filtered list. Below detail 3, every voxel has `Z <= 8+3*detail`. Detail 0 with more than 100 keeps `n/4`. Detail 1 with more than 200 keeps `n/2`. Otherwise, and at detail 2 and 3, the list is kept whole. |
| Layer.TimeFilterSpec | src/utils/GenerateLayer.ts:83-95 | The result is an order-preserving subsequence. A polygon is kept exactly when both times are null, or both are set and `start <= t < end`. One null time drops it. |
| Layer.TickWindowShows | src/utils/GenerateLayer.ts:83-95 | A polygon whose window came from `interval/a:b` is shown exactly when `i*a <= t < i*(b+1)`. |
| Layer.SelectItemsSpec | src/utils/GenerateLayer.ts:126-129 | An item is selected exactly when it is not deleted, not hidden and of the type. Order is kept. |
| Layer.FallbackOneSpec | src/utils/GenerateLayer.ts:142-156 | An item keeps its viewport-filtered list, or its original list when that is empty. Either way the list is a subsequence of the original, and the item has voxels exactly when it had them before. |
| Layer.VisibleVoxelItemsSpec | src/utils/GenerateLayer.ts:139-158 | From zoom 3 on, the items handed on are exactly the fallback-filtered items that had voxels. |
| Layer.ZoomedOutDrawsNothing | src/utils/GenerateLayer.ts:186-195 | Below zoom 3, no voxel polygons are produced and the cache is untouched. |
| Layer.LayerValid | src/utils/GenerateLayer.ts:302-322 | Generating a layer keeps the cache valid. |
| Layer.FreshRender | src/utils/GenerateLayer.ts:302-322 | With no cache hits and distinct item ids, the layer is the in-order concatenation of each item's polygons from the intended step `Generate` (see "## Findings"). |
| LayerAsWritten.SlotShownAgrees | src/utils/GenerateLayer.ts:83-95 | The time test read with JavaScript's `null` and `undefined` semantics is `ShowAt` on records whose times are set. |
| LayerAsWritten.MissingNeverShown | src/utils/GenerateLayer.ts:83-95 | An undefined start or end time fails both branches of the time test, at every time. |
| LayerAsWritten.AsWrittenDrawsNothing | src/utils/GenerateLayer.ts:77-95 | Through the one-argument expander, whose records carry no times, every item yields no polygon at every detail level, mode and time. |
| LayerAsWritten.WindowlessAlwaysDrawn | src/utils/GenerateLayer.ts:77-95 | With the intended expander, an item whose definitions have no window draws one polygon per expanded tile at every time. |
| LayerAsWritten.OneVoxelDropped | src/utils/GenerateLayer.ts:77-95 | For the single windowless voxel `1/0/0/0`, the intended step draws one polygon and the step as written draws none. |
| Layer.GroupContents | src/utils/GenerateLayer.ts:291-301 | Each colour's group is exactly the polygons of that colour, in input order. The group sizes sum to the input length. |
| Layer.GroupKeys | src/utils/GenerateLayer.ts:291-301 | Group keys are distinct and are exactly the colour keys that occur. |
| LegacyLayer.LegacyPolygonsSpec | src/utils/generate-layers.ts:128-145 | Every polygon drawn by the older builder passes the time filter. There are never more than were generated. |
| LegacyLayer.ItemPolygonsSpec | src/utils/generate-layers.ts:131-142 | An item's drawn polygons pass the time filter and are no more than its tiles. |
| LegacyLayer.LegacyAgrees | src/utils/generate-layers.ts:128-145 | At full detail, with no cache hits and a colour conversion that keeps the stored colour, the newer builder with the intended step `Generate` draws exactly what the older one draws (see "## Findings"). |
| LegacyLayer.SelectionPartition | src/utils/generate-layers.ts:9-20 | The point, line and voxel selections together hold exactly as many items as there are live items. |
| LegacyLayer.SelectionDisjoint | src/utils/generate-layers.ts:9-20 | No item is selected under two types. |
| ColorPanel.PrimitiveArraySpec | src/components/json-color-panel.tsx:10-17 | A list is primitive exactly when the scan for a non-primitive reaches the end, that is, when filtering by "primitive" keeps everything. The empty list is primitive. |
| ColorPanel.UniqueValuesSpec | src/components/json-color-panel.tsx:19-30 | The output has no duplicates. It contains `String(v)` of every input, holds only such strings, and lists them in first-occurrence order. |
| ColorPanel.NameEntriesSpec | src/components/json-color-panel.tsx:87-94 | A name is offered exactly when some entry with that name has only primitive values. Each offered entry carries that entry's distinct value texts. |
| ColorPanel.HexRoundTrip | src/components/json-color-panel.tsx:32-37 | `#rrggbb` with two-digit hex channels reads back as `[r, g, b, alpha]`, with alpha passed through. |
| ColorPanel.HexPair | src/components/json-color-panel.tsx:33-35 | Two hex digits parse to `16*d1 + d2`. |
| ColorPanel.ParseIntHexReads | src/components/json-color-panel.tsx:33-35 | For every text of white space, an optional sign, a run of hex digits and then a character that is not a hex digit (or nothing), `parseInt(s, 16)` is the signed value of the run. A lone `0` before `x` is the prefix case and is not covered. |
| ColorPanel.ParseIntHexNone | src/components/json-color-panel.tsx:33-35 | For every text whose first character after white space and an optional sign is not a hex digit, `parseInt(s, 16)` is NaN. |
| ColorPanel.ParseIntHexStops | src/components/json-color-panel.tsx:33-35 | `parseInt(s, 16)` reads the longest leading hex run: `"fz"` gives 15. With no digit, as in `"zz"` or `""`, it gives NaN. |
| ColorPanel.BuildInitialColorMapKeys | src/components/json-color-panel.tsx:39-45 | The map has exactly the listed values as keys. |
| ColorPanel.BuildInitialColorMapValue | src/components/json-color-panel.tsx:39-45 | The value at position i, if not repeated later, gets preset `i mod |presets|` with alpha 200. |
| ColorPanel.SetAllSpec | src/components/json-color-panel.tsx:118-125 | Setting a key per element gives a map with exactly the set keys. Each key holds the value of its last setter. |
| ColorPanel.OverrideSpec | src/components/json-color-panel.tsx:118-125 | A spatial key gets an override exactly when one of the entry's ids has that key and refers to a coloured value `String(value[ref])`. It takes the colour of the last such id, and ids without a colour add nothing. |
| ColorPanel.FindEntry | src/components/json-color-panel.tsx:115 | `find` returns the first entry with the name, and nothing exactly when no entry has it. |
| ColorPanel.ColorOverridesSpec | src/components/json-color-panel.tsx:111-127 | Overrides exist exactly when the selected name is non-empty, has a colour map and names some entry. They come from the first such entry. |
| ColorPanel.EnsureMapsKeep | src/components/json-color-panel.tsx:100-104 | After the loop, the names with a map are the old ones plus every entry name. Existing maps are untouched. |
| ColorPanel.EnsureMapsFirst | src/components/json-color-panel.tsx:100-104 | A name that had no map gets the map built from its first entry. |
| Items.InitialValid | src/context/item.tsx:38-39 | The empty store with counter 1000 is valid. |
| Items.AddObjectSpec | src/context/item.tsx:133-183 | The new id is the counter, which then moves on by 1. The item is appended after all earlier items, is manual, not deleted and not hidden, and has the type's fixed defaults. |
| Items.AddObjectValid | src/context/item.tsx:133-183 | Adding keeps ids distinct and below the counter. |
| Items.DeleteItemSpec | src/context/item.tsx:113-115 | Deletion removes exactly the items with the id, keeps the rest in order, and leaves the counter alone. |
| Items.DeleteItemValid | src/context/item.tsx:113-115 | Deleting keeps the store valid. |
| Items.DeleteUndoesAdd | src/context/item.tsx:113-115 | Deleting the item just added restores the earlier list. |
| Items.UpdateVoxel | src/context/item.tsx:83-110 | The update keeps the number of items and the counter. |
| Items.UpdateVoxelSpec | src/context/item.tsx:83-110 | Only a voxel item with the id changes, and only in its text and voxels. It records the text, and its voxels become the parse, or `[]` on a parse failure. Its id, source, flags, colour, opacity and keys stay as they were. Other items, including a non-voxel item with the id, are untouched. |
| Items.UpdateColor | src/context/item.tsx:117-131 | The colour change keeps the number of items and the counter. |
| Items.UpdateColorSpec | src/context/item.tsx:117-131 | Only the item with the id changes, and only in its colour, whatever its type. Its id, source, flags, opacity, size, coordinates, voxels, text and keys stay as they were. |
| Items.UpdatesValid | src/context/item.tsx:83-131 | Both updates keep the store valid. |
| Items.UpdatesIdempotent | src/context/item.tsx:83-131 | Applying either update twice is the same as once. |
| VoxelStore.InitialStateValid | src/context/voxel.tsx:56-57 | The empty voxel store with counter 1000 is valid. |
| VoxelStore.AddVoxelSpec | src/context/voxel.tsx:117-143 | `addVoxel` returns the counter and moves it on by 1. It appends the new voxel item after all earlier ones and leaves both maps alone. With data it copies colour, opacity, voxels and keys, and takes the data's source or `manual` when that is absent. Without data it is manual, empty, `[0,0,255,76]` with opacity 30. |
| VoxelStore.AddVoxelValid | src/context/voxel.tsx:117-143 | Adding keeps ids distinct and below the counter, and items voxel-typed. |
| VoxelStore.DeleteVoxelSpec | src/context/voxel.tsx:145-169 | Every item with the id goes and the rest keep their order. A map key goes from both the tooltips and the overrides exactly when the first item with the id recorded it. Every other entry keeps its value. |
| VoxelStore.DeleteVoxelValid | src/context/voxel.tsx:145-169 | Deleting keeps the store valid. |
| VoxelStore.DeleteUndoesAdd | src/context/voxel.tsx:117-169 | Deleting the voxel just added restores the item list and removes the keys it recorded from both maps. With no keys, the whole state but the counter is restored. |
| VoxelStore.FindItem | src/context/voxel.tsx:146 | `find` returns the first item with the id, and nothing exactly when no item has the id. |
| VoxelStore.UpdateVoxelStringSpec | src/context/voxel.tsx:171-199 | Only items with the id change. They record the text, and their voxels become the parse, or `[]` on a parse failure. Colour, opacity and keys are kept, and the maps and counter are unchanged. |
| VoxelStore.UpdateVoxelColorSpec | src/context/voxel.tsx:201-210 | Only the colour of items with the id changes. Nothing else in the state changes. |
| VoxelStore.UpdatesKeepValid | src/context/voxel.tsx:171-210 | Both updates keep the store valid. |
| VoxelStore.MergeTooltipsUnion | src/context/voxel.tsx:107-115 | The merge loop equals the right-biased union of the old map with the incoming entries. |
| VoxelStore.AddTooltipsSpec | src/context/voxel.tsx:107-115 | An incoming key takes the new text. Every other key keeps its old text. Nothing else in the state changes. |

## Left out

- Latitude (`atan(sinh(...))` in `PureVoxelToPolygon.ts` and in the stores' focus helpers) is transcendental floating point. It is a parameter `lat`, and only facts that hold for any such function, or for any decreasing one, are stated.
- `focusVoxel`, `focusItem` and `focusOnVoxel(Defs)` only move the camera through callbacks, which is floating point and user interface. They are not modelled.
- deck.gl layers and the GeoJSON builders in `GenerateLayer.ts` and `generate-layers.ts` are foreign library objects and are not modelled.
- `console.log` in `pvoxelToCoordinates` is I/O and is not modelled.
- `colorHexToRgba`, `voxel-to-polygon.ts` and `preset_colors` are not part of this model.
  - The colour conversion is a parameter.
  - The older layer builder is modelled with `pvoxelToPolygon` in place of `voxel-to-polygon.ts`.
  - The preset list is a non-empty parameter.
- JavaScript `Number` is modelled only for trimmed decimal integers. `""` gives 0.
  - Fractions, exponents, hex and `Infinity` text give a failure where the original would store a non-integer or `NaN`.
  - The time bound `Infinity` is modelled as `PosInf`.
  - The current time and map zoom are reals.
- A negative zoom level is a parse failure here. The original computes a fractional `2 ** Z`, and the model's `Z` is a natural number.
- The original's structural `TypeError` is modelled as a `MissingSegment` failure, which the stores turn into `[]`. It arises from fewer than four `/` pieces or a time part without `/`.
- `formatValue`'s `JSON.stringify` of an object is taken as given text, carried by the `JCompound` value.
- React state, hooks, effects and closures are not modelled. Store operations are strictly sequential transitions, so the stale-closure behaviour of two `addVoxel`/`addObject` calls in one render is not modelled.
- File reading, JSON parsing and the asynchronous import flow in `context/json.tsx` are I/O and are not modelled. So are `fetch`, the time axis, the animation loop and the colour picker.
- JavaScript object key order in `groupPolygonsByColor` is modelled as insertion order. This holds for the non-integer keys `r,g,b,a` that colour keys are.
- `GenerateLayer.ts` imports `./HyperVoxelToPureVoxel`, the one-argument expander, and passes it a compile-mode argument that JavaScript ignores. Its records have no times, so as written the builder draws no voxel polygon (see "## Findings"). `LayerAsWritten.GenerateAsWritten` models that path. `Layer.Generate`, which every other layer member uses, calls the two-argument expander of `expand-voxel-range.ts` instead.
- The cache key does not include the compile mode, as in the original. `SameBucketReuses` states the consequence: a hit may return polygons generated in the other mode.
- ColorPanel.HexToRgba: it returns no colour when a channel is `NaN`, where the original returns an array holding `NaN`. So `BuildInitialColorMapKeys` assumes every preset parses.
- ColorPanel.BuildInitialColorMapValue: it states the colour only for a value not repeated later. For a repeated value, the last position's preset wins, which `SetAllSpec` states.
- JsonImport.DefinitionDenotes: it requires f and y not to be descending. The importer keeps a descending pair verbatim where the parser would sort it, which `JsonDimAgrees` states both ways.
- Expand.CoverageAgreement: it requires ascending F and Y. Compact mode keeps a descending pair as a reversed range, which covers no cell.
- Projector.AltitudeStep: it is stated for `Z <= 25`. Above that, `2^25/2^Z` is a fraction.
- Layer.CacheMiss: the fresh result it states is that of the intended step `Generate`. As written, a miss caches and returns `[]`, as `LayerAsWritten.AsWrittenDrawsNothing` states.
- Layer.FreshRender: each item's polygons are those of the intended step `Generate`. As written, every item contributes `[]`.
- LegacyLayer.LegacyAgrees: the agreement holds for the intended step `Generate`. As written, `GenerateLayer.ts` draws no voxel polygon while `generate-layers.ts` does.
- ParseId.MapAllSpec: its failures include a token with a non-numeric number (`Number("abc")` is `NaN`). Such a token fails the whole text here, so a store keeps no definition of that batch. The original stores that token's definition with `NaN` coordinates, and keeps every other definition of the batch. Only a structural `TypeError` empties the batch in the original.
- ColorPanel.ParseIntHexReads: it does not cover a `0x` or `0X` prefix after the sign. `ReadMagnitude` models the prefix, but no lemma states its reading for all inputs. The colour code only passes two-character slices of `#rrggbb` texts.
- JavaScript doubles are modelled as unbounded integers:
  - `2 ** Z - 1` is exact here. In the original it is inexact above `Z = 53` (at `Z = 60` it is `2^60`), and `2 ** Z` is `Infinity` from `Z = 1024`.
  - `Number()` of a decimal text is exact here. The original rounds integers above `2^53`.
  - `String()` of an integer is its plain decimal text here. The original writes `1e+21` and above in exponent form.
  - A JSON number value (`JNum`) carries its `String()` text as given, so fractional values are covered, but that text is not derived from a double.
- The comment on `generateRectanglePoints` calls the ring clockwise. The code's order NE, NW, SW, SE winds counter-clockwise with north up, and `Projector.RingShape` states the code's order.

## Findings

| source | as written | input that shows it | evidently intended | confidence | as-written member | corrected member |
|---|---|---|---|---|---|---|
| src/utils/GenerateLayer.ts:7,77-95 | The import resolves to the one-argument `HyperVoxelToPureVoxel.ts`, whose records have no `startTime` or `endTime`. `undefined === null` and `undefined <= t` are both false, so the time filter drops every polygon and the cache stores `[]`. | One voxel item holding `1/0/0/0` with no window, at any detail and time (`LayerAsWritten.OneVoxelDropped`). | The two-argument expander of `expand-voxel-range.ts`, which the call's compile-mode argument points to. Its records carry the definition's window, so a windowless voxel is drawn at every time (`LayerAsWritten.WindowlessAlwaysDrawn`). | high, not executed | LayerAsWritten.GenerateAsWritten | Layer.Generate |

=== FILE: color_panel.dfy ===
/** The pure part of the JSON colour panel: which data entries can be coloured
    by value, their distinct value texts, the initial colour of each value
    (cycling through a preset palette), the `#rrggbb` reader, and the colour
    override each spatial key receives for the selected entry. */
module ColorPanel {
  import opened Wrappers
  import opened Text
  import opened Seqs
  import opened Projector
  import opened JsonImport

  // ---------------------------------------------------------------------
  // JavaScript maps built by successive `set` calls

  /** The map left by calling `set(key(h), v)` for every `h` in order whose
      `val(h)` is `Some(v)`; a later `set` of a key replaces the earlier one. */
  function SetAll<H, V>(hs: seq<H>, key: H -> string, val: H -> Option<V>): map<string, V>
    decreases |hs|
  {
    if hs == [] then map[]
    else
      var m := SetAll(hs[..|hs| - 1], key, val);
      var h := hs[|hs| - 1];
      if val(h).Some? then m[key(h) := val(h).value] else m
  }

  /** `hs[i]` sets its key and no later element sets the same key again. */
  predicate LastSet<H, V>(hs: seq<H>, key: H -> string, val: H -> Option<V>, i: int)
    requires 0 <= i < |hs|
  {
    val(hs[i]).Some? && forall j | i < j < |hs| :: !(key(hs[j]) == key(hs[i]) && val(hs[j]).Some?)
  }

  /** A key is in the map exactly when some element sets it, and it holds
      the value of the last element that does. */
  lemma SetAllSpec<H, V>(hs: seq<H>, key: H -> string, val: H -> Option<V>, k: string)
    ensures k in SetAll(hs, key, val) <==> exists i | 0 <= i < |hs| :: key(hs[i]) == k && val(hs[i]).Some?
    ensures forall i | 0 <= i < |hs| && key(hs[i]) == k && LastSet(hs, key, val, i) ::
              k in SetAll(hs, key, val) && SetAll(hs, key, val)[k] == val(hs[i]).value
  {
    SetAllDomain(hs, key, val, k);
    forall i | 0 <= i < |hs| && key(hs[i]) == k && LastSet(hs, key, val, i)
      ensures k in SetAll(hs, key, val) && SetAll(hs, key, val)[k] == val(hs[i]).value
    {
      SetAllLast(hs, key, val, i);
    }
  }

  lemma {:induction false} SetAllDomain<H, V>(hs: seq<H>, key: H -> string, val: H -> Option<V>, k: string)
    ensures k in SetAll(hs, key, val) <==> exists i | 0 <= i < |hs| :: key(hs[i]) == k && val(hs[i]).Some?
    decreases |hs|
  {
    if hs != [] {
      var init := hs[..|hs| - 1];
      var h := hs[|hs| - 1];
      var n := |hs| - 1;
      SetAllDomain(init, key, val, k);
      if k in SetAll(init, key, val) {
        var i :| 0 <= i < n && key(init[i]) == k && val(init[i]).Some?;
        assert init[i] == hs[i];
      }
      if exists i | 0 <= i < |hs| :: key(hs[i]) == k && val(hs[i]).Some? {
        var i :| 0 <= i < |hs| && key(hs[i]) == k && val(hs[i]).Some?;
        if i < n {
          assert init[i] == hs[i];
        }
      }
    }
  }

  lemma {:induction false} SetAllLast<H, V>(hs: seq<H>, key: H -> string, val: H -> Option<V>, i: int)
    requires 0 <= i < |hs| && LastSet(hs, key, val, i)
    ensures key(hs[i]) in SetAll(hs, key, val) && SetAll(hs, key, val)[key(hs[i])] == val(hs[i]).value
    decreases |hs|
  {
    var init := hs[..|hs| - 1];
    var n := |hs| - 1;
    if i < n {
      assert init[i] == hs[i];
      assert !(key(hs[n]) == key(hs[i]) && val(hs[n]).Some?);
      assert LastSet(init, key, val, i) by {
        forall j | i < j < |init|
          ensures !(key(init[j]) == key(init[i]) && val(init[j]).Some?)
        {
          assert init[j] == hs[j];
        }
      }
      SetAllLast(init, key, val, i);
    }
  }

  // ---------------------------------------------------------------------
  // Entries that can be coloured

  predicate IsPrimitive(v: JsonValue) {
    v.JStr? || v.JNum? || v.JBool?
  }

  /** `isPrimitiveArray`: `every` element is a string, a number or a boolean
      (so the empty list qualifies). */
  predicate IsPrimitiveArray(values: seq<JsonValue>) {
    forall i | 0 <= i < |values| :: IsPrimitive(values[i])
  }

  /** The `every` loop: stops at the first element that fails. */
  function FirstNonPrimitive(values: seq<JsonValue>): (k: nat)
    ensures k <= |values|
    decreases |values|
  {
    if values == [] then 0
    else if !IsPrimitive(values[0]) then 0
    else 1 + FirstNonPrimitive(values[1..])
  }

  /** The list is primitive exactly when the scan runs off its end, and
      exactly when filtering by primitiveness keeps it whole. */
  lemma {:induction false} PrimitiveArraySpec(values: seq<JsonValue>)
    ensures IsPrimitiveArray(values) <==> FirstNonPrimitive(values) == |values|
    ensures IsPrimitiveArray(values) <==> Filter(values, IsPrimitive) == values
    decreases |values|
  {
    if values != [] {
      PrimitiveArraySpec(values[1..]);
      assert values == [values[0]] + values[1..];
      if IsPrimitive(values[0]) {
        assert IsPrimitiveArray(values) <==> IsPrimitiveArray(values[1..]) by {
          assert forall i | 0 < i < |values| :: values[i] == values[1..][i - 1];
        }
      } else {
        assert |Filter(values, IsPrimitive)| < |values| by {
          assert Filter(values, IsPrimitive) == Filter(values[1..], IsPrimitive);
        }
      }
    }
  }

  /** `String(v)` of every element. */
  function Strings(values: seq<JsonValue>): (r: seq<string>)
    ensures |r| == |values|
  {
    seq(|values|, i requires 0 <= i < |values| => StringOf(Some(values[i])))
  }

  function Self(s: string): string {
    s
  }

  /** `uniqueValues`: the distinct `String(v)` texts in first-occurrence order. */
  function UniqueValues(values: seq<JsonValue>): seq<string> {
    DedupBy(Strings(values), Self)
  }

  /** The distinct texts: no text twice, every input's text present, nothing
      else present, input order kept. */
  lemma UniqueValuesSpec(values: seq<JsonValue>)
    ensures forall i, j | 0 <= i < j < |UniqueValues(values)| :: UniqueValues(values)[i] != UniqueValues(values)[j]
    ensures forall i | 0 <= i < |values| :: StringOf(Some(values[i])) in UniqueValues(values)
    ensures forall s | s in UniqueValues(values) :: s in Strings(values)
    ensures IsSubsequence(UniqueValues(values), Strings(values))
  {
    var ss := Strings(values);
    var r := UniqueValues(values);
    DedupBySpec(ss, Self);
    forall i | 0 <= i < |values|
      ensures StringOf(Some(values[i])) in r
    {
      assert Self(ss[i]) in Keys(ss, Self);
      var k :| 0 <= k < |r| && Self(r[k]) == Self(ss[i]);
    }
    forall s | s in r
      ensures s in ss
    {
      var k :| 0 <= k < |r| && r[k] == s;
      assert Self(r[k]) in Keys(r, Self);
    }
  }

  datatype NameEntry = NameEntry(name: string, values: seq<string>)

  predicate HasPrimitiveValues(e: DataEntry) {
    IsPrimitiveArray(e.values)
  }

  /** The entries offered for colouring: those whose values are all
      primitive, with their distinct value texts. */
  function NameEntries(data: seq<DataEntry>): (r: seq<NameEntry>)
    ensures |r| <= |data|
  {
    var kept := Filter(data, HasPrimitiveValues);
    seq(|kept|, i requires 0 <= i < |kept| => NameEntry(kept[i].name, UniqueValues(kept[i].values)))
  }

  /** A name is offered exactly when some entry with that name has only
      primitive values, and each offered entry carries that entry's distinct
      value texts. */
  lemma NameEntriesSpec(data: seq<DataEntry>, n: string)
    ensures (exists k | 0 <= k < |NameEntries(data)| :: NameEntries(data)[k].name == n) <==>
              exists e | e in data :: e.name == n && IsPrimitiveArray(e.values)
    ensures forall k | 0 <= k < |NameEntries(data)| :: exists e | e in data ::
              IsPrimitiveArray(e.values) && NameEntries(data)[k] == NameEntry(e.name, UniqueValues(e.values))
  {
    var kept := Filter(data, HasPrimitiveValues);
    forall e | e in data && e.name == n && IsPrimitiveArray(e.values)
      ensures exists k | 0 <= k < |NameEntries(data)| :: NameEntries(data)[k].name == n
    {
      FilterMember(data, HasPrimitiveValues, e);
      var k :| 0 <= k < |kept| && kept[k] == e;
      assert NameEntries(data)[k].name == n;
    }
    forall k | 0 <= k < |NameEntries(data)|
      ensures exists e | e in data ::
                IsPrimitiveArray(e.values) && NameEntries(data)[k] == NameEntry(e.name, UniqueValues(e.values))
    {
      assert kept[k] in kept;
      FilterMember(data, HasPrimitiveValues, kept[k]);
      assert NameEntries(data)[k] == NameEntry(kept[k].name, UniqueValues(kept[k].values));
    }
  }

  /** The entry selected when the panel opens: the first one, if any. */
  function InitialSelection(entries: seq<NameEntry>): Option<string> {
    if |entries| > 0 then Some(entries[0].name) else None
  }

  // ---------------------------------------------------------------------
  // Hexadecimal colours

  predicate IsHexDigit(c: char) {
    '0' <= c <= '9' || 'a' <= c <= 'f' || 'A' <= c <= 'F'
  }

  function HexDigitValue(c: char): (d: nat)
    requires IsHexDigit(c)
    ensures d < 16
  {
    if '0' <= c <= '9' then (c as int) - ('0' as int)
    else if 'a' <= c <= 'f' then (c as int) - ('a' as int) + 10
    else (c as int) - ('A' as int) + 10
  }

  predicate AllHex(s: string) {
    forall i | 0 <= i < |s| :: IsHexDigit(s[i])
  }

  /** The value of a run of hexadecimal digits, most significant first. */
  function HexValue(s: string): nat
    requires AllHex(s)
  {
    if s == [] then 0 else HexValue(s[..|s| - 1]) * 16 + HexDigitValue(s[|s| - 1])
  }

  /** Length of the run of hexadecimal digits at the start of `s`. */
  function HexRun(s: string): (n: nat)
    ensures n <= |s| && AllHex(s[..n])
    ensures n == |s| || !IsHexDigit(s[n])
  {
    if |s| > 0 && IsHexDigit(s[0]) then
      var n := 1 + HexRun(s[1..]);
      assert s[..n] == [s[0]] + s[1..][..n - 1];
      n
    else 0
  }

  /** `Number.parseInt(s, 16)`: leading white space is skipped, one sign is
      read, a `0x` or `0X` prefix is dropped, then the longest run of
      hexadecimal digits is read; with no digit the result is NaN (`None`). */
  function ParseIntHex(s: string): Option<int> {
    ReadSigned(s[LeadingSpaces(s)..])
  }

  /** The value after the white space: one optional sign, then the
      magnitude. */
  function ReadSigned(t: string): Option<int> {
    var m := ReadMagnitude(Unsigned(t));
    if m.None? then None
    else if |t| > 0 && t[0] == '-' then Some(-(m.value as int))
    else Some(m.value)
  }

  /** The magnitude after the sign: an optional `0x` prefix, then the
      longest run of hex digits, or NaN without one. */
  function ReadMagnitude(u: string): Option<nat> {
    var w := Unprefixed(u);
    var n := HexRun(w);
    if n == 0 then None else Some(HexValue(w[..n]))
  }

  /** The text after one leading sign, if any. */
  function Unsigned(t: string): string {
    if |t| > 0 && (t[0] == '-' || t[0] == '+') then t[1..] else t
  }

  /** The text after a leading `0x` or `0X`, if any. */
  function Unprefixed(u: string): string {
    if |u| >= 2 && u[0] == '0' && (u[1] == 'x' || u[1] == 'X') then u[2..] else u
  }

  /** `s.slice(from, to)` for `0 <= from <= to`: indices are clamped to the
      length. */
  function Slice(s: string, from: nat, to: nat): (r: string)
    requires from <= to
    ensures |r| <= to - from
  {
    var a := if from <= |s| then from else |s|;
    var b := if to <= |s| then to else |s|;
    s[a..b]
  }

  /** `hexToRgba`: the channels from characters 1-2, 3-4 and 5-6 and the
      given alpha; `None` when a channel reads as NaN. */
  function HexToRgba(hex: string, alpha: int): Option<Color> {
    var r := ParseIntHex(Slice(hex, 1, 3));
    var g := ParseIntHex(Slice(hex, 3, 5));
    var b := ParseIntHex(Slice(hex, 5, 7));
    if r.Some? && g.Some? && b.Some? then Some([r.value, g.value, b.value, alpha]) else None
  }

  /** The lower-case digit of a value below 16. */
  function HexChar(d: nat): (c: char)
    requires d < 16
    ensures IsHexDigit(c) && HexDigitValue(c) == d
  {
    if d < 10 then ('0' as int + d) as char else ('a' as int + d - 10) as char
  }

  /** `#rrggbb` for channels in 0..255. */
  function ColorHex(r: nat, g: nat, b: nat): (s: string)
    requires r < 256 && g < 256 && b < 256
    ensures |s| == 7
  {
    "#" + [HexChar(r / 16), HexChar(r % 16)] + [HexChar(g / 16), HexChar(g % 16)] + [HexChar(b / 16), HexChar(b % 16)]
  }

  lemma HexRunAll(s: string)
    requires AllHex(s)
    ensures HexRun(s) == |s|
  {
  }

  /** A non-empty run of hexadecimal digits reads as its value. */
  lemma ParseIntHexDigits(s: string)
    requires |s| >= 2 && AllHex(s)
    ensures ParseIntHex(s) == Some(HexValue(s))
  {
    assert IsHexDigit(s[0]) && IsHexDigit(s[1]);
    NoLeadingSpace(s);
    assert s[0..] == s;
    assert !(s[0] == '-' || s[0] == '+');
    assert !(s[1] == 'x' || s[1] == 'X');
    HexRunAll(s);
    assert s[..|s|] == s;
  }

  lemma NoLeadingSpace(s: string)
    requires |s| > 0 && IsHexDigit(s[0])
    ensures LeadingSpaces(s) == 0
  {
    assert !IsSpace(s[0]);
  }

  /** Two hexadecimal digits read as one byte. */
  lemma HexPair(c1: char, c2: char)
    requires IsHexDigit(c1) && IsHexDigit(c2)
    ensures ParseIntHex([c1, c2]) == Some(16 * HexDigitValue(c1) + HexDigitValue(c2))
  {
    var s := [c1, c2];
    ParseIntHexDigits(s);
    assert s[..1] == [c1];
    assert [c1][..0] == [];
    assert HexValue([c1]) == HexDigitValue(c1);
    assert HexValue(s) == HexValue([c1]) * 16 + HexDigitValue(c2);
  }

  /** The two digits `ColorHex` writes for a byte read back as that byte. */
  lemma ByteHex(n: nat)
    requires n < 256
    ensures ParseIntHex([HexChar(n / 16), HexChar(n % 16)]) == Some(n)
  {
    HexPair(HexChar(n / 16), HexChar(n % 16));
  }

  /** Reading a colour written as `#rrggbb` gives back its channels. */
  lemma HexRoundTrip(r: nat, g: nat, b: nat, alpha: int)
    requires r < 256 && g < 256 && b < 256
    ensures HexToRgba(ColorHex(r, g, b), alpha) == Some([r, g, b, alpha])
  {
    var (A, B, C) := ([HexChar(r / 16), HexChar(r % 16)], [HexChar(g / 16), HexChar(g % 16)], [HexChar(b / 16), HexChar(b % 16)]);
    var s := ColorHex(r, g, b);
    assert s == "#" + A + B + C;
    assert Slice(s, 1, 3) == A && Slice(s, 3, 5) == B && Slice(s, 5, 7) == C;
    ByteHex(r);
    ByteHex(g);
    ByteHex(b);
  }

  /** `parseInt` stops at the first character that is not a digit, and reads
      NaN when there is none. */
  lemma ParseIntHexStops()
    ensures ParseIntHex("fz") == Some(15)
    ensures ParseIntHex("zz") == None
    ensures ParseIntHex("") == None
  {
    assert HexRun("fz") == 1 by {
      assert "fz"[1..] == "z";
    }
    assert "fz"[..1] == "f";
    assert "f"[..0] == [];
    assert LeadingSpaces("fz") == 0 && "fz"[0..] == "fz";
    assert LeadingSpaces("zz") == 0 && "zz"[0..] == "zz";
  }

  /** The digit run stops where the digits stop. */
  lemma {:induction false} HexRunPrefix(d: string, rest: string)
    requires AllHex(d)
    requires rest == [] || !IsHexDigit(rest[0])
    ensures HexRun(d + rest) == |d|
    decreases |d|
  {
    if d != [] {
      assert (d + rest)[1..] == d[1..] + rest;
      HexRunPrefix(d[1..], rest);
    }
  }

  lemma {:induction false} LeadingSpacesPrefix(sp: string, x: string)
    requires AllSpace(sp)
    requires x == [] || !IsSpace(x[0])
    ensures LeadingSpaces(sp + x) == |sp|
    decreases |sp|
  {
    if sp != [] {
      assert (sp + x)[1..] == sp[1..] + x;
      assert AllSpace(sp[1..]) by {
        forall i | 0 <= i < |sp[1..]|
          ensures IsSpace(sp[1..][i])
        {
          assert sp[1..][i] == sp[i + 1];
        }
      }
      LeadingSpacesPrefix(sp[1..], x);
    } else {
      assert sp + x == x;
    }
  }

  /** `parseInt(s, 16)` on white space, an optional sign, a run of hex
      digits and then anything that does not continue the run: the signed
      value of the run. A lone `0` followed by `x` or `X` is the prefix case
      and is excluded. */
  lemma ParseIntHexReads(sp: string, sign: string, d: string, rest: string)
    requires AllSpace(sp)
    requires sign == "" || sign == "-" || sign == "+"
    requires d != [] && AllHex(d)
    requires rest == [] || !IsHexDigit(rest[0])
    requires !(d == "0" && rest != [] && (rest[0] == 'x' || rest[0] == 'X'))
    ensures ParseIntHex(sp + sign + d + rest) == Some(SignedValue(sign, HexValue(d)))
  {
    var u := d + rest;
    var s := sp + sign + d + rest;
    assert s == sp + (sign + u);
    assert IsHexDigit(u[0]);
    SkipSpaces(sp, sign + u);
    assert ParseIntHex(s) == ReadSigned(sign + u);
    MagnitudeDigits(d, rest);
    assert ReadMagnitude(u) == Some(HexValue(d));
    SkipSign(sign, u, HexValue(d));
  }

  /** A magnitude under a sign text: negated for `-`. */
  function SignedValue(sign: string, v: nat): int {
    if sign == "-" then -(v as int) else v
  }

  /** Leading white space is skipped. */
  lemma SkipSpaces(sp: string, t: string)
    requires AllSpace(sp)
    requires t == [] || !IsSpace(t[0])
    ensures ParseIntHex(sp + t) == ReadSigned(t)
  {
    LeadingSpacesPrefix(sp, t);
    assert (sp + t)[|sp|..] == t;
  }

  /** One sign is read; what follows may not start with another. */
  lemma SkipSign(sign: string, u: string, v: nat)
    requires sign == "" || sign == "-" || sign == "+"
    requires u == [] || (u[0] != '-' && u[0] != '+')
    requires ReadMagnitude(u) == Some(v)
    ensures ReadSigned(sign + u) == Some(SignedValue(sign, v))
  {
    if sign != "" {
      assert (sign + u)[0] == sign[0] && (sign + u)[1..] == u;
    } else {
      assert sign + u == u;
    }
  }

  /** A run of hex digits, other than a lone `0` before `x`, reads as its
      value. */
  lemma MagnitudeDigits(d: string, rest: string)
    requires d != [] && AllHex(d)
    requires rest == [] || !IsHexDigit(rest[0])
    requires !(d == "0" && rest != [] && (rest[0] == 'x' || rest[0] == 'X'))
    ensures ReadMagnitude(d + rest) == Some(HexValue(d))
  {
    var u := d + rest;
    if |d| >= 2 {
      assert u[1] == d[1] && IsHexDigit(d[1]);
    } else if |u| >= 2 {
      assert u[1] == rest[0];
      assert d == [d[0]];
    }
    assert Unprefixed(u) == u;
    HexRunPrefix(d, rest);
    assert u[..|d|] == d;
  }

  /** With no digit after the white space and an optional sign,
      `parseInt(s, 16)` is NaN. */
  lemma ParseIntHexNone(sp: string, sign: string, rest: string)
    requires AllSpace(sp)
    requires sign == "" || sign == "-" || sign == "+"
    requires rest == [] || (!IsHexDigit(rest[0]) && !IsSpace(rest[0]) && rest[0] != '-' && rest[0] != '+')
    ensures ParseIntHex(sp + sign + rest) == None
  {
    assert sign + rest == [] || !IsSpace((sign + rest)[0]) by {
      if sign == "" {
        assert sign + rest == rest;
      }
    }
    assert sp + sign + rest == sp + (sign + rest);
    SkipSpaces(sp, sign + rest);
    MagnitudeNone(rest);
    SkipSignNone(sign, rest);
  }

  /** Text that starts with no digit has no magnitude. */
  lemma MagnitudeNone(u: string)
    requires u == [] || (!IsHexDigit(u[0]) && u[0] != '-' && u[0] != '+')
    ensures ReadMagnitude(u) == None
  {
    if u != [] {
      assert Unprefixed(u) == u;
    }
  }

  /** A sign before text with no magnitude reads as NaN. */
  lemma SkipSignNone(sign: string, u: string)
    requires sign == "" || sign == "-" || sign == "+"
    requires u == [] || (u[0] != '-' && u[0] != '+')
    requires ReadMagnitude(u) == None
    ensures ReadSigned(sign + u) == None
  {
    if sign != "" {
      assert (sign + u)[0] == sign[0] && (sign + u)[1..] == u;
    } else {
      assert sign + u == u;
    }
  }

  // ---------------------------------------------------------------------
  // Initial colours and overrides

  /** The colour of the `i`-th value: preset `i mod |presets|` with alpha 200. */
  function PresetColor(presets: seq<string>, i: int): Option<Color>
    requires |presets| > 0
  {
    HexToRgba(presets[i % |presets|], 200)
  }

  /** Each value paired with its position. */
  function Indexed(values: seq<string>): (r: seq<(string, int)>)
    ensures |r| == |values|
    ensures forall i | 0 <= i < |r| :: r[i] == (values[i], i)
  {
    seq(|values|, i requires 0 <= i < |values| => (values[i], i))
  }

  function IndexedKey(p: (string, int)): string { p.0 }

  /** `buildInitialColorMap`: `set(values[i], preset colour i)` for each `i`. */
  function BuildInitialColorMap(values: seq<string>, presets: seq<string>): map<string, Color>
    requires |presets| > 0
  {
    SetAll(Indexed(values), IndexedKey, (p: (string, int)) => PresetColor(presets, p.1))
  }

  /** Setting every value by position: the keys are exactly the values whose
      position yields something. */
  lemma IndexedKeys<V>(values: seq<string>, val: ((string, int)) -> Option<V>)
    requires forall i | 0 <= i < |values| :: val((values[i], i)).Some?
    ensures SetAll(Indexed(values), IndexedKey, val).Keys == set k | 0 <= k < |values| :: values[k]
  {
    var indexed := Indexed(values);
    var m := SetAll(indexed, IndexedKey, val);
    forall v | v in m
      ensures v in set k | 0 <= k < |values| :: values[k]
    {
      SetAllDomain(indexed, IndexedKey, val, v);
      var k :| 0 <= k < |indexed| && IndexedKey(indexed[k]) == v && val(indexed[k]).Some?;
      assert values[k] == v;
    }
    forall k | 0 <= k < |values|
      ensures values[k] in m
    {
      SetAllDomain(indexed, IndexedKey, val, values[k]);
      assert IndexedKey(indexed[k]) == values[k] && val(indexed[k]).Some?;
    }
  }

  /** Setting every value by position: a value not repeated later keeps what
      its own position yields. */
  lemma IndexedLast<V>(values: seq<string>, val: ((string, int)) -> Option<V>, i: int)
    requires 0 <= i < |values| && val((values[i], i)).Some?
    requires forall j | i < j < |values| :: values[j] != values[i]
    ensures values[i] in SetAll(Indexed(values), IndexedKey, val)
    ensures SetAll(Indexed(values), IndexedKey, val)[values[i]] == val((values[i], i)).value
  {
    var indexed := Indexed(values);
    assert LastSet(indexed, IndexedKey, val, i) by {
      forall j | i < j < |indexed|
        ensures IndexedKey(indexed[j]) != IndexedKey(indexed[i])
      {
        assert IndexedKey(indexed[j]) == values[j];
      }
    }
    SetAllLast(indexed, IndexedKey, val, i);
    assert IndexedKey(indexed[i]) == values[i];
  }

  /** Every value gets a colour, and only the values do. */
  lemma BuildInitialColorMapKeys(values: seq<string>, presets: seq<string>)
    requires |presets| > 0
    requires forall p | p in presets :: HexToRgba(p, 200).Some?
    ensures BuildInitialColorMap(values, presets).Keys == set k | 0 <= k < |values| :: values[k]
  {
    var val := (p: (string, int)) => PresetColor(presets, p.1);
    forall i | 0 <= i < |values|
      ensures val((values[i], i)).Some?
    {
      assert presets[i % |presets|] in presets;
    }
    IndexedKeys(values, val);
  }

  /** A value listed once after position `i` (as `uniqueValues` guarantees
      for every value) gets the preset at its position, cycling through the
      palette. */
  lemma BuildInitialColorMapValue(values: seq<string>, presets: seq<string>, i: int)
    requires |presets| > 0 && 0 <= i < |values|
    requires HexToRgba(presets[i % |presets|], 200).Some?
    requires forall j | i < j < |values| :: values[j] != values[i]
    ensures values[i] in BuildInitialColorMap(values, presets)
    ensures BuildInitialColorMap(values, presets)[values[i]] == HexToRgba(presets[i % |presets|], 200).value
  {
    var val := (p: (string, int)) => PresetColor(presets, p.1);
    IndexedLast(values, val, i);
  }

  /** The first entry with a given name (`find`). */
  function FindEntry(data: seq<DataEntry>, name: string): (r: Option<DataEntry>)
    ensures r.Some? ==> r.value in data && r.value.name == name
    ensures r.Some? ==> exists k | 0 <= k < |data| :: data[k] == r.value && forall j | 0 <= j < k :: data[j].name != name
    ensures r.None? <==> forall e | e in data :: e.name != name
    decreases |data|
  {
    if data == [] then None
    else if data[0].name == name then Some(data[0])
    else
      var r := FindEntry(data[1..], name);
      if r.Some? then
        FirstNamedShift(data, name, r.value);
        r
      else r
  }

  /** A first match in the tail, after a head that does not match, is a first
      match in the whole list. */
  lemma FirstNamedShift(data: seq<DataEntry>, name: string, x: DataEntry)
    requires data != [] && data[0].name != name
    requires exists k | 0 <= k < |data[1..]| :: data[1..][k] == x && forall j | 0 <= j < k :: data[1..][j].name != name
    ensures exists k | 0 <= k < |data| :: data[k] == x && forall j | 0 <= j < k :: data[j].name != name
  {
    var k :| 0 <= k < |data[1..]| && data[1..][k] == x && forall j | 0 <= j < k :: data[1..][j].name != name;
    assert forall j | 0 < j <= k :: data[j] == data[1..][j - 1];
    assert data[k + 1] == x && forall j | 0 <= j < k + 1 :: data[j].name != name;
  }

  /** The colour of the value an id refers to, if that value text has one. */
  function ValueColor(e: DataEntry, colors: map<string, Color>, id: KasaneId): Option<Color> {
    var text := StringOf(ValueAt(e.values, id.ref));
    if text in colors then Some(colors[text]) else None
  }

  /** The override map of an entry: `set(spatialKey(id), colour)` for each id
      whose value has a colour. */
  function OverrideMap(e: DataEntry, colors: map<string, Color>): map<string, Color> {
    SetAll(e.ids, SpatialKey, ColorOf(e, colors))
  }

  /** `ValueColor` of an entry, as the function handed to `SetAll`. */
  function ColorOf(e: DataEntry, colors: map<string, Color>): KasaneId -> Option<Color> {
    (id: KasaneId) => ValueColor(e, colors, id)
  }

  /** The effect that reports overrides: nothing is reported when no name is
      selected (an empty name counts as none), when the name has no colour
      map, or when no data entry has that name. */
  function ColorOverrides(data: seq<DataEntry>, selectedName: Option<string>,
                          colorMaps: map<string, map<string, Color>>): Option<map<string, Color>> {
    if selectedName.None? || selectedName.value == "" then None
    else if selectedName.value !in colorMaps then None
    else
      match FindEntry(data, selectedName.value)
      case None => None
      case Some(e) => Some(OverrideMap(e, colorMaps[selectedName.value]))
  }

  /** A spatial key gets an override exactly when one of the entry's ids has
      it and refers to a coloured value; it receives the colour of the last
      such id. */
  lemma OverrideSpec(e: DataEntry, colors: map<string, Color>, k: string)
    ensures k in OverrideMap(e, colors) <==>
              exists i | 0 <= i < |e.ids| :: SpatialKey(e.ids[i]) == k &&
                StringOf(ValueAt(e.values, e.ids[i].ref)) in colors
    ensures forall i | 0 <= i < |e.ids| && SpatialKey(e.ids[i]) == k &&
                       LastSet(e.ids, SpatialKey, ColorOf(e, colors), i) ::
              OverrideMap(e, colors)[k] == colors[StringOf(ValueAt(e.values, e.ids[i].ref))]
  {
    var val := ColorOf(e, colors);
    SetAllSpec(e.ids, SpatialKey, val, k);
    forall i | 0 <= i < |e.ids|
      ensures val(e.ids[i]).Some? <==> StringOf(ValueAt(e.values, e.ids[i].ref)) in colors
      ensures val(e.ids[i]).Some? ==> val(e.ids[i]).value == colors[StringOf(ValueAt(e.values, e.ids[i].ref))]
    {
    }
  }

  /** Overrides are reported for the first entry with the selected name and
      the colour map stored under that name. */
  lemma ColorOverridesSpec(data: seq<DataEntry>, name: string, colorMaps: map<string, map<string, Color>>)
    ensures ColorOverrides(data, Some(name), colorMaps).Some? <==>
              name != "" && name in colorMaps && exists e | e in data :: e.name == name
    ensures ColorOverrides(data, Some(name), colorMaps).Some? ==>
              ColorOverrides(data, Some(name), colorMaps).value == OverrideMap(FindEntry(data, name).value, colorMaps[name])
  {
  }

  /** Adds `build(e)` under each entry's name that has no map yet, in entry
      order. */
  function EnsureMaps<V>(entries: seq<NameEntry>, maps: map<string, V>, build: NameEntry -> V): map<string, V>
    decreases |entries|
  {
    if entries == [] then maps
    else
      var m := EnsureMaps(entries[..|entries| - 1], maps, build);
      var e := entries[|entries| - 1];
      if e.name in m then m else m[e.name := build(e)]
  }

  /** Colour maps are created for entries that have none, before the
      overrides are computed; an existing map (edited colours) is kept. */
  function EnsureColorMaps(entries: seq<NameEntry>, maps: map<string, map<string, Color>>,
                           presets: seq<string>): map<string, map<string, Color>>
    requires |presets| > 0
  {
    EnsureMaps(entries, maps, (e: NameEntry) => BuildInitialColorMap(e.values, presets))
  }

  function Names(entries: seq<NameEntry>): set<string> {
    set i | 0 <= i < |entries| :: entries[i].name
  }

  lemma NamesSnoc(entries: seq<NameEntry>)
    requires entries != []
    ensures Names(entries) == Names(entries[..|entries| - 1]) + {entries[|entries| - 1].name}
  {
    var init := entries[..|entries| - 1];
    forall x | x in Names(entries)
      ensures x in Names(init) + {entries[|entries| - 1].name}
    {
      var i :| 0 <= i < |entries| && entries[i].name == x;
      if i < |init| {
        assert init[i].name == x;
      }
    }
    forall x | x in Names(init)
      ensures x in Names(entries)
    {
      var i :| 0 <= i < |init| && init[i].name == x;
      assert entries[i].name == x;
    }
  }

  /** Every entry's name gets a map, and existing maps are untouched. */
  lemma {:induction false} EnsureMapsKeep<V>(entries: seq<NameEntry>, maps: map<string, V>, build: NameEntry -> V)
    ensures EnsureMaps(entries, maps, build).Keys == maps.Keys + Names(entries)
    ensures forall n | n in maps :: EnsureMaps(entries, maps, build)[n] == maps[n]
    decreases |entries|
  {
    if entries != [] {
      EnsureMapsKeep(entries[..|entries| - 1], maps, build);
      NamesSnoc(entries);
    }
  }

  /** A name without a map gets the map built from its first entry. */
  lemma {:induction false} EnsureMapsFirst<V>(entries: seq<NameEntry>, maps: map<string, V>, build: NameEntry -> V, i: int)
    requires 0 <= i < |entries| && entries[i].name !in maps
    requires forall j | 0 <= j < i :: entries[j].name != entries[i].name
    ensures entries[i].name in EnsureMaps(entries, maps, build)
    ensures EnsureMaps(entries, maps, build)[entries[i].name] == build(entries[i])
    decreases |entries|
  {
    var init := entries[..|entries| - 1];
    var n := |entries| - 1;
    if i < n {
      assert init[i] == entries[i];
      assert forall j | 0 <= j < i :: init[j] == entries[j];
      EnsureMapsFirst(init, maps, build, i);
    } else {
      EnsureMapsKeep(init, maps, build);
      assert entries[n].name !in Names(init) by {
        forall j | 0 <= j < n
          ensures init[j].name != entries[n].name
        {
          assert init[j] == entries[j];
        }
      }
    }
  }
}

=== FILE: expand.dfy ===
/** The range compiler: `VoxelDefinition`s become tiles (`PureVoxel`s),
    either compactly — one tile per definition, two when its X range wraps
    through the antimeridian — or exhaustively, one unit tile per cell. */
module Expand {
  import opened Wrappers
  import opened Text
  import opened Seqs
  import opened Voxels
  import opened ParseId
  import opened IdSyntax

  /** A tile: inclusive index ranges `[X, X2]`, `[Y, Y2]`, `[F, F2]` at zoom
      `Z`, the identifier of the definition it came from, and its window. */
  datatype Tile = Tile(
    Z: nat,
    X: int, X2: int,
    Y: int, Y2: int,
    F: int, F2: int,
    originalId: string,
    startTime: Option<int>,
    endTime: Option<EndTime>)

  /** One unit cell of space. */
  datatype Cell = Cell(Z: nat, F: int, X: int, Y: int)

  /** `toRange`: a scalar `v` is `[v, v]`; a pair is kept in stored order. */
  function ToRange(d: Dim): (int, int) {
    match d
    case Scalar(v) => (v, v)
    case Pair(a, b) => (a, b)
  }

  /** `formatDim`: a scalar as its decimal text, a pair as `a:b` in stored order. */
  function FormatDim(d: Dim): string {
    match d
    case Scalar(v) => IntToString(v)
    case Pair(a, b) => IntToString(a) + ":" + IntToString(b)
  }

  /** The identifier text `Z/F/X/Y` of a definition, time left out. */
  function OriginalId(v: VoxelDefinition): string {
    Join([IntToString(v.Z), FormatDim(v.F), FormatDim(v.X), FormatDim(v.Y)], '/')
  }

  predicate Wraps(d: Dim) {
    d.Pair? && d.a > d.b
  }

  /** The compact tiles of one definition. */
  function CompactOne(v: VoxelDefinition): (ts: seq<Tile>)
    ensures |ts| == if Wraps(v.X) then 2 else 1
  {
    var (fMin, fMax) := ToRange(v.F);
    var (yMin, yMax) := ToRange(v.Y);
    var id := OriginalId(v);
    match v.X
    case Scalar(x) => [Tile(v.Z, x, x, yMin, yMax, fMin, fMax, id, v.startTime, v.endTime)]
    case Pair(xStart, xEnd) =>
      if xStart <= xEnd then
        [Tile(v.Z, xStart, xEnd, yMin, yMax, fMin, fMax, id, v.startTime, v.endTime)]
      else
        var maxX := Pow2(v.Z) - 1;
        [Tile(v.Z, xStart, maxX, yMin, yMax, fMin, fMax, id, v.startTime, v.endTime),
         Tile(v.Z, 0, xEnd, yMin, yMax, fMin, fMax, id, v.startTime, v.endTime)]
  }

  /** `compileModeParse`. */
  function Compact(vs: seq<VoxelDefinition>): seq<Tile> {
    FlatMap(vs, CompactOne)
  }

  /** `enumerateRange`: the pair is sorted first, so the result always
      ascends from the smaller bound to the larger one. */
  function EnumerateRange(d: Dim): seq<int> {
    match d
    case Scalar(v) => [v]
    case Pair(a, b) => Ints(Min(a, b), Max(a, b) + 1)
  }

  /** `enumerateXRange`: a pair `lo > hi` wraps, running from `lo` to the
      last column `2^Z - 1` and then from 0 to `hi`. */
  function EnumerateXRange(d: Dim, z: nat): seq<int> {
    match d
    case Scalar(v) => [v]
    case Pair(lo, hi) =>
      if lo <= hi then Ints(lo, hi + 1) else Ints(lo, Pow2(z)) + Ints(0, hi + 1)
  }

  /** The cells of column `(x, y)`, one per altitude in `fs`. */
  function Column(z: nat, x: int, y: int, fs: seq<int>): (r: seq<Cell>)
    ensures |r| == |fs|
  {
    seq(|fs|, k requires 0 <= k < |fs| => Cell(z, fs[k], x, y))
  }

  /** The cells of the slice at column `x`: y outer, f inner. */
  function Plane(z: nat, x: int, ys: seq<int>, fs: seq<int>): seq<Cell> {
    if ys == [] then [] else Column(z, x, ys[0], fs) + Plane(z, x, ys[1..], fs)
  }

  /** The cells of a box, x outermost, then y, then f. */
  function Cells(z: nat, xs: seq<int>, ys: seq<int>, fs: seq<int>): seq<Cell> {
    FlatMap(xs, PlaneAt(z, ys, fs))
  }

  /** The slice function for one box: column `x` to its slice. */
  function PlaneAt(z: nat, ys: seq<int>, fs: seq<int>): int -> seq<Cell> {
    x => Plane(z, x, ys, fs)
  }

  function CellId(c: Cell): string {
    Join([IntToString(c.Z), IntToString(c.F), IntToString(c.X), IntToString(c.Y)], '/')
  }

  /** A one-cell tile whose identifier names that cell. */
  function UnitTile(c: Cell, startTime: Option<int>, endTime: Option<EndTime>): Tile {
    Tile(c.Z, c.X, c.X, c.Y, c.Y, c.F, c.F, CellId(c), startTime, endTime)
  }

  function UnitTiles(cs: seq<Cell>, startTime: Option<int>, endTime: Option<EndTime>): (ts: seq<Tile>)
    ensures |ts| == |cs|
  {
    seq(|cs|, i requires 0 <= i < |cs| => UnitTile(cs[i], startTime, endTime))
  }

  /** The unit tiles of one definition. */
  function ExpandOne(v: VoxelDefinition): seq<Tile> {
    UnitTiles(Cells(v.Z, EnumerateXRange(v.X, v.Z), EnumerateRange(v.Y), EnumerateRange(v.F)), v.startTime, v.endTime)
  }

  /** `expandModeParse`. */
  function ExpandAll(vs: seq<VoxelDefinition>): seq<Tile> {
    FlatMap(vs, ExpandOne)
  }

  /** `hyperVoxelToPureVoxel(Voxels, compileMode)`. */
  function HyperVoxelToPureVoxel(vs: seq<VoxelDefinition>, compileMode: bool): seq<Tile> {
    if compileMode then Compact(vs) else ExpandAll(vs)
  }

  // ---------------------------------------------------------------------
  // Compact mode

  /** A non-wrapping definition becomes a single tile spanning its X range,
      with F and Y from `toRange` (not re-sorted) and the window copied. */
  lemma CompactOneNonWrapping(v: VoxelDefinition)
    requires !Wraps(v.X)
    ensures |CompactOne(v)| == 1
    ensures CompactOne(v)[0] == Tile(v.Z, ToRange(v.X).0, ToRange(v.X).1, ToRange(v.Y).0, ToRange(v.Y).1,
                                     ToRange(v.F).0, ToRange(v.F).1, OriginalId(v), v.startTime, v.endTime)
  {
  }

  /** A wrapping definition becomes `[lo, 2^Z - 1]` then `[0, hi]`, equal in
      every other field. */
  lemma CompactOneWrapping(v: VoxelDefinition)
    requires Wraps(v.X)
    ensures CompactOne(v)[0] == Tile(v.Z, v.X.a, Pow2(v.Z) - 1, ToRange(v.Y).0, ToRange(v.Y).1,
                                     ToRange(v.F).0, ToRange(v.F).1, OriginalId(v), v.startTime, v.endTime)
    ensures CompactOne(v)[1] == CompactOne(v)[0].(X := 0, X2 := v.X.b)
  {
  }

  function WrapCount(vs: seq<VoxelDefinition>): nat {
    |Filter(vs, (v: VoxelDefinition) => Wraps(v.X))|
  }

  lemma CompactAppend(a: seq<VoxelDefinition>, b: seq<VoxelDefinition>)
    ensures Compact(a + b) == Compact(a) + Compact(b)
  {
    FlatMapAppend(a, b, CompactOne);
  }

  /** One tile per definition plus one more per wrapping definition. */
  lemma {:induction false} CompactLength(vs: seq<VoxelDefinition>)
    ensures |Compact(vs)| == |vs| + WrapCount(vs)
    decreases |vs|
  {
    if vs != [] {
      CompactLength(vs[1..]);
    }
  }

  /** Every tile of the compact output comes from exactly one definition,
      whose identifier it carries: the output is the in-order concatenation
      of the per-definition tiles. */
  lemma {:induction false} CompactIds(vs: seq<VoxelDefinition>, t: Tile)
    requires t in Compact(vs)
    ensures exists i | 0 <= i < |vs| :: t in CompactOne(vs[i]) && t.originalId == OriginalId(vs[i])
    decreases |vs|
  {
    if t in CompactOne(vs[0]) {
      assert t.originalId == OriginalId(vs[0]);
    } else {
      CompactIds(vs[1..], t);
      var i :| 0 <= i < |vs[1..]| && t in CompactOne(vs[1..][i]) && t.originalId == OriginalId(vs[1..][i]);
      assert vs[1..][i] == vs[i + 1];
    }
  }

  /** The identifier names the definition with F and Y sorted: parsing it
      back gives the definition's zoom and X exactly and the F and Y ranges
      in ascending order, with no window. */
  lemma OriginalIdParses(v: VoxelDefinition)
    ensures ParseToken(OriginalId(v)) == Success(VoxelDefinition(v.Z, Sorted(v.F), v.X, Sorted(v.Y), None, None))
  {
    var id := IdSpec(v.Z, ShapeOfDim(v.F), ShapeOfDim(v.X), ShapeOfDim(v.Y), None);
    assert OriginalId(v) == IdText(id) by {
      FormatDimShape(v.F);
      FormatDimShape(v.X);
      FormatDimShape(v.Y);
    }
    ParseTokenSpec(id);
    DimOfShape(v.Z, FAxis, v.F);
    DimOfShape(v.Z, XAxis, v.X);
    DimOfShape(v.Z, YAxis, v.Y);
  }

  /** The ascending form of a dimension value. */
  function Sorted(d: Dim): Dim {
    match d
    case Scalar(v) => d
    case Pair(a, b) => Pair(Min(a, b), Max(a, b))
  }

  function ShapeOfDim(d: Dim): Shape {
    match d
    case Scalar(v) => Single(v)
    case Pair(a, b) => Between(a, b)
  }

  lemma FormatDimShape(d: Dim)
    ensures FormatDim(d) == ShapeText(ShapeOfDim(d))
  {
  }

  lemma DimOfShape(z: nat, axis: Axis, d: Dim)
    ensures DimOf(z, axis, ShapeOfDim(d)) == if axis == XAxis then d else Sorted(d)
  {
  }

  // ---------------------------------------------------------------------
  // Enumeration

  /** `enumerateRange` is the ascending run from the smaller bound to the
      larger, of length `max - min + 1`, whatever the stored order. */
  lemma EnumerateRangeSpec(a: int, b: int)
    ensures EnumerateRange(Pair(a, b)) == EnumerateRange(Pair(b, a))
    ensures |EnumerateRange(Pair(a, b))| == Max(a, b) - Min(a, b) + 1
    ensures forall k | 0 <= k < |EnumerateRange(Pair(a, b))| :: EnumerateRange(Pair(a, b))[k] == Min(a, b) + k
  {
  }

  /** On the F sentinel the enumeration is every altitude index `-2^Z .. 2^Z - 1`. */
  lemma EnumerateUnboundedF(z: nat)
    ensures EnumerateRange(UnboundedF(z)) == Ints(-(Pow2(z) as int), Pow2(z))
  {
  }

  /** A wrapping X range is `lo .. 2^Z - 1` followed by `0 .. hi`. */
  lemma EnumerateXWrapping(lo: int, hi: int, z: nat)
    requires lo > hi && lo < Pow2(z) && hi >= 0
    ensures |EnumerateXRange(Pair(lo, hi), z)| == (Pow2(z) - lo) + hi + 1
    ensures forall k | 0 <= k < Pow2(z) - lo :: EnumerateXRange(Pair(lo, hi), z)[k] == lo + k
    ensures forall k | Pow2(z) - lo <= k < |EnumerateXRange(Pair(lo, hi), z)| ::
              EnumerateXRange(Pair(lo, hi), z)[k] == k - (Pow2(z) - lo)
  {
  }

  /** Within the axis, a wrapping X range lists no column twice. */
  lemma EnumerateXNoDuplicates(lo: int, hi: int, z: nat)
    requires 0 <= hi < lo < Pow2(z)
    ensures forall i, j | 0 <= i < j < |EnumerateXRange(Pair(lo, hi), z)| ::
              EnumerateXRange(Pair(lo, hi), z)[i] != EnumerateXRange(Pair(lo, hi), z)[j]
  {
    var r := EnumerateXRange(Pair(lo, hi), z);
    var n := Pow2(z) - lo;
    forall i, j | 0 <= i < j < |r|
      ensures r[i] != r[j]
    {
      if j < n {
      } else if i >= n {
      } else {
        assert r[i] >= lo && r[j] <= hi;
      }
    }
  }

  /** A column lies in the X enumeration exactly when it lies in the range,
      read cyclically when the range wraps. */
  lemma EnumerateXMember(lo: int, hi: int, z: nat, x: int)
    ensures x in EnumerateXRange(Pair(lo, hi), z) <==>
              if lo <= hi then lo <= x <= hi else (lo <= x < Pow2(z) || 0 <= x <= hi)
  {
    if lo <= hi {
      IntsMember(lo, hi + 1, x);
    } else {
      IntsMember(lo, Pow2(z), x);
      IntsMember(0, hi + 1, x);
    }
  }

  // ---------------------------------------------------------------------
  // Cell order

  /** Row-major offsets stay inside the block: `i * m + r < n * m`. */
  lemma RowMajorBound(i: int, n: int, m: int, r: int)
    requires 0 <= i < n && 0 <= r < m
    ensures 0 <= i * m + r < n * m
  {
    assert i * m + m == (i + 1) * m;
    assert (i + 1) * m <= n * m;
  }

  lemma IndexAfter<T>(a: seq<T>, b: seq<T>, j: int)
    requires 0 <= j < |b|
    ensures (a + b)[|a| + j] == b[j]
  {
  }

  lemma RowMajorSplit(i: int, a: int, j: int, b: int, k: int)
    ensures (i * a + j) * b + k == i * (a * b) + (j * b + k)
  {
    calc {
      (i * a + j) * b + k;
      (i * a) * b + j * b + k;
      { assert (i * a) * b == i * (a * b); }
      i * (a * b) + (j * b + k);
    }
  }

  lemma {:induction false} PlaneLength(z: nat, x: int, ys: seq<int>, fs: seq<int>)
    ensures |Plane(z, x, ys, fs)| == |ys| * |fs|
    decreases |ys|
  {
    if ys != [] {
      PlaneLength(z, x, ys[1..], fs);
      assert |ys| * |fs| == |fs| + (|ys| - 1) * |fs|;
    }
  }

  lemma {:induction false} CellsLength(z: nat, xs: seq<int>, ys: seq<int>, fs: seq<int>)
    ensures |Cells(z, xs, ys, fs)| == |xs| * (|ys| * |fs|)
    decreases |xs|
  {
    if xs != [] {
      PlaneLength(z, xs[0], ys, fs);
      CellsLength(z, xs[1..], ys, fs);
      var m := |ys| * |fs|;
      assert |xs| * m == m + (|xs| - 1) * m;
    }
  }

  lemma {:induction false} PlaneIndex(z: nat, x: int, ys: seq<int>, fs: seq<int>, j: int, k: int)
    requires 0 <= j < |ys| && 0 <= k < |fs|
    ensures j * |fs| + k < |Plane(z, x, ys, fs)|
    ensures Plane(z, x, ys, fs)[j * |fs| + k] == Cell(z, fs[k], x, ys[j])
    decreases |ys|
  {
    PlaneLength(z, x, ys, fs);
    RowMajorBound(j, |ys|, |fs|, k);
    if j > 0 {
      PlaneIndex(z, x, ys[1..], fs, j - 1, k);
      assert j * |fs| + k == |fs| + ((j - 1) * |fs| + k);
      assert ys[1..][j - 1] == ys[j];
    }
  }

  /** Cells come x outermost, then y, then f: cell `(i, j, k)` sits at
      position `(i * |ys| + j) * |fs| + k`. */
  lemma CellsIndex(z: nat, xs: seq<int>, ys: seq<int>, fs: seq<int>, i: int, j: int, k: int)
    requires 0 <= i < |xs| && 0 <= j < |ys| && 0 <= k < |fs|
    ensures (i * |ys| + j) * |fs| + k < |Cells(z, xs, ys, fs)|
    ensures Cells(z, xs, ys, fs)[(i * |ys| + j) * |fs| + k] == Cell(z, fs[k], xs[i], ys[j])
  {
    var m := |ys| * |fs|;
    var r := j * |fs| + k;
    PlaneIndex(z, xs[i], ys, fs, j, k);
    PlaneLength(z, xs[i], ys, fs);
    RowMajorSplit(i, |ys|, j, |fs|, k);
    CellsOffset(z, xs, ys, fs, i, r);
  }

  /** Offset `r` inside the plane of column `xs[i]` is position `i * m + r`
      of the box, where `m = |ys| * |fs|` is the plane size. */
  lemma CellsOffset(z: nat, xs: seq<int>, ys: seq<int>, fs: seq<int>, i: int, r: int)
    requires 0 <= i < |xs| && 0 <= r < |Plane(z, xs[i], ys, fs)|
    ensures i * (|ys| * |fs|) + r < |Cells(z, xs, ys, fs)|
    ensures Cells(z, xs, ys, fs)[i * (|ys| * |fs|) + r] == Plane(z, xs[i], ys, fs)[r]
  {
    forall x
      ensures |Plane(z, x, ys, fs)| == |ys| * |fs|
    {
      PlaneLength(z, x, ys, fs);
    }
    CellsBlock(z, xs, ys, fs, |ys| * |fs|, i, r);
    BlockStartProduct(i, |ys| * |fs|);
  }

  /** Where block `i` starts when every block has `m` elements. */
  function BlockStart(i: nat, m: nat): nat {
    if i == 0 then 0 else m + BlockStart(i - 1, m)
  }

  lemma {:induction false} BlockStartProduct(i: nat, m: nat)
    ensures BlockStart(i, m) == i * m
  {
    if i > 0 {
      BlockStartProduct(i - 1, m);
      assert i * m == m + (i - 1) * m;
    }
  }

  /** The same with the plane size `m` named. */
  lemma {:induction false} CellsBlock(z: nat, xs: seq<int>, ys: seq<int>, fs: seq<int>, m: nat, i: nat, r: nat)
    requires forall x :: |Plane(z, x, ys, fs)| == m
    requires i < |xs| && r < m
    ensures BlockStart(i, m) + r < |Cells(z, xs, ys, fs)|
    ensures Cells(z, xs, ys, fs)[BlockStart(i, m) + r] == Plane(z, xs[i], ys, fs)[r]
    decreases i
  {
    var head := Plane(z, xs[0], ys, fs);
    var rest := Cells(z, xs[1..], ys, fs);
    assert Cells(z, xs, ys, fs) == head + rest;
    if i > 0 {
      CellsBlock(z, xs[1..], ys, fs, m, i - 1, r);
      assert xs[1..][i - 1] == xs[i];
      IndexAfter(head, rest, BlockStart(i - 1, m) + r);
    }
  }

  /** A cell is in the box exactly when its coordinates are drawn from the
      three enumerations. */
  lemma {:induction false} CellsMember(z: nat, xs: seq<int>, ys: seq<int>, fs: seq<int>, c: Cell)
    ensures c in Cells(z, xs, ys, fs) <==> c.Z == z && c.X in xs && c.Y in ys && c.F in fs
    decreases |xs|
  {
    if xs != [] {
      CellsMember(z, xs[1..], ys, fs, c);
      PlaneMember(z, xs[0], ys, fs, c);
      assert xs == [xs[0]] + xs[1..];
    }
  }

  lemma {:induction false} PlaneMember(z: nat, x: int, ys: seq<int>, fs: seq<int>, c: Cell)
    ensures c in Plane(z, x, ys, fs) <==> c.Z == z && c.X == x && c.Y in ys && c.F in fs
    decreases |ys|
  {
    if ys != [] {
      PlaneMember(z, x, ys[1..], fs, c);
      assert ys == [ys[0]] + ys[1..];
      if c.Z == z && c.X == x && c.Y == ys[0] && c.F in fs {
        var k :| 0 <= k < |fs| && fs[k] == c.F;
        assert Column(z, x, ys[0], fs)[k] == c;
      }
    }
  }

  lemma CellsAppend(z: nat, xs1: seq<int>, xs2: seq<int>, ys: seq<int>, fs: seq<int>)
    ensures Cells(z, xs1 + xs2, ys, fs) == Cells(z, xs1, ys, fs) + Cells(z, xs2, ys, fs)
  {
    FlatMapAppend(xs1, xs2, PlaneAt(z, ys, fs));
  }

  // ---------------------------------------------------------------------
  // Exhaustive mode

  lemma ExpandAllAppend(a: seq<VoxelDefinition>, b: seq<VoxelDefinition>)
    ensures ExpandAll(a + b) == ExpandAll(a) + ExpandAll(b)
  {
    FlatMapAppend(a, b, ExpandOne);
  }

  /** The number of cells one definition covers in exhaustive mode. */
  function CellCount(v: VoxelDefinition): nat {
    |EnumerateXRange(v.X, v.Z)| * (|EnumerateRange(v.Y)| * |EnumerateRange(v.F)|)
  }

  function TotalCells(vs: seq<VoxelDefinition>): nat {
    if vs == [] then 0 else CellCount(vs[0]) + TotalCells(vs[1..])
  }

  lemma {:induction false} ExpandAllLength(vs: seq<VoxelDefinition>)
    ensures |ExpandAll(vs)| == TotalCells(vs)
    decreases |vs|
  {
    if vs != [] {
      var v := vs[0];
      CellsLength(v.Z, EnumerateXRange(v.X, v.Z), EnumerateRange(v.Y), EnumerateRange(v.F));
      ExpandAllLength(vs[1..]);
    }
  }

  /** Every exhaustive tile is one cell, named `Z/f/x/y`, with the
      definition's window. */
  lemma ExpandOneTiles(v: VoxelDefinition, t: Tile)
    requires t in ExpandOne(v)
    ensures t.X == t.X2 && t.Y == t.Y2 && t.F == t.F2 && t.Z == v.Z
    ensures t.X in EnumerateXRange(v.X, v.Z) && t.Y in EnumerateRange(v.Y) && t.F in EnumerateRange(v.F)
    ensures t.originalId == CellId(Cell(t.Z, t.F, t.X, t.Y))
    ensures t.startTime == v.startTime && t.endTime == v.endTime
  {
    var cs := Cells(v.Z, EnumerateXRange(v.X, v.Z), EnumerateRange(v.Y), EnumerateRange(v.F));
    var i :| 0 <= i < |cs| && ExpandOne(v)[i] == t;
    CellsMember(v.Z, EnumerateXRange(v.X, v.Z), EnumerateRange(v.Y), EnumerateRange(v.F), cs[i]);
  }

  /** The identifier of a unit tile parses back to the cell as a definition
      with three scalars and no window. */
  lemma CellIdParses(c: Cell)
    ensures ParseToken(CellId(c)) == Success(VoxelDefinition(c.Z, Scalar(c.F), Scalar(c.X), Scalar(c.Y), None, None))
  {
    var id := IdSpec(c.Z, Single(c.F), Single(c.X), Single(c.Y), None);
    assert CellId(c) == IdText(id) by {
      assert IdText(id) == SpatialText(id);
    }
    assert Denote(id) == VoxelDefinition(c.Z, Scalar(c.F), Scalar(c.X), Scalar(c.Y), None, None);
    ParseTokenSpec(id);
  }

  // ---------------------------------------------------------------------
  // Agreement of the two modes

  /** The inclusive range `lo..hi`. */
  function Span(lo: int, hi: int): seq<int> {
    Ints(lo, hi + 1)
  }

  /** The cells a tile covers: every `(x, y, f)` in its three inclusive ranges. */
  function TileCells(t: Tile): seq<Cell> {
    Cells(t.Z, Span(t.X, t.X2), Span(t.Y, t.Y2), Span(t.F, t.F2))
  }

  function CoveredCells(ts: seq<Tile>): seq<Cell> {
    FlatMap(ts, TileCells)
  }

  lemma CoveredAppend(a: seq<Tile>, b: seq<Tile>)
    ensures CoveredCells(a + b) == CoveredCells(a) + CoveredCells(b)
  {
    FlatMapAppend(a, b, TileCells);
  }

  lemma CoveredUnitTiles(cs: seq<Cell>, st: Option<int>, et: Option<EndTime>)
    ensures CoveredCells(UnitTiles(cs, st, et)) == cs
  {
    var ts := UnitTiles(cs, st, et);
    forall i | 0 <= i < |ts|
      ensures TileCells(ts[i]) == [cs[i]]
    {
      UnitTileCells(cs[i], st, et);
    }
    FlatMapSingletons(ts, TileCells, cs);
  }

  /** A unit tile covers exactly its own cell. */
  lemma UnitTileCells(c: Cell, st: Option<int>, et: Option<EndTime>)
    ensures TileCells(UnitTile(c, st, et)) == [c]
  {
    var t := UnitTile(c, st, et);
    assert Span(c.X, c.X) == [c.X] && Span(c.Y, c.Y) == [c.Y] && Span(c.F, c.F) == [c.F];
    assert TileCells(t) == Cells(c.Z, [c.X], [c.Y], [c.F]);
    assert [c.Y][1..] == [];
    FlatMapSingle(c.X, PlaneAt(c.Z, [c.Y], [c.F]));
    assert Cells(c.Z, [c.X], [c.Y], [c.F]) == Plane(c.Z, c.X, [c.Y], [c.F]);
    assert Plane(c.Z, c.X, [c.Y], [c.F]) == Column(c.Z, c.X, c.Y, [c.F]);
    assert Column(c.Z, c.X, c.Y, [c.F])[0] == c;
  }

  /** F and Y stored in ascending order (or scalar). */
  predicate Ascending(d: Dim) {
    d.Scalar? || d.a <= d.b
  }

  lemma RangeEnumeration(d: Dim)
    requires Ascending(d)
    ensures Span(ToRange(d).0, ToRange(d).1) == EnumerateRange(d)
  {
  }

  lemma CoveredTwo(t0: Tile, t1: Tile)
    ensures CoveredCells([t0]) == TileCells(t0)
    ensures CoveredCells([t0, t1]) == TileCells(t0) + TileCells(t1)
  {
    FlatMapSingle(t0, TileCells);
    FlatMapSingle(t1, TileCells);
    assert [t0, t1] == [t0] + [t1];
    CoveredAppend([t0], [t1]);
  }

  /** The exhaustive tiles of a definition cover exactly its box of cells. */
  lemma ExpandOneCovers(v: VoxelDefinition)
    ensures CoveredCells(ExpandOne(v)) == Cells(v.Z, EnumerateXRange(v.X, v.Z), EnumerateRange(v.Y), EnumerateRange(v.F))
  {
    CoveredUnitTiles(Cells(v.Z, EnumerateXRange(v.X, v.Z), EnumerateRange(v.Y), EnumerateRange(v.F)), v.startTime, v.endTime);
  }

  /** The single compact tile of a non-wrapping definition covers its box. */
  lemma CompactNonWrappingCovers(v: VoxelDefinition)
    requires Ascending(v.F) && Ascending(v.Y) && !Wraps(v.X)
    ensures CoveredCells(CompactOne(v)) == Cells(v.Z, EnumerateXRange(v.X, v.Z), EnumerateRange(v.Y), EnumerateRange(v.F))
  {
    CompactTileBoxed(v);
    CoveredOne(CompactOne(v), v.Z, EnumerateXRange(v.X, v.Z), EnumerateRange(v.Y), EnumerateRange(v.F));
  }

  /** A tile spans exactly the columns `xs`, rows `ys` and floors `fs` at zoom `z`. */
  predicate Boxed(t: Tile, z: nat, xs: seq<int>, ys: seq<int>, fs: seq<int>) {
    t.Z == z && Span(t.X, t.X2) == xs && Span(t.Y, t.Y2) == ys && Span(t.F, t.F2) == fs
  }

  /** The compact tile of a non-wrapping definition spans the enumerated ranges. */
  lemma CompactTileBoxed(v: VoxelDefinition)
    requires Ascending(v.F) && Ascending(v.Y) && !Wraps(v.X)
    ensures |CompactOne(v)| == 1
    ensures Boxed(CompactOne(v)[0], v.Z, EnumerateXRange(v.X, v.Z), EnumerateRange(v.Y), EnumerateRange(v.F))
  {
    CompactOneNonWrapping(v);
    RangeEnumeration(v.Y);
    RangeEnumeration(v.F);
    XRangeEnumeration(v.X, v.Z);
  }

  lemma XRangeEnumeration(d: Dim, z: nat)
    requires !Wraps(d)
    ensures Span(ToRange(d).0, ToRange(d).1) == EnumerateXRange(d, z)
  {
  }

  /** A single tile covers its box. */
  lemma CoveredOne(ts: seq<Tile>, z: nat, xs: seq<int>, ys: seq<int>, fs: seq<int>)
    requires |ts| == 1 && Boxed(ts[0], z, xs, ys, fs)
    ensures CoveredCells(ts) == Cells(z, xs, ys, fs)
  {
    assert ts == [ts[0]];
    FlatMapSingle(ts[0], TileCells);
  }

  /** The two compact tiles of a wrapping definition cover the eastern and
      then the western part of its box. */
  lemma CompactWrappingCovers(v: VoxelDefinition)
    requires Ascending(v.F) && Ascending(v.Y) && Wraps(v.X)
    ensures CoveredCells(CompactOne(v)) ==
              Cells(v.Z, Ints(v.X.a, Pow2(v.Z)), EnumerateRange(v.Y), EnumerateRange(v.F)) +
              Cells(v.Z, Ints(0, v.X.b + 1), EnumerateRange(v.Y), EnumerateRange(v.F))
  {
    var ts := CompactOne(v);
    CompactOneWrapping(v);
    RangeEnumeration(v.Y);
    RangeEnumeration(v.F);
    CoveredPair(ts, v.Z, v.X.a, Pow2(v.Z), v.X.b + 1, EnumerateRange(v.Y), EnumerateRange(v.F));
  }

  /** Two tiles on the same rows and floors, the second starting at column
      0, cover their two boxes in turn. */
  lemma CoveredPair(ts: seq<Tile>, z: nat, xa: int, xb: int, xc: int, ys: seq<int>, fs: seq<int>)
    requires |ts| == 2 && ts[0].Z == z && ts[1] == ts[0].(X := 0, X2 := xc - 1)
    requires ts[0].X == xa && ts[0].X2 + 1 == xb
    requires Span(ts[0].Y, ts[0].Y2) == ys && Span(ts[0].F, ts[0].F2) == fs
    ensures CoveredCells(ts) == Cells(z, Ints(xa, xb), ys, fs) + Cells(z, Ints(0, xc), ys, fs)
  {
    TileBox(ts[0], z, xa, xb, ys, fs);
    TileBox(ts[1], z, 0, xc, ys, fs);
    CoveredOfTwo(ts);
  }

  lemma CoveredOfTwo(ts: seq<Tile>)
    requires |ts| == 2
    ensures CoveredCells(ts) == TileCells(ts[0]) + TileCells(ts[1])
  {
    assert ts == [ts[0], ts[1]];
    CoveredTwo(ts[0], ts[1]);
  }

  /** The cells of a tile are the box of its column, row and floor ranges. */
  lemma TileBox(t: Tile, z: nat, xlo: int, xend: int, ys: seq<int>, fs: seq<int>)
    requires t.Z == z && t.X == xlo && t.X2 + 1 == xend
    requires Span(t.Y, t.Y2) == ys && Span(t.F, t.F2) == fs
    ensures TileCells(t) == Cells(z, Ints(xlo, xend), ys, fs)
  {
  }

  lemma CoverageNonWrapping(v: VoxelDefinition)
    requires Ascending(v.F) && Ascending(v.Y) && !Wraps(v.X)
    ensures CoveredCells(CompactOne(v)) == CoveredCells(ExpandOne(v))
  {
    ExpandOneCovers(v);
    CompactNonWrappingCovers(v);
  }

  lemma CoverageWrapping(v: VoxelDefinition)
    requires Ascending(v.F) && Ascending(v.Y) && Wraps(v.X)
    ensures CoveredCells(CompactOne(v)) == CoveredCells(ExpandOne(v))
  {
    var xs1 := Ints(v.X.a, Pow2(v.Z));
    var xs2 := Ints(0, v.X.b + 1);
    ExpandOneCovers(v);
    CompactWrappingCovers(v);
    assert EnumerateXRange(v.X, v.Z) == xs1 + xs2;
    CellsAppend(v.Z, xs1, xs2, EnumerateRange(v.Y), EnumerateRange(v.F));
  }

  lemma CoverageOne(v: VoxelDefinition)
    requires Ascending(v.F) && Ascending(v.Y)
    ensures CoveredCells(CompactOne(v)) == CoveredCells(ExpandOne(v))
  {
    if Wraps(v.X) {
      CoverageWrapping(v);
    } else {
      CoverageNonWrapping(v);
    }
  }

  /** With F and Y ascending, the compact tiles cover exactly the cells the
      exhaustive tiles list, in the same order. */
  lemma {:induction false} CoverageAgreement(vs: seq<VoxelDefinition>)
    requires forall i | 0 <= i < |vs| :: Ascending(vs[i].F) && Ascending(vs[i].Y)
    ensures CoveredCells(Compact(vs)) == CoveredCells(ExpandAll(vs))
    decreases |vs|
  {
    if vs != [] {
      CoverageOne(vs[0]);
      CoverageAgreement(vs[1..]);
      CoveredAppend(CompactOne(vs[0]), Compact(vs[1..]));
      CoveredAppend(ExpandOne(vs[0]), ExpandAll(vs[1..]));
    }
  }
}

=== FILE: generate_layer.dfy ===
/** The voxel part of the layer builder: which items are drawn, the level of
    detail for the map zoom, the per-item polygon cache keyed by item id,
    detail level and ten-second time bucket, the time-window filter, the
    viewport fallback, and the grouping of polygons by colour.

    The cache is a module-level `Map` in the original; here it is a value
    threaded through the calls, in insertion order. */
module Layer {
  import opened Wrappers
  import opened Text
  import opened Seqs
  import opened Voxels
  import opened IdSyntax
  import opened Expand
  import opened Projector
  import opened Viewport
  import opened Items
  import ParseId

  /** `getDetailLevelForZoom`. */
  function DetailLevelForZoom(zoom: real): (r: nat)
    ensures r <= 3
  {
    if zoom < 5.0 then 0
    else if zoom < 10.0 then 1
    else if zoom < 15.0 then 2
    else 3
  }

  /** The detail level of a render: full detail when no view state is given. */
  function RequestedDetail(viewState: Option<ViewportState>): (r: nat)
    ensures r <= 3
  {
    match viewState
    case None => 3
    case Some(vs) => DetailLevelForZoom(vs.zoom)
  }

  /** The layer's detail level is the viewport module's `getDetailLevel`:
      monotone in the zoom, changing at 5, 10 and 15, and 3 without a view. */
  lemma DetailLevelForZoomSpec(a: real, b: real)
    requires a <= b
    ensures DetailLevelForZoom(a) == DetailLevel(a)
    ensures DetailLevelForZoom(a) <= DetailLevelForZoom(b)
    ensures DetailLevelForZoom(a) == 0 <==> a < 5.0
    ensures DetailLevelForZoom(a) == 3 <==> a >= 15.0
    ensures RequestedDetail(None) == 3
  {
    DetailLevelMonotone(a, b);
  }

  // ---------------------------------------------------------------------
  // Cache keys

  /** `Math.floor(t / 10)`: the ten-second bucket of a time. */
  function Bucket(t: real): int {
    (t / 10.0).Floor
  }

  /** The bucket of `t` is `k` exactly when `10k <= t < 10k + 10`. */
  lemma BucketSpan(t: real, k: int)
    ensures Bucket(t) == k <==> 10.0 * k as real <= t < 10.0 * k as real + 10.0
  {
  }

  /** `getCacheKey`: `id_detail_bucket`. */
  function CacheKey(id: int, detail: int, t: real): string {
    IntToString(id) + "_" + IntToString(detail) + "_" + IntToString(Bucket(t))
  }

  lemma CacheKeySplit(id: int, detail: int, t: real)
    ensures Split(CacheKey(id, detail, t), '_') == [IntToString(id), IntToString(detail), IntToString(Bucket(t))]
  {
    var parts := [IntToString(id), IntToString(detail), IntToString(Bucket(t))];
    IntToStringChars(id);
    IntToStringChars(detail);
    IntToStringChars(Bucket(t));
    assert Join(parts[1..], '_') == IntToString(detail) + "_" + IntToString(Bucket(t)) by {
      assert parts[1..][1..] == [IntToString(Bucket(t))];
    }
    assert Join(parts, '_') == CacheKey(id, detail, t);
    SplitJoin(parts, '_');
  }

  /** Two renders share a key exactly when they concern the same item at the
      same detail level in the same ten-second bucket. */
  lemma CacheKeyInjective(id1: int, d1: int, t1: real, id2: int, d2: int, t2: real)
    ensures CacheKey(id1, d1, t1) == CacheKey(id2, d2, t2) <==>
              id1 == id2 && d1 == d2 && Bucket(t1) == Bucket(t2)
  {
    if CacheKey(id1, d1, t1) == CacheKey(id2, d2, t2) {
      CacheKeySplit(id1, d1, t1);
      CacheKeySplit(id2, d2, t2);
      IntToStringInjective(id1, id2);
      IntToStringInjective(d1, d2);
      IntToStringInjective(Bucket(t1), Bucket(t2));
    }
  }

  // ---------------------------------------------------------------------
  // The cache

  datatype Entry = Entry(key: string, polygons: seq<Polygon>)

  /** The cache's entries in insertion order. */
  type Cache = seq<Entry>

  /** More entries than this triggers an eviction before an insertion. */
  const CacheLimit: nat := 500

  function EntryKey(e: Entry): string { e.key }

  /** `has` / `get`: the polygons stored under `k`, if any. */
  function Lookup(c: Cache, k: string): Option<seq<Polygon>> {
    if c == [] then None
    else if c[0].key == k then Some(c[0].polygons)
    else Lookup(c[1..], k)
  }

  /** `delete(k)`. */
  function Remove(c: Cache, k: string): Cache {
    Filter(c, (e: Entry) => e.key != k)
  }

  /** `set(k, ps)`: replaces an existing entry in place, or appends. */
  function Store(c: Cache, k: string, ps: seq<Polygon>): Cache {
    if c == [] then [Entry(k, ps)]
    else if c[0].key == k then [Entry(k, ps)] + c[1..]
    else [c[0]] + Store(c[1..], k, ps)
  }

  /** The eviction step: past the limit, the earliest key goes, unless it is
      the empty string (a falsy key the original skips). */
  function Evict(c: Cache): Cache {
    if |c| > CacheLimit then
      var first := c[0].key;
      if first != "" then Remove(c, first) else c
    else c
  }

  /** Keys are distinct and non-empty, and there are at most 501 entries. */
  ghost predicate ValidCache(c: Cache) {
    DistinctKeys(c, EntryKey) && |c| <= CacheLimit + 1 &&
    forall i | 0 <= i < |c| :: c[i].key != ""
  }

  // ---------------------------------------------------------------------
  // Generation

  /** `Array.prototype.slice(0, n)` for `n >= 0`. */
  function Prefix<T>(s: seq<T>, n: nat): (r: seq<T>)
    ensures |r| == if n <= |s| then n else |s|
  {
    if n <= |s| then s[..n] else s
  }

  /** Below full detail, only definitions with `Z <= 8 + 3 * detail`. */
  function ZoomFiltered(vs: seq<VoxelDefinition>, detail: nat): seq<VoxelDefinition> {
    if detail < 3 then Filter(vs, (v: VoxelDefinition) => v.Z <= 8 + detail * 3) else vs
  }

  /** The level-of-detail cut: zoom filter, then a prefix at detail 0 and 1. */
  function Lod(vs: seq<VoxelDefinition>, detail: nat): seq<VoxelDefinition> {
    var f := ZoomFiltered(vs, detail);
    if detail == 0 then
      if |f| > 100 then Prefix(f, Max(25, |f| / 4)) else f
    else if detail == 1 then
      if |f| > 200 then Prefix(f, Max(100, |f| / 2)) else f
    else f
  }

  predicate Before(t: real, e: EndTime) {
    match e
    case Fin(x) => t < x as real
    case PosInf => true
  }

  /** The time filter's test: no window at all, or a full window that
      contains `t` (start inclusive, end exclusive). */
  predicate ShowAt(p: Polygon, t: real) {
    if p.startTime.None? && p.endTime.None? then true
    else p.startTime.Some? && p.endTime.Some? &&
         p.startTime.value as real <= t && Before(t, p.endTime.value)
  }

  function TimeFilter(ps: seq<Polygon>, t: real): seq<Polygon> {
    Filter(ps, (p: Polygon) => ShowAt(p, t))
  }

  /** The voxel list of an item (empty for points and lines). */
  function VoxelsOf(item: Item): seq<VoxelDefinition> {
    if item.data.VoxelData? then item.data.voxel else []
  }

  /** The polygons of one item, computed afresh. `toRgba` is the colour
      conversion from stored colour and opacity; `lat` the tile latitude. */
  function Generate(item: Item, compileMode: bool, detail: nat, t: real,
                    toRgba: (Color, int) -> Color, lat: real -> real): seq<Polygon> {
    var tiles := HyperVoxelToPureVoxel(Lod(VoxelsOf(item), detail), compileMode);
    TimeFilter(PvoxelToPolygon(tiles, toRgba(item.data.color, item.data.opacity), lat), t)
  }

  /** `getOrGeneratePolygonsForVoxel`: the cache after the call and the polygons. */
  function GetOrGenerate(c: Cache, item: Item, compileMode: bool, detail: nat, t: real,
                         toRgba: (Color, int) -> Color, lat: real -> real): (Cache, seq<Polygon>) {
    var key := CacheKey(item.id, detail, t);
    match Lookup(c, key)
    case Some(ps) => (c, ps)
    case None =>
      var ps := Generate(item, compileMode, detail, t, toRgba, lat);
      (Store(Evict(c), key, ps), ps)
  }

  // ---------------------------------------------------------------------
  // Cache properties

  lemma {:induction false} LookupSome(c: Cache, k: string)
    ensures Lookup(c, k).Some? <==> exists i | 0 <= i < |c| :: c[i].key == k
    ensures Lookup(c, k).Some? ==> exists i | 0 <= i < |c| :: c[i] == Entry(k, Lookup(c, k).value)
    decreases |c|
  {
    if c != [] && c[0].key != k {
      LookupSome(c[1..], k);
      if exists i | 0 <= i < |c| :: c[i].key == k {
        var i :| 0 <= i < |c| && c[i].key == k;
        assert c[1..][i - 1] == c[i];
      }
      if Lookup(c, k).Some? {
        var i :| 0 <= i < |c[1..]| && c[1..][i] == Entry(k, Lookup(c, k).value);
        assert c[i + 1] == c[1..][i];
      }
    } else if c != [] {
      assert c[0] == Entry(k, Lookup(c, k).value);
    }
  }

  /** What was just stored under a key is what a lookup of that key finds. */
  lemma {:induction false} LookupStore(c: Cache, k: string, ps: seq<Polygon>, k2: string)
    ensures Lookup(Store(c, k, ps), k2) == if k2 == k then Some(ps) else Lookup(c, k2)
    decreases |c|
  {
    if c != [] && c[0].key != k {
      LookupStore(c[1..], k, ps, k2);
    }
  }

  /** Storing a key that is not present appends it. */
  lemma {:induction false} StoreAbsent(c: Cache, k: string, ps: seq<Polygon>)
    requires forall i | 0 <= i < |c| :: c[i].key != k
    ensures Store(c, k, ps) == c + [Entry(k, ps)]
    decreases |c|
  {
    if c != [] {
      StoreAbsent(c[1..], k, ps);
    }
  }

  /** Removing a key never makes another key appear. */
  lemma LookupRemove(c: Cache, k: string, k2: string)
    requires Lookup(c, k2).None?
    ensures Lookup(Remove(c, k), k2).None?
  {
    var r := Remove(c, k);
    LookupSome(c, k2);
    forall i | 0 <= i < |r|
      ensures r[i].key != k2
    {
      assert r[i] in c;
    }
    LookupSome(r, k2);
  }

  /** With distinct keys, removing the first key drops exactly the first entry. */
  lemma EvictFirst(c: Cache)
    requires DistinctKeys(c, EntryKey) && c != []
    ensures Remove(c, c[0].key) == c[1..]
  {
    var p := (e: Entry) => e.key != c[0].key;
    assert c == [c[0]] + c[1..];
    forall k | 0 <= k < |c[1..]|
      ensures p(c[1..][k])
    {
      assert c[1..][k] == c[k + 1];
    }
    FilterAll(c[1..], p);
  }

  /** A hit returns the stored polygons verbatim and leaves the cache alone;
      neither the item's current voxels, the mode, nor the exact time within
      the bucket plays a part. */
  lemma CacheHit(c: Cache, item: Item, compileMode: bool, detail: nat, t: real,
                 toRgba: (Color, int) -> Color, lat: real -> real)
    requires Lookup(c, CacheKey(item.id, detail, t)).Some?
    ensures GetOrGenerate(c, item, compileMode, detail, t, toRgba, lat) == (c, Lookup(c, CacheKey(item.id, detail, t)).value)
  {
  }

  /** A miss generates afresh; past 500 entries the single earliest entry is
      evicted first, the new entry goes last, and every other entry stays. */
  lemma CacheMiss(c: Cache, item: Item, compileMode: bool, detail: nat, t: real,
                  toRgba: (Color, int) -> Color, lat: real -> real)
    requires ValidCache(c)
    requires Lookup(c, CacheKey(item.id, detail, t)).None?
    ensures var (c2, ps) := GetOrGenerate(c, item, compileMode, detail, t, toRgba, lat);
            ps == Generate(item, compileMode, detail, t, toRgba, lat) &&
            c2 == (if |c| > CacheLimit then c[1..] else c) + [Entry(CacheKey(item.id, detail, t), ps)] &&
            ValidCache(c2)
  {
    var key := CacheKey(item.id, detail, t);
    var ps := Generate(item, compileMode, detail, t, toRgba, lat);
    assert GetOrGenerate(c, item, compileMode, detail, t, toRgba, lat) == (Store(Evict(c), key, ps), ps);
    assert key != "" by {
      assert key[|IntToString(item.id)|] == '_';
    }
    InsertFresh(c, key, ps);
  }

  /** Evicting and then storing a new non-empty key appends it after the
      survivors and keeps the cache valid. */
  lemma InsertFresh(c: Cache, key: string, ps: seq<Polygon>)
    requires ValidCache(c) && Lookup(c, key).None? && key != ""
    ensures Store(Evict(c), key, ps) == (if |c| > CacheLimit then c[1..] else c) + [Entry(key, ps)]
    ensures ValidCache(Store(Evict(c), key, ps))
  {
    LookupSome(c, key);
    EvictKept(c, key);
    StoreNew(Evict(c), key, ps);
  }

  /** Eviction drops at most the first entry, keeps the cache within the
      limit and keeps its keys distinct and non-empty. */
  lemma EvictKept(c: Cache, key: string)
    requires ValidCache(c) && forall i | 0 <= i < |c| :: c[i].key != key
    ensures Evict(c) == if |c| > CacheLimit then c[1..] else c
    ensures |Evict(c)| <= CacheLimit && DistinctKeys(Evict(c), EntryKey)
    ensures forall i | 0 <= i < |Evict(c)| :: Evict(c)[i].key != key && Evict(c)[i].key != ""
  {
    if |c| > CacheLimit {
      EvictFirst(c);
      var kept := c[1..];
      assert forall i | 0 <= i < |kept| :: kept[i] == c[i + 1];
      assert DistinctKeys(kept, EntryKey) by {
        forall i, j | 0 <= i < j < |kept|
          ensures kept[i].key != kept[j].key
        {
          assert kept[i] == c[i + 1] && kept[j] == c[j + 1];
        }
      }
    }
  }

  /** Storing a key that is absent appends it, keeping the keys distinct. */
  lemma StoreNew(kept: Cache, key: string, ps: seq<Polygon>)
    requires |kept| <= CacheLimit && DistinctKeys(kept, EntryKey) && key != ""
    requires forall i | 0 <= i < |kept| :: kept[i].key != key && kept[i].key != ""
    ensures Store(kept, key, ps) == kept + [Entry(key, ps)]
    ensures ValidCache(Store(kept, key, ps))
  {
    StoreAbsent(kept, key, ps);
    var c2 := kept + [Entry(key, ps)];
    assert DistinctKeys(c2, EntryKey) by {
      forall i, j | 0 <= i < j < |c2|
        ensures c2[i].key != c2[j].key
      {
        assert c2[i] == kept[i];
      }
    }
  }

  /** The cache invariant holds after every call. */
  lemma GetOrGenerateValid(c: Cache, item: Item, compileMode: bool, detail: nat, t: real,
                           toRgba: (Color, int) -> Color, lat: real -> real)
    requires ValidCache(c)
    ensures ValidCache(GetOrGenerate(c, item, compileMode, detail, t, toRgba, lat).0)
  {
    if Lookup(c, CacheKey(item.id, detail, t)).None? {
      CacheMiss(c, item, compileMode, detail, t, toRgba, lat);
    }
  }

  /** Within one ten-second bucket a second render of the same item at the
      same detail returns the first render's polygons, even if the item's
      voxels changed or the later time falls outside some polygon's window. */
  lemma SameBucketReuses(c: Cache, item: Item, item2: Item, m1: bool, m2: bool, detail: nat, t1: real, t2: real,
                         toRgba: (Color, int) -> Color, lat: real -> real)
    requires item2.id == item.id && Bucket(t1) == Bucket(t2)
    ensures var (c1, ps1) := GetOrGenerate(c, item, m1, detail, t1, toRgba, lat);
            GetOrGenerate(c1, item2, m2, detail, t2, toRgba, lat) == (c1, ps1)
  {
    var key := CacheKey(item.id, detail, t1);
    CacheKeyInjective(item.id, detail, t1, item2.id, detail, t2);
    if Lookup(c, key).None? {
      var ps := Generate(item, m1, detail, t1, toRgba, lat);
      LookupStore(Evict(c), key, ps, key);
    }
  }

  // ---------------------------------------------------------------------
  // Level of detail and time

  /** The cut keeps a prefix of the zoom-filtered list. Below full detail
      every kept definition has `Z <= 8 + 3 * detail`. Past 100 (detail 0)
      or 200 (detail 1) definitions it keeps `n / 4` or `n / 2` of them:
      the floors of 25 and 100 never come into play. */
  lemma LodSpec(vs: seq<VoxelDefinition>, detail: nat)
    ensures var f := ZoomFiltered(vs, detail);
            var r := Lod(vs, detail);
            r == f[..|r|] &&
            (detail < 3 ==> forall i | 0 <= i < |r| :: r[i].Z <= 8 + 3 * detail) &&
            (detail == 0 && |f| > 100 ==> |r| == |f| / 4) &&
            (detail == 1 && |f| > 200 ==> |r| == |f| / 2) &&
            (detail == 0 && |f| <= 100 ==> r == f) &&
            (detail == 1 && |f| <= 200 ==> r == f) &&
            (detail >= 2 ==> r == f) &&
            (detail >= 3 ==> r == vs)
  {
    var f := ZoomFiltered(vs, detail);
    var r := Lod(vs, detail);
    if detail < 3 {
      assert forall i | 0 <= i < |f| :: f[i].Z <= 8 + detail * 3;
      assert forall i | 0 <= i < |r| :: r[i] == f[i];
    }
  }

  /** A polygon is shown at `t` exactly when it has no window, or a full
      window `start <= t < end`; one with a single missing bound never is.
      The shown polygons keep their order. */
  lemma TimeFilterSpec(ps: seq<Polygon>, t: real, p: Polygon)
    ensures IsSubsequence(TimeFilter(ps, t), ps)
    ensures p in TimeFilter(ps, t) <==>
              p in ps &&
              ((p.startTime.None? && p.endTime.None?) ||
               (p.startTime.Some? && p.endTime.Some? && p.startTime.value as real <= t &&
                (p.endTime.value.Fin? ==> t < p.endTime.value.t as real)))
    ensures p.startTime.None? != p.endTime.None? ==> p !in TimeFilter(ps, t)
  {
    FilterIsSubsequence(ps, (p: Polygon) => ShowAt(p, t));
    FilterMember(ps, (p: Polygon) => ShowAt(p, t), p);
  }

  /** The window `[interval * a, interval * (b + 1))` of a definition written
      `a:b` shows its polygons from tick `a` through tick `b` inclusive. */
  lemma TickWindowShows(p: Polygon, interval: int, a: int, b: int, t: real)
    requires ParseId.Window(p.startTime, p.endTime) == WindowOf(interval, Between(a, b))
    ensures ShowAt(p, t) <==> (interval * a) as real <= t < (interval * (b + 1)) as real
  {
  }

  // ---------------------------------------------------------------------
  // Item selection and the viewport fallback

  /** The selection of `generateLayer`: not deleted, not hidden (the flag
      named `isVisible` hides an item when set), and of the requested type. */
  predicate Rendered(item: Item, ty: ItemType) {
    !item.isDeleted && !item.isVisible && TypeOf(item) == ty
  }

  function SelectItems(items: seq<Item>, ty: ItemType): seq<Item> {
    Filter(items, (e: Item) => Rendered(e, ty))
  }

  lemma SelectItemsSpec(items: seq<Item>, ty: ItemType, x: Item)
    ensures x in SelectItems(items, ty) <==> x in items && !x.isDeleted && !x.isVisible && TypeOf(x) == ty
    ensures IsSubsequence(SelectItems(items, ty), items)
  {
    FilterMember(items, (e: Item) => Rendered(e, ty), x);
    FilterIsSubsequence(items, (e: Item) => Rendered(e, ty));
  }

  /** `viewState && viewState.zoom < 3`. */
  predicate ShouldSkip(viewState: Option<ViewportState>) {
    viewState.Some? && viewState.value.zoom < 3.0
  }

  function WithVoxels(item: Item, vs: seq<VoxelDefinition>): Item {
    if item.data.VoxelData? then item.(data := item.data.(voxel := vs)) else item
  }

  /** An item's viewport-filtered voxels, or its original voxels when the
      filter leaves none. */
  function FallbackOne(item: Item, vp: ViewportState): Item {
    var f := FilterVoxelsByViewport(VoxelsOf(item), vp, DefaultMargin);
    WithVoxels(item, if |f| > 0 then f else VoxelsOf(item))
  }

  function HasVoxels(item: Item): bool {
    |VoxelsOf(item)| > 0
  }

  /** The items handed to polygon generation. */
  function VisibleVoxelItems(items: seq<Item>, viewState: Option<ViewportState>): seq<Item> {
    if !ShouldSkip(viewState) && viewState.Some? && |items| > 0 then
      Filter(seq(|items|, i requires 0 <= i < |items| => FallbackOne(items[i], viewState.value)), HasVoxels)
    else items
  }

  /** An item whose filtered list is empty keeps its original list, and
      otherwise gets the filtered list; either way it has voxels exactly when
      it had voxels before. */
  lemma FallbackOneSpec(item: Item, vp: ViewportState)
    requires item.data.VoxelData?
    ensures var f := FilterVoxelsByViewport(VoxelsOf(item), vp, DefaultMargin);
            VoxelsOf(FallbackOne(item, vp)) == (if f == [] then VoxelsOf(item) else f) &&
            IsSubsequence(VoxelsOf(FallbackOne(item, vp)), VoxelsOf(item)) &&
            (HasVoxels(FallbackOne(item, vp)) <==> HasVoxels(item)) &&
            FallbackOne(item, vp).id == item.id
  {
    var vs := VoxelsOf(item);
    FilterIsSubsequence(vs, (v: VoxelDefinition) => Keep(v, vp, DefaultMargin));
    SubsequenceReflexive(vs);
  }

  lemma {:induction false} SubsequenceReflexive<T>(s: seq<T>)
    ensures IsSubsequence(s, s)
    decreases |s|
  {
    if s != [] {
      SubsequenceReflexive(s[1..]);
    }
  }

  /** Under a view state the items kept are the fallback forms of exactly the
      input items that have voxels, in order. */
  lemma VisibleVoxelItemsSpec(items: seq<Item>, vp: ViewportState, x: Item)
    requires vp.zoom >= 3.0
    requires forall i | 0 <= i < |items| :: items[i].data.VoxelData?
    ensures x in VisibleVoxelItems(items, Some(vp)) <==>
              exists i | 0 <= i < |items| :: x == FallbackOne(items[i], vp) && HasVoxels(items[i])
  {
    var mapped := seq(|items|, i requires 0 <= i < |items| => FallbackOne(items[i], vp));
    if |items| > 0 {
      FilterMember(mapped, HasVoxels, x);
      if x in mapped && HasVoxels(x) {
        var i :| 0 <= i < |items| && mapped[i] == x;
        FallbackOneSpec(items[i], vp);
      }
      if exists i | 0 <= i < |items| :: x == FallbackOne(items[i], vp) && HasVoxels(items[i]) {
        var i :| 0 <= i < |items| && x == FallbackOne(items[i], vp) && HasVoxels(items[i]);
        FallbackOneSpec(items[i], vp);
        assert mapped[i] == x;
      }
    }
  }

  // ---------------------------------------------------------------------
  // The polygon list

  /** `generatePolygonLayer`: each item's polygons, through the cache, in order. */
  function GeneratePolygonLayer(c: Cache, items: seq<Item>, compileMode: bool, t: real, detail: nat,
                                toRgba: (Color, int) -> Color, lat: real -> real): (Cache, seq<Polygon>)
    decreases |items|
  {
    if items == [] then (c, [])
    else
      var (c1, ps) := GetOrGenerate(c, items[0], compileMode, detail, t, toRgba, lat);
      var (c2, rest) := GeneratePolygonLayer(c1, items[1..], compileMode, t, detail, toRgba, lat);
      (c2, ps + rest)
  }

  /** The voxel polygons of one render of `generateLayer`, before grouping. */
  function VoxelPolygons(c: Cache, items: seq<Item>, viewState: Option<ViewportState>, compileMode: bool, t: real,
                         toRgba: (Color, int) -> Color, lat: real -> real): (Cache, seq<Polygon>) {
    var voxelItems := SelectItems(items, VoxelType);
    if ShouldSkip(viewState) then (c, [])
    else GeneratePolygonLayer(c, VisibleVoxelItems(voxelItems, viewState), compileMode, t,
                              RequestedDetail(viewState), toRgba, lat)
  }

  /** Zoomed out below 3 nothing is drawn and the cache is untouched. */
  lemma ZoomedOutDrawsNothing(c: Cache, items: seq<Item>, vp: ViewportState, compileMode: bool, t: real,
                              toRgba: (Color, int) -> Color, lat: real -> real)
    requires vp.zoom < 3.0
    ensures VoxelPolygons(c, items, Some(vp), compileMode, t, toRgba, lat) == (c, [])
  {
  }

  /** The cache invariant survives a whole render. */
  lemma {:induction false} LayerValid(c: Cache, items: seq<Item>, compileMode: bool, t: real, detail: nat,
                                      toRgba: (Color, int) -> Color, lat: real -> real)
    requires ValidCache(c)
    ensures ValidCache(GeneratePolygonLayer(c, items, compileMode, t, detail, toRgba, lat).0)
    decreases |items|
  {
    if items != [] {
      GetOrGenerateValid(c, items[0], compileMode, detail, t, toRgba, lat);
      var c1 := GetOrGenerate(c, items[0], compileMode, detail, t, toRgba, lat).0;
      LayerValid(c1, items[1..], compileMode, t, detail, toRgba, lat);
    }
  }

  /** The fresh polygons of each item, concatenated in order. */
  function FreshPolygons(items: seq<Item>, compileMode: bool, t: real, detail: nat,
                         toRgba: (Color, int) -> Color, lat: real -> real): seq<Polygon>
    decreases |items|
  {
    if items == [] then []
    else Generate(items[0], compileMode, detail, t, toRgba, lat) + FreshPolygons(items[1..], compileMode, t, detail, toRgba, lat)
  }

  /** When no item's key is cached yet and the ids are distinct, every
      lookup misses, so the render is the in-order concatenation of the
      items' freshly generated polygons. */
  lemma {:induction false} FreshRender(c: Cache, items: seq<Item>, compileMode: bool, t: real, detail: nat,
                                       toRgba: (Color, int) -> Color, lat: real -> real)
    requires forall i | 0 <= i < |items| :: Lookup(c, CacheKey(items[i].id, detail, t)).None?
    requires forall i, j | 0 <= i < j < |items| :: items[i].id != items[j].id
    ensures GeneratePolygonLayer(c, items, compileMode, t, detail, toRgba, lat).1
              == FreshPolygons(items, compileMode, t, detail, toRgba, lat)
    decreases |items|
  {
    if items != [] {
      var key := CacheKey(items[0].id, detail, t);
      var ps := Generate(items[0], compileMode, detail, t, toRgba, lat);
      var c1 := Store(Evict(c), key, ps);
      assert GetOrGenerate(c, items[0], compileMode, detail, t, toRgba, lat) == (c1, ps);
      var rest := items[1..];
      forall i | 0 <= i < |rest|
        ensures Lookup(c1, CacheKey(rest[i].id, detail, t)).None?
      {
        var k2 := CacheKey(rest[i].id, detail, t);
        assert rest[i] == items[i + 1];
        CacheKeyInjective(items[0].id, detail, t, rest[i].id, detail, t);
        LookupStore(Evict(c), key, ps, k2);
        if |c| > CacheLimit && c[0].key != "" {
          LookupRemove(c, c[0].key, k2);
        }
      }
      assert forall i, j | 0 <= i < j < |rest| :: rest[i].id != rest[j].id by {
        forall i, j | 0 <= i < j < |rest|
          ensures rest[i].id != rest[j].id
        {
          assert rest[i] == items[i + 1] && rest[j] == items[j + 1];
        }
      }
      FreshRender(c1, rest, compileMode, t, detail, toRgba, lat);
    }
  }

  // ---------------------------------------------------------------------
  // Grouping by colour

  /** `color.join(",")`. */
  function ColorKey(c: Color): string {
    Join(seq(|c|, i requires 0 <= i < |c| => IntToString(c[i])), ',')
  }

  datatype Group = Group(key: string, polygons: seq<Polygon>)

  function GroupKey(g: Group): string { g.key }

  /** One step of the grouping loop: push onto the polygon's group, creating
      it (last) if its key is new. */
  function AddToGroups(gs: seq<Group>, p: Polygon): seq<Group>
    decreases |gs|
  {
    var k := ColorKey(p.color);
    if gs == [] then [Group(k, [p])]
    else if gs[0].key == k then [gs[0].(polygons := gs[0].polygons + [p])] + gs[1..]
    else [gs[0]] + AddToGroups(gs[1..], p)
  }

  /** `groupPolygonsByColor`, groups in order of first appearance. */
  function GroupPolygonsByColor(ps: seq<Polygon>): seq<Group>
    decreases |ps|
  {
    if ps == [] then [] else AddToGroups(GroupPolygonsByColor(ps[..|ps| - 1]), ps[|ps| - 1])
  }

  /** The group under key `k`, or nothing. */
  function GroupOf(gs: seq<Group>, k: string): seq<Polygon> {
    if gs == [] then []
    else if gs[0].key == k then gs[0].polygons
    else GroupOf(gs[1..], k)
  }

  function TotalSize(gs: seq<Group>): nat {
    if gs == [] then 0 else |gs[0].polygons| + TotalSize(gs[1..])
  }

  function HasColorKey(k: string): Polygon -> bool {
    (p: Polygon) => ColorKey(p.color) == k
  }

  function PolygonKey(p: Polygon): string { ColorKey(p.color) }

  lemma {:induction false} AddToGroupsOf(gs: seq<Group>, p: Polygon, k: string)
    ensures GroupOf(AddToGroups(gs, p), k) == GroupOf(gs, k) + (if ColorKey(p.color) == k then [p] else [])
    decreases |gs|
  {
    if gs != [] && gs[0].key != ColorKey(p.color) {
      AddToGroupsOf(gs[1..], p, k);
    }
  }

  lemma {:induction false} AddToGroupsSize(gs: seq<Group>, p: Polygon)
    ensures TotalSize(AddToGroups(gs, p)) == TotalSize(gs) + 1
    decreases |gs|
  {
    if gs != [] && gs[0].key != ColorKey(p.color) {
      AddToGroupsSize(gs[1..], p);
    }
  }

  lemma {:induction false} AddToGroupsKeys(gs: seq<Group>, p: Polygon)
    ensures Keys(AddToGroups(gs, p), GroupKey) == Keys(gs, GroupKey) + {ColorKey(p.color)}
    decreases |gs|
  {
    var pk := ColorKey(p.color);
    var r := AddToGroups(gs, p);
    if gs == [] {
      assert r == [Group(pk, [p])];
      KeysCons(r[0], [], GroupKey);
    } else {
      assert gs == [gs[0]] + gs[1..];
      KeysCons(gs[0], gs[1..], GroupKey);
      if gs[0].key == pk {
        KeysCons(r[0], gs[1..], GroupKey);
      } else {
        AddToGroupsKeys(gs[1..], p);
        KeysCons(gs[0], AddToGroups(gs[1..], p), GroupKey);
      }
    }
  }

  lemma DistinctTail(gs: seq<Group>)
    requires gs != [] && DistinctKeys(gs, GroupKey)
    ensures DistinctKeys(gs[1..], GroupKey)
    ensures gs[0].key !in Keys(gs[1..], GroupKey)
  {
    var t := gs[1..];
    forall i, j | 0 <= i < j < |t|
      ensures t[i].key != t[j].key
    {
      assert t[i] == gs[i + 1] && t[j] == gs[j + 1];
    }
    forall m | 0 <= m < |t|
      ensures t[m].key != gs[0].key
    {
      assert t[m] == gs[m + 1];
    }
  }

  lemma {:induction false} AddToGroupsDistinct(gs: seq<Group>, p: Polygon)
    requires DistinctKeys(gs, GroupKey)
    ensures DistinctKeys(AddToGroups(gs, p), GroupKey)
    decreases |gs|
  {
    var pk := ColorKey(p.color);
    if gs != [] {
      DistinctTail(gs);
      if gs[0].key == pk {
        var g := gs[0].(polygons := gs[0].polygons + [p]);
        assert AddToGroups(gs, p) == [g] + gs[1..];
        DistinctKeysCons(g, gs[1..], GroupKey);
      } else {
        var rest := AddToGroups(gs[1..], p);
        assert AddToGroups(gs, p) == [gs[0]] + rest;
        AddToGroupsDistinct(gs[1..], p);
        AddToGroupsKeys(gs[1..], p);
        DistinctKeysCons(gs[0], rest, GroupKey);
      }
    }
  }

  /** Every polygon lands in the group of its colour key and nowhere else,
      in input order; the group sizes add up to the number of polygons. */
  lemma GroupContents(ps: seq<Polygon>, k: string)
    ensures GroupOf(GroupPolygonsByColor(ps), k) == Filter(ps, HasColorKey(k))
    ensures TotalSize(GroupPolygonsByColor(ps)) == |ps|
  {
    GroupOfFilter(ps, k);
    GroupSizes(ps);
  }

  lemma {:induction false} GroupOfFilter(ps: seq<Polygon>, k: string)
    ensures GroupOf(GroupPolygonsByColor(ps), k) == Filter(ps, HasColorKey(k))
    decreases |ps|
  {
    if ps != [] {
      var init := ps[..|ps| - 1];
      var last := ps[|ps| - 1];
      var gs := GroupPolygonsByColor(init);
      assert GroupPolygonsByColor(ps) == AddToGroups(gs, last);
      GroupOfFilter(init, k);
      AddToGroupsOf(gs, last, k);
      FilterSnoc(ps, HasColorKey(k));
      assert HasColorKey(k)(last) == (ColorKey(last.color) == k);
    }
  }

  lemma {:induction false} GroupSizes(ps: seq<Polygon>)
    ensures TotalSize(GroupPolygonsByColor(ps)) == |ps|
    decreases |ps|
  {
    if ps != [] {
      var init := ps[..|ps| - 1];
      var gs := GroupPolygonsByColor(init);
      assert GroupPolygonsByColor(ps) == AddToGroups(gs, ps[|ps| - 1]);
      GroupSizes(init);
      AddToGroupsSize(gs, ps[|ps| - 1]);
    }
  }

  /** The group keys are exactly the colour keys present, each once. */
  lemma {:induction false} GroupKeys(ps: seq<Polygon>)
    ensures DistinctKeys(GroupPolygonsByColor(ps), GroupKey)
    ensures Keys(GroupPolygonsByColor(ps), GroupKey) == Keys(ps, PolygonKey)
    decreases |ps|
  {
    if ps != [] {
      var init := ps[..|ps| - 1];
      var last := ps[|ps| - 1];
      GroupKeys(init);
      AddToGroupsKeys(GroupPolygonsByColor(init), last);
      AddToGroupsDistinct(GroupPolygonsByColor(init), last);
      KeysSnoc(ps);
    }
  }

  lemma KeysSnoc(ps: seq<Polygon>)
    requires ps != []
    ensures Keys(ps, PolygonKey) == Keys(ps[..|ps| - 1], PolygonKey) + {ColorKey(ps[|ps| - 1].color)}
  {
    var init := ps[..|ps| - 1];
    var last := ps[|ps| - 1];
    assert ps == init + [last];
    KeysAppend(init, [last], PolygonKey);
    assert Keys([last], PolygonKey) == {ColorKey(last.color)} by {
      assert [last][0] == last;
    }
  }
}

=== FILE: generate_layer_as_written.dfy ===
/** The layer builder's generation step as its import resolves.
    `GenerateLayer.ts` imports `./HyperVoxelToPureVoxel`, the one-argument
    expander, and calls it with a second argument that JavaScript ignores.
    That expander's records hold only `Z`, `F`, `X` and `Y`, so the
    polygons made from them have `startTime` and `endTime` undefined, and
    neither branch of the time filter accepts an undefined time: nothing is
    ever drawn. `Layer.Generate` is the evidently intended step (the
    two-argument expander, whose records carry the definition's window),
    and the rest of the model uses it. */
module LayerAsWritten {
  import opened Wrappers
  import opened Seqs
  import opened Voxels
  import opened Expand
  import LegacyExpand
  import opened Projector
  import opened Items
  import opened Layer

  /** A property of a JavaScript record: absent (read as `undefined`),
      `null`, or a value. */
  datatype Slot<T> = Missing | Null | Present(value: T)

  /** The slot of a record property that is always set, `null` standing
      for no value. */
  function SlotOf<T>(o: Option<T>): Slot<T> {
    if o.Some? then Present(o.value) else Null
  }

  /** `start <= currentTime`: `null` reads as 0, `undefined` as `NaN`, which
      compares false. */
  predicate StartsBy(s: Slot<int>, t: real) {
    match s
    case Missing => false
    case Null => 0.0 <= t
    case Present(x) => x as real <= t
  }

  /** `currentTime < end`, with the same reading of `null` and `undefined`. */
  predicate EndsAfter(t: real, e: Slot<EndTime>) {
    match e
    case Missing => false
    case Null => t < 0.0
    case Present(x) => Before(t, x)
  }

  /** The time filter's test on the two time properties: both `=== null`,
      or both `!== null` with `start <= t < end`. */
  predicate SlotShown(s: Slot<int>, e: Slot<EndTime>, t: real) {
    if s.Null? && e.Null? then true
    else !s.Null? && !e.Null? && StartsBy(s, t) && EndsAfter(t, e)
  }

  /** On records whose time properties are set, the test is `ShowAt`. */
  lemma SlotShownAgrees(p: Polygon, t: real)
    ensures SlotShown(SlotOf(p.startTime), SlotOf(p.endTime), t) <==> ShowAt(p, t)
  {
  }

  /** An undefined time never passes the test, whatever the other property
      holds and whatever the time. */
  lemma MissingNeverShown(e: Slot<EndTime>, s: Slot<int>, t: real)
    ensures !SlotShown(Missing, e, t) && !SlotShown(s, Missing, t)
  {
  }

  /** A polygon of the one-argument path: the ring, elevation, id and colour
      of the cell's unit tile (its own time fields are not read), and the two
      time properties as the record has them. */
  datatype RawPolygon = RawPolygon(shape: Polygon, startTime: Slot<int>, endTime: Slot<EndTime>)

  /** `pvoxelToPolygon` on a record `{Z, F, X, Y}`: both times undefined. */
  function CellPolygon(c: Cell, color: Color, lat: real -> real): RawPolygon {
    RawPolygon(ToPolygon(UnitTile(c, None, None), color, lat), Missing, Missing)
  }

  /** `pvoxelToPolygon` on the records of the one-argument expander. */
  function RawPolygons(cells: seq<Cell>, color: Color, lat: real -> real): (rs: seq<RawPolygon>)
    ensures |rs| == |cells|
  {
    seq(|cells|, i requires 0 <= i < |cells| => CellPolygon(cells[i], color, lat))
  }

  /** The time filter's test at time `t`. */
  function ShownAt(t: real): RawPolygon -> bool {
    (r: RawPolygon) => SlotShown(r.startTime, r.endTime, t)
  }

  /** The generation step of `getOrGeneratePolygonsForVoxel` as written: the
      level-of-detail cut, the one-argument expander (the mode is ignored),
      the projection, and the time filter. */
  function GenerateAsWritten(item: Item, compileMode: bool, detail: nat, t: real,
                             toRgba: (Color, int) -> Color, lat: real -> real): seq<RawPolygon> {
    var cells := LegacyExpand.HyperVoxelToPureVoxel(Lod(VoxelsOf(item), detail));
    Filter(RawPolygons(cells, toRgba(item.data.color, item.data.opacity), lat), ShownAt(t))
  }

  /** As written, every item at every detail level, mode and time yields no
      polygon, so a miss caches and returns `[]`. */
  lemma AsWrittenDrawsNothing(item: Item, compileMode: bool, detail: nat, t: real,
                              toRgba: (Color, int) -> Color, lat: real -> real)
    ensures GenerateAsWritten(item, compileMode, detail, t, toRgba, lat) == []
  {
    var cells := LegacyExpand.HyperVoxelToPureVoxel(Lod(VoxelsOf(item), detail));
    NoneShown(RawPolygons(cells, toRgba(item.data.color, item.data.opacity), lat), t);
  }

  /** Records without a start time are all dropped. */
  lemma NoneShown(rs: seq<RawPolygon>, t: real)
    requires forall k | 0 <= k < |rs| :: rs[k].startTime.Missing?
    ensures Filter(rs, ShownAt(t)) == []
  {
  }

  /** Every definition of `vs` has no time window. */
  predicate Windowless(vs: seq<VoxelDefinition>) {
    forall v | v in vs :: v.startTime.None? && v.endTime.None?
  }

  /** Every tile of `ts` has no time window. */
  predicate TilesWindowless(ts: seq<Tile>) {
    forall i | 0 <= i < |ts| :: ts[i].startTime.None? && ts[i].endTime.None?
  }

  lemma {:induction false} FlatMapWindowless(vs: seq<VoxelDefinition>, f: VoxelDefinition -> seq<Tile>)
    requires forall v | v in vs :: TilesWindowless(f(v))
    ensures TilesWindowless(FlatMap(vs, f))
    decreases |vs|
  {
    if vs != [] {
      FlatMapWindowless(vs[1..], f);
      var head: seq<Tile> := f(vs[0]);
      var rest: seq<Tile> := FlatMap(vs[1..], f);
      assert FlatMap(vs, f) == head + rest;
      forall i | 0 <= i < |head + rest|
        ensures (head + rest)[i].startTime.None? && (head + rest)[i].endTime.None?
      {
        if i >= |head| {
          assert (head + rest)[i] == rest[i - |head|];
        }
      }
    }
  }

  /** Both modes copy the definition's window onto each of its tiles. */
  lemma ExpanderKeepsWindowless(vs: seq<VoxelDefinition>, compileMode: bool)
    requires Windowless(vs)
    ensures TilesWindowless(HyperVoxelToPureVoxel(vs, compileMode))
  {
    forall v | v in vs
      ensures TilesWindowless(CompactOne(v)) && TilesWindowless(ExpandOne(v))
    {
      if Wraps(v.X) {
        CompactOneWrapping(v);
      } else {
        CompactOneNonWrapping(v);
      }
    }
    FlatMapWindowless(vs, CompactOne);
    FlatMapWindowless(vs, ExpandOne);
  }

  lemma LodWindowless(vs: seq<VoxelDefinition>, detail: nat)
    requires Windowless(vs)
    ensures Windowless(Lod(vs, detail))
  {
    var f := ZoomFiltered(vs, detail);
    assert forall v | v in f :: v in vs;
    forall v | v in Lod(vs, detail)
      ensures v in f
    {
      var k :| 0 <= k < |Lod(vs, detail)| && Lod(vs, detail)[k] == v;
      LodSpec(vs, detail);
      assert v == f[k];
    }
  }

  /** The intended behaviour, proved of `Layer.Generate`: an item whose
      definitions have no time window draws every tile of its expansion, at
      every time. */
  lemma WindowlessAlwaysDrawn(item: Item, compileMode: bool, detail: nat, t: real,
                              toRgba: (Color, int) -> Color, lat: real -> real)
    requires Windowless(VoxelsOf(item))
    ensures Generate(item, compileMode, detail, t, toRgba, lat) ==
              PvoxelToPolygon(HyperVoxelToPureVoxel(Lod(VoxelsOf(item), detail), compileMode),
                              toRgba(item.data.color, item.data.opacity), lat)
  {
    var tiles := HyperVoxelToPureVoxel(Lod(VoxelsOf(item), detail), compileMode);
    var ps := PvoxelToPolygon(tiles, toRgba(item.data.color, item.data.opacity), lat);
    LodWindowless(VoxelsOf(item), detail);
    ExpanderKeepsWindowless(Lod(VoxelsOf(item), detail), compileMode);
    forall k | 0 <= k < |ps|
      ensures ShowAt(ps[k], t)
    {
      PolygonsSpec(tiles, toRgba(item.data.color, item.data.opacity), lat, k);
    }
    FilterAll(ps, (p: Polygon) => ShowAt(p, t));
  }

  /** The voxel item of one windowless cell. */
  function OneCellItem(color: Color): Item {
    Item(1, None, false, false, VoxelData(color, 100, [VoxelDefinition(1, Scalar(0), Scalar(0), Scalar(0), None, None)], None, None))
  }

  /** One item holding the single windowless voxel `1/0/0/0`: the intended
      step draws its one polygon, the step as written draws nothing. */
  lemma OneVoxelDropped(color: Color, compileMode: bool, t: real, toRgba: (Color, int) -> Color, lat: real -> real)
    ensures |Generate(OneCellItem(color), compileMode, 3, t, toRgba, lat)| == 1
    ensures GenerateAsWritten(OneCellItem(color), compileMode, 3, t, toRgba, lat) == []
  {
    var item := OneCellItem(color);
    OneCellOneTile(color, compileMode);
    WindowlessAlwaysDrawn(item, compileMode, 3, t, toRgba, lat);
    AsWrittenDrawsNothing(item, compileMode, 3, t, toRgba, lat);
  }

  lemma OneCellOneTile(color: Color, compileMode: bool)
    ensures |HyperVoxelToPureVoxel(Lod(VoxelsOf(OneCellItem(color)), 3), compileMode)| == 1
  {
    var item := OneCellItem(color);
    var v := item.data.voxel[0];
    assert Lod(VoxelsOf(item), 3) == [v];
    FlatMapSingle(v, CompactOne);
    FlatMapSingle(v, ExpandOne);
    CellsLength(v.Z, EnumerateXRange(v.X, v.Z), EnumerateRange(v.Y), EnumerateRange(v.F));
  }
}

=== FILE: id_syntax.dfy ===
/** The identifier grammar as a reference: the five textual shapes an axis or
    time sub-token can take, what each one denotes, and the proof that the
    parser reads every well-formed identifier list as that denotation. */
module IdSyntax {
  import opened Wrappers
  import opened Text
  import opened Seqs
  import opened Voxels
  import opened ParseId

  /** `-`, `a:-`, `-:b`, `a:b` and `a`. */
  datatype Shape = Full | From(a: int) | UpTo(b: int) | Between(a: int, b: int) | Single(a: int)

  function ShapeText(sh: Shape): string {
    match sh
    case Full => "-"
    case From(a) => IntToString(a) + ":-"
    case UpTo(b) => "-:" + IntToString(b)
    case Between(a, b) => IntToString(a) + ":" + IntToString(b)
    case Single(a) => IntToString(a)
  }

  /** The value a shape stands for on `axis` at zoom level `z`: `-` is the
      whole axis (the inverted sentinel on F), `a:-` runs to the last index
      `2^Z - 1`, `-:b` starts at the first index (`-2^Z` on F, 0 on X and Y),
      and an explicit pair is sorted except on X, where order marks a
      wrap-around. */
  function DimOf(z: nat, axis: Axis, sh: Shape): Dim {
    match sh
    case Full => if axis == FAxis then UnboundedF(z) else FullAxis(z)
    case From(a) => Pair(a, Pow2(z) - 1)
    case UpTo(b) => if axis == FAxis then Pair(-(Pow2(z) as int), b) else Pair(0, b)
    case Between(a, b) => if axis == XAxis then Pair(a, b) else Pair(Min(a, b), Max(a, b))
    case Single(a) => Scalar(a)
  }

  /** The window a time shape stands for with tick length `interval`: tick
      `t` covers `[interval * t, interval * (t + 1))`. */
  function WindowOf(interval: int, sh: Shape): Window {
    match sh
    case Full => Window(None, None)
    case From(a) => Window(Some(interval * a), Some(PosInf))
    case UpTo(b) => Window(Some(0), Some(Fin(interval * (b + 1))))
    case Between(a, b) => Window(Some(interval * a), Some(Fin(interval * (b + 1))))
    case Single(t) => Window(Some(interval * t), Some(Fin(interval * (t + 1))))
  }

  predicate IdChar(c: char) {
    IsDigit(c) || c == '-' || c == ':' || c == '/' || c == '_'
  }

  lemma IntToStringChars(i: int)
    ensures forall k | 0 <= k < |IntToString(i)| :: IsDigit(IntToString(i)[k]) || IntToString(i)[k] == '-'
    ensures ':' !in IntToString(i) && '/' !in IntToString(i) && '_' !in IntToString(i)
  {
    var s := IntToString(i);
    forall k | 0 <= k < |s|
      ensures IsDigit(s[k]) || s[k] == '-'
    {
      if k > 0 {
        assert IsDigit(s[k]);
      }
    }
  }

  lemma FromFacts(a: int)
    ensures ShapeText(From(a)) != "-"
    ensures EndsWith(ShapeText(From(a)), ":-")
    ensures Split(ShapeText(From(a)), ':')[0] == IntToString(a)
  {
    var A := IntToString(a);
    var s := ShapeText(From(a));
    IntToStringChars(a);
    assert s == A + [':'] + "-";
    SplitCons(A, "-", ':');
    assert s[|s| - 2..] == ":-";
  }

  lemma UpToFacts(b: int)
    ensures ShapeText(UpTo(b)) != "-"
    ensures !EndsWith(ShapeText(UpTo(b)), ":-")
    ensures StartsWith(ShapeText(UpTo(b)), "-:")
    ensures |Split(ShapeText(UpTo(b)), ':')| >= 2 && Split(ShapeText(UpTo(b)), ':')[1] == IntToString(b)
  {
    IntToStringChars(b);
    UpToText(IntToString(b));
  }

  /** `-:` followed by a number text. */
  lemma UpToText(B: string)
    requires |B| >= 1 && ':' !in B && B[|B| - 1] != '-'
    ensures var s := "-:" + B;
            s != "-" && !EndsWith(s, ":-") && StartsWith(s, "-:") &&
            |Split(s, ':')| >= 2 && Split(s, ':')[1] == B
  {
    var s := "-:" + B;
    assert s == "-" + [':'] + B;
    SplitCons("-", B, ':');
    SplitNoSeparator(B, ':');
    assert s[|s| - 1] == B[|B| - 1];
    assert s[..2] == "-:";
  }

  lemma BetweenFacts(a: int, b: int)
    ensures ShapeText(Between(a, b)) != "-"
    ensures !EndsWith(ShapeText(Between(a, b)), ":-")
    ensures !StartsWith(ShapeText(Between(a, b)), "-:")
    ensures IndexOf(ShapeText(Between(a, b)), ':') != -1
    ensures Split(ShapeText(Between(a, b)), ':') == [IntToString(a), IntToString(b)]
  {
    IntToStringChars(a);
    IntToStringChars(b);
    ColonPairText(IntToString(a), IntToString(b));
  }

  /** Two number texts around a colon. */
  lemma ColonPairText(A: string, B: string)
    requires |A| >= 1 && ':' !in A && A != "-"
    requires |B| >= 1 && ':' !in B && B[|B| - 1] != '-'
    ensures var s := A + ":" + B;
            s != "-" && !EndsWith(s, ":-") && !StartsWith(s, "-:") &&
            IndexOf(s, ':') != -1 && Split(s, ':') == [A, B]
  {
    var s := A + ":" + B;
    assert s == A + [':'] + B;
    SplitCons(A, B, ':');
    SplitNoSeparator(B, ':');
    assert s[|s| - 1] == B[|B| - 1];
    assert s[|A|] == ':';
    if |A| >= 2 {
      assert s[1] == A[1];
    } else {
      assert s[0] == A[0] && A == [A[0]];
    }
  }

  lemma SingleFacts(a: int)
    ensures ShapeText(Single(a)) != "-"
    ensures !EndsWith(ShapeText(Single(a)), ":-")
    ensures !StartsWith(ShapeText(Single(a)), "-:")
    ensures IndexOf(ShapeText(Single(a)), ':') == -1
  {
    var s := ShapeText(Single(a));
    IntToStringChars(a);
    assert IsDigit(s[|s| - 1]);
    if a < 0 {
      assert IsDigit(s[1]);
    }
  }

  /** The characters of a shape's text: digits, `-` and `:`. */
  lemma ShapeChars(sh: Shape)
    ensures |ShapeText(sh)| >= 1
    ensures forall k | 0 <= k < |ShapeText(sh)| ::
              IsDigit(ShapeText(sh)[k]) || ShapeText(sh)[k] == '-' || ShapeText(sh)[k] == ':'
    ensures '/' !in ShapeText(sh) && '_' !in ShapeText(sh)
  {
    var s := ShapeText(sh);
    match sh
    case Full =>
      assert ShapeAlphabet(s);
    case From(a) =>
      IntTextAlphabet(a);
      assert ShapeAlphabet(":-");
      ShapeAlphabetAppend(IntToString(a), ":-");
    case UpTo(b) =>
      IntTextAlphabet(b);
      assert ShapeAlphabet("-:");
      ShapeAlphabetAppend("-:", IntToString(b));
    case Between(a, b) =>
      IntTextAlphabet(a);
      IntTextAlphabet(b);
      assert ShapeAlphabet(":");
      ShapeAlphabetAppend(IntToString(a), ":");
      ShapeAlphabetAppend(IntToString(a) + ":", IntToString(b));
    case Single(a) =>
      IntTextAlphabet(a);
    ShapeAlphabetExcludes(s);
  }

  /** Only digits, `-` and `:`. */
  predicate ShapeAlphabet(s: string) {
    forall k | 0 <= k < |s| :: IsDigit(s[k]) || s[k] == '-' || s[k] == ':'
  }

  lemma ShapeAlphabetAppend(a: string, b: string)
    requires ShapeAlphabet(a) && ShapeAlphabet(b)
    ensures ShapeAlphabet(a + b)
  {
    forall k | 0 <= k < |a + b|
      ensures IsDigit((a + b)[k]) || (a + b)[k] == '-' || (a + b)[k] == ':'
    {
      if k < |a| {
        assert (a + b)[k] == a[k];
      } else {
        assert (a + b)[k] == b[k - |a|];
      }
    }
  }

  lemma IntTextAlphabet(i: int)
    ensures |IntToString(i)| >= 1 && ShapeAlphabet(IntToString(i))
  {
    IntToStringChars(i);
  }

  lemma ShapeAlphabetExcludes(s: string)
    requires ShapeAlphabet(s)
    ensures '/' !in s && '_' !in s
  {
  }

  lemma ParseDimFrom(z: nat, axis: Axis, a: int)
    ensures ParseDim(z, axis, ShapeText(From(a))) == Success(Pair(a, Pow2(z) - 1))
  {
    FromFacts(a);
    assert ParseDim(z, axis, ShapeText(From(a))) == DimFrom(z, IntToString(a));
    NumberOfIntText(a);
    DimFromNumber(z, IntToString(a), a);
  }

  lemma DimFromNumber(z: nat, t: string, a: int)
    requires Number(t) == Success(a)
    ensures DimFrom(z, t) == Success(Pair(a, Pow2(z) - 1))
  {
  }

  lemma ParseDimUpTo(z: nat, axis: Axis, b: int)
    ensures ParseDim(z, axis, ShapeText(UpTo(b))) == Success(DimOf(z, axis, UpTo(b)))
  {
    UpToFacts(b);
    assert ParseDim(z, axis, ShapeText(UpTo(b))) == DimUpTo(z, axis, IntToString(b));
    NumberOfIntText(b);
    DimUpToNumber(z, axis, IntToString(b), b);
  }

  lemma DimUpToNumber(z: nat, axis: Axis, t: string, b: int)
    requires Number(t) == Success(b)
    ensures DimUpTo(z, axis, t) == Success(DimOf(z, axis, UpTo(b)))
  {
  }

  lemma ParseDimPairText(z: nat, axis: Axis, item: string, a: int, b: int)
    requires item != "-" && !EndsWith(item, ":-") && !StartsWith(item, "-:")
    requires IndexOf(item, ':') != -1
    requires Number(Split(item, ':')[0]) == Success(a)
    requires |Split(item, ':')| >= 2 && Number(Split(item, ':')[1]) == Success(b)
    ensures ParseDim(z, axis, item) == Success(DimOf(z, axis, Between(a, b)))
  {
    var parts := Split(item, ':');
    DimPairNumbers(z, axis, parts, a, b);
    assert ParseDim(z, axis, item) == DimPair(axis, parts);
  }

  lemma DimPairNumbers(z: nat, axis: Axis, parts: seq<string>, a: int, b: int)
    requires |parts| >= 2 && Number(parts[0]) == Success(a) && Number(parts[1]) == Success(b)
    ensures DimPair(axis, parts) == Success(DimOf(z, axis, Between(a, b)))
  {
    var d := if axis == XAxis then Pair(a, b) else Pair(Min(a, b), Max(a, b));
    assert DimOf(z, axis, Between(a, b)) == d;
    assert DimPair(axis, parts) == Success(d);
  }

  lemma ParseDimBetween(z: nat, axis: Axis, a: int, b: int)
    ensures ParseDim(z, axis, ShapeText(Between(a, b))) == Success(DimOf(z, axis, Between(a, b)))
  {
    var s := ShapeText(Between(a, b));
    assert s != "-" && !EndsWith(s, ":-") && !StartsWith(s, "-:") && IndexOf(s, ':') != -1
      && Number(Split(s, ':')[0]) == Success(a)
      && |Split(s, ':')| >= 2 && Number(Split(s, ':')[1]) == Success(b) by {
      BetweenFacts(a, b);
      IntToStringRoundTrip(a);
      IntToStringRoundTrip(b);
    }
    ParseDimPairText(z, axis, s, a, b);
  }

  lemma ParseDimSingle(z: nat, axis: Axis, a: int)
    ensures ParseDim(z, axis, ShapeText(Single(a))) == Success(Scalar(a))
  {
    DimSingleBranch(z, axis, a);
    NumberOfIntText(a);
    DimSingleNumber(IntToString(a), a);
  }

  lemma DimSingleBranch(z: nat, axis: Axis, a: int)
    ensures ParseDim(z, axis, ShapeText(Single(a))) == DimSingle(ShapeText(Single(a)))
  {
    SingleFacts(a);
  }

  lemma DimSingleNumber(t: string, a: int)
    requires Number(t) == Success(a)
    ensures DimSingle(t) == Success(Scalar(a))
  {
  }

  /** Every axis shape parses to the value it denotes. */
  lemma ParseDimShape(z: nat, axis: Axis, sh: Shape)
    ensures ParseDim(z, axis, ShapeText(sh)) == Success(DimOf(z, axis, sh))
  {
    match sh
    case Full =>
    case From(a) => ParseDimFrom(z, axis, a);
    case UpTo(b) => ParseDimUpTo(z, axis, b);
    case Between(a, b) => ParseDimBetween(z, axis, a, b);
    case Single(a) => ParseDimSingle(z, axis, a);
  }

  function TimeText(interval: int, sh: Shape): string {
    IntToString(interval) + "/" + ShapeText(sh)
  }

  lemma TimeTextSplit(interval: int, sh: Shape)
    ensures Split(TimeText(interval, sh), '/') == [IntToString(interval), ShapeText(sh)]
  {
    var I := IntToString(interval);
    IntToStringChars(interval);
    ShapeChars(sh);
    assert TimeText(interval, sh) == I + ['/'] + ShapeText(sh);
    SplitCons(I, ShapeText(sh), '/');
    SplitNoSeparator(ShapeText(sh), '/');
  }

  lemma TickWindowFrom(interval: int, a: int)
    ensures TickWindow(interval, ShapeText(From(a))) == Success(WindowOf(interval, From(a)))
  {
    FromFacts(a);
    assert TickWindow(interval, ShapeText(From(a))) == TickFrom(interval, IntToString(a));
    NumberOfIntText(a);
    TickFromNumber(interval, IntToString(a), a);
  }

  lemma TickFromNumber(interval: int, t: string, a: int)
    requires Number(t) == Success(a)
    ensures TickFrom(interval, t) == Success(WindowOf(interval, From(a)))
  {
  }

  lemma TickWindowUpTo(interval: int, b: int)
    ensures TickWindow(interval, ShapeText(UpTo(b))) == Success(WindowOf(interval, UpTo(b)))
  {
    UpToFacts(b);
    assert TickWindow(interval, ShapeText(UpTo(b))) == TickUpTo(interval, IntToString(b));
    NumberOfIntText(b);
    TickUpToNumber(interval, IntToString(b), b);
  }

  lemma TickUpToNumber(interval: int, t: string, b: int)
    requires Number(t) == Success(b)
    ensures TickUpTo(interval, t) == Success(WindowOf(interval, UpTo(b)))
  {
  }

  lemma TickWindowPairText(interval: int, tPart: string, a: int, b: int)
    requires !EndsWith(tPart, ":-") && !StartsWith(tPart, "-:") && IndexOf(tPart, ':') != -1
    requires Number(Split(tPart, ':')[0]) == Success(a)
    requires |Split(tPart, ':')| >= 2 && Number(Split(tPart, ':')[1]) == Success(b)
    ensures TickWindow(interval, tPart) == Success(WindowOf(interval, Between(a, b)))
  {
    var tList := Split(tPart, ':');
    TickPairNumbers(interval, tList, a, b);
    assert TickWindow(interval, tPart) == TickPair(interval, tList);
  }

  lemma TickPairNumbers(interval: int, tList: seq<string>, a: int, b: int)
    requires |tList| >= 2 && Number(tList[0]) == Success(a) && Number(tList[1]) == Success(b)
    ensures TickPair(interval, tList) == Success(WindowOf(interval, Between(a, b)))
  {
  }

  lemma TickWindowBetween(interval: int, a: int, b: int)
    ensures TickWindow(interval, ShapeText(Between(a, b))) == Success(WindowOf(interval, Between(a, b)))
  {
    var s := ShapeText(Between(a, b));
    assert !EndsWith(s, ":-") && !StartsWith(s, "-:") && IndexOf(s, ':') != -1
      && Number(Split(s, ':')[0]) == Success(a)
      && |Split(s, ':')| >= 2 && Number(Split(s, ':')[1]) == Success(b) by {
      BetweenFacts(a, b);
      IntToStringRoundTrip(a);
      IntToStringRoundTrip(b);
    }
    TickWindowPairText(interval, s, a, b);
  }

  lemma TickWindowSingle(interval: int, a: int)
    ensures TickWindow(interval, ShapeText(Single(a))) == Success(WindowOf(interval, Single(a)))
  {
    var s := ShapeText(Single(a));
    TickSingleBranch(interval, a);
    NumberOfIntText(a);
    TickSingleNumber(interval, s, a);
  }

  lemma TickSingleBranch(interval: int, a: int)
    ensures TickWindow(interval, ShapeText(Single(a))) == TickSingle(interval, ShapeText(Single(a)))
  {
    SingleFacts(a);
  }

  /** The parser's `Number` reads back a rendered integer. */
  lemma NumberOfIntText(a: int)
    ensures Number(IntToString(a)) == Success(a)
    ensures Number(ShapeText(Single(a))) == Success(a)
  {
    IntToStringRoundTrip(a);
  }

  lemma TickSingleNumber(interval: int, tPart: string, a: int)
    requires Number(tPart) == Success(a)
    ensures TickSingle(interval, tPart) == Success(WindowOf(interval, Single(a)))
  {
  }

  /** Every time shape, after an interval, parses to the window it denotes. */
  lemma ParseTimeShape(interval: int, sh: Shape)
    ensures ParseTime(Some(TimeText(interval, sh))) == Success(WindowOf(interval, sh))
  {
    TimeTextSplit(interval, sh);
    NumberOfIntText(interval);
    TickWindowOfShape(interval, sh);
    ParseTimeParts(TimeText(interval, sh), IntToString(interval), ShapeText(sh), interval, WindowOf(interval, sh));
  }

  /** A time shape other than `-` reads back as its window. */
  lemma TickWindowOfShape(interval: int, sh: Shape)
    ensures sh.Full? ==> ShapeText(sh) == "-" && WindowOf(interval, sh) == Window(None, None)
    ensures !sh.Full? ==> ShapeText(sh) != "-" && TickWindow(interval, ShapeText(sh)) == Success(WindowOf(interval, sh))
  {
    match sh
    case Full =>
    case From(a) =>
      FromFacts(a);
      TickWindowFrom(interval, a);
    case UpTo(b) =>
      UpToFacts(b);
      TickWindowUpTo(interval, b);
    case Between(a, b) =>
      BetweenFacts(a, b);
      TickWindowBetween(interval, a, b);
    case Single(a) =>
      SingleFacts(a);
      TickWindowSingle(interval, a);
  }

  /** A time part `interval/shape` reads as the window of its shape. */
  lemma ParseTimeParts(tp: string, it: string, st: string, interval: int, w: Window)
    requires Split(tp, '/') == [it, st] && Number(it) == Success(interval)
    requires st == "-" ==> w == Window(None, None)
    requires st != "-" ==> TickWindow(interval, st) == Success(w)
    ensures ParseTime(Some(tp)) == Success(w)
  {
    var parts := Split(tp, '/');
    assert parts[0] == it && parts[1] == st;
  }

  /** A well-formed identifier token: zoom, three axis shapes and an optional
      `(interval, time shape)`. */
  datatype IdSpec = IdSpec(z: nat, f: Shape, x: Shape, y: Shape, time: Option<(int, Shape)>)

  function SpatialText(id: IdSpec): string {
    Join([IntToString(id.z), ShapeText(id.f), ShapeText(id.x), ShapeText(id.y)], '/')
  }

  function TimePartText(id: IdSpec): Option<string> {
    match id.time
    case None => None
    case Some((i, t)) => Some(TimeText(i, t))
  }

  function IdText(id: IdSpec): string {
    match TimePartText(id)
    case None => SpatialText(id)
    case Some(tt) => SpatialText(id) + "_" + tt
  }

  function WindowOfId(id: IdSpec): Window {
    match id.time
    case None => Window(None, None)
    case Some((i, t)) => WindowOf(i, t)
  }

  function Denote(id: IdSpec): VoxelDefinition {
    var w := WindowOfId(id);
    VoxelDefinition(id.z, DimOf(id.z, FAxis, id.f), DimOf(id.z, XAxis, id.x), DimOf(id.z, YAxis, id.y), w.start, w.end)
  }

  /** Every character of `s` satisfies `p`. */
  predicate AllChars(s: string, p: char -> bool) {
    forall k | 0 <= k < |s| :: p(s[k])
  }

  lemma AllCharsAppend(a: string, b: string, p: char -> bool)
    requires AllChars(a, p) && AllChars(b, p)
    ensures AllChars(a + b, p)
  {
    forall k | 0 <= k < |a + b|
      ensures p((a + b)[k])
    {
      if k >= |a| {
        assert (a + b)[k] == b[k - |a|];
      }
    }
  }

  lemma ShapeIdChars(sh: Shape)
    ensures AllChars(ShapeText(sh), (c: char) => IdChar(c) && c != '_')
    ensures '/' !in ShapeText(sh)
  {
    ShapeChars(sh);
  }

  lemma IntIdChars(i: int)
    ensures AllChars(IntToString(i), (c: char) => IdChar(c) && c != '_')
    ensures '/' !in IntToString(i)
  {
    IntToStringChars(i);
  }

  lemma SpatialTextFacts(id: IdSpec)
    ensures AllChars(SpatialText(id), (c: char) => IdChar(c) && c != '_')
    ensures Split(SpatialText(id), '/') == [IntToString(id.z), ShapeText(id.f), ShapeText(id.x), ShapeText(id.y)]
  {
    var parts := [IntToString(id.z), ShapeText(id.f), ShapeText(id.x), ShapeText(id.y)];
    var p := (c: char) => IdChar(c) && c != '_';
    IntIdChars(id.z);
    ShapeIdChars(id.f);
    ShapeIdChars(id.x);
    ShapeIdChars(id.y);
    assert forall k | 0 <= k < |parts| :: AllChars(parts[k], p) && '/' !in parts[k];
    JoinChars(parts, '/', p);
    SplitJoin(parts, '/');
  }

  lemma IdTextFacts(id: IdSpec)
    ensures AllChars(IdText(id), IdChar)
    ensures |IdText(id)| >= 1
  {
    SpatialTextFacts(id);
    var sp := SpatialText(id);
    assert |Split(sp, '/')| == 4;
    assert |sp| >= 1;
    match id.time
    case None =>
    case Some((i, t)) =>
      IntToStringChars(i);
      ShapeChars(t);
      assert AllChars(IntToString(i), IdChar);
      assert AllChars(ShapeText(t), IdChar);
      AllCharsAppend(IntToString(i), "/", IdChar);
      AllCharsAppend(IntToString(i) + "/", ShapeText(t), IdChar);
      AllCharsAppend(sp, "_", IdChar);
      AllCharsAppend(sp + "_", TimeText(i, t), IdChar);
  }

  /** Trimming leaves a token alone, and the cut at `_` recovers the spatial
      text and the time text. */
  lemma CutIdText(id: IdSpec)
    ensures CutAtUnderscore(Trim(IdText(id))) == (SpatialText(id), TimePartText(id))
  {
    var s := IdText(id);
    var sp := SpatialText(id);
    assert Trim(s) == s by {
      IdTextFacts(id);
      assert NoSpace(s) by {
        forall k | 0 <= k < |s|
          ensures !IsSpace(s[k])
        {
          assert IdChar(s[k]);
        }
      }
    }
    assert '_' !in sp by {
      SpatialTextFacts(id);
      assert AllChars(sp, (c: char) => IdChar(c) && c != '_');
    }
    match TimePartText(id)
    case None =>
      assert CutAtUnderscore(s) == (sp, None);
    case Some(tt) =>
      CutAtFirst(sp, tt);
  }

  lemma CutAtFirst(spatial: string, rest: string)
    requires '_' !in spatial
    ensures CutAtUnderscore(spatial + "_" + rest) == (spatial, Some(rest))
  {
    var s := spatial + "_" + rest;
    assert s[|spatial|] == '_' && s[..|spatial|] == spatial;
    assert s[|spatial| + 1..] == rest;
  }

  lemma ParseSpatialList(list: seq<string>, z: nat, f: Dim, x: Dim, y: Dim)
    requires |list| == 4 && Number(list[0]) == Success(z)
    requires ParseDim(z, FAxis, list[1]) == Success(f)
    requires ParseDim(z, XAxis, list[2]) == Success(x)
    requires ParseDim(z, YAxis, list[3]) == Success(y)
    ensures ParseSpatial(list) == Success(Spatial(z, f, x, y))
  {
  }

  /** The spatial text parses to the zoom level and the three axis values. */
  lemma ParseSpatialText(id: IdSpec)
    ensures ParseSpatial(Split(SpatialText(id), '/'))
         == Success(Spatial(id.z, DimOf(id.z, FAxis, id.f), DimOf(id.z, XAxis, id.x), DimOf(id.z, YAxis, id.y)))
  {
    var list := Split(SpatialText(id), '/');
    SpatialTextFacts(id);
    IntToStringRoundTrip(id.z);
    ParseDimShape(id.z, FAxis, id.f);
    ParseDimShape(id.z, XAxis, id.x);
    ParseDimShape(id.z, YAxis, id.y);
    ParseSpatialList(list, id.z, DimOf(id.z, FAxis, id.f), DimOf(id.z, XAxis, id.x), DimOf(id.z, YAxis, id.y));
  }

  lemma ParseTimeText(id: IdSpec)
    ensures ParseTime(TimePartText(id)) == Success(WindowOfId(id))
  {
    match id.time
    case None =>
    case Some((i, t)) => ParseTimeShape(i, t);
  }

  lemma ParsePartsOf(spatial: string, timePart: Option<string>, w: Window, c: Spatial)
    requires ParseTime(timePart) == Success(w)
    requires ParseSpatial(Split(spatial, '/')) == Success(c)
    ensures ParseParts(spatial, timePart) == Success(VoxelDefinition(c.z, c.f, c.x, c.y, w.start, w.end))
  {
  }

  /** Every well-formed token parses to its denotation. */
  lemma ParseTokenSpec(id: IdSpec)
    ensures ParseToken(IdText(id)) == Success(Denote(id))
  {
    CutIdText(id);
    ParseSpatialText(id);
    ParseTimeText(id);
    ParsePartsOf(SpatialText(id), TimePartText(id), WindowOfId(id),
      Spatial(id.z, DimOf(id.z, FAxis, id.f), DimOf(id.z, XAxis, id.x), DimOf(id.z, YAxis, id.y)));
  }

  function IdTexts(ids: seq<IdSpec>): (r: seq<string>)
    ensures |r| == |ids|
  {
    seq(|ids|, i requires 0 <= i < |ids| => IdText(ids[i]))
  }

  function Denotes(ids: seq<IdSpec>): (r: seq<VoxelDefinition>)
    ensures |r| == |ids|
  {
    seq(|ids|, i requires 0 <= i < |ids| => Denote(ids[i]))
  }

  lemma MapAllTokens(ids: seq<IdSpec>)
    ensures MapAll(IdTexts(ids), ParseToken) == Success(Denotes(ids))
  {
    var texts := IdTexts(ids);
    var defs := Denotes(ids);
    forall i | 0 <= i < |texts|
      ensures ParseToken(texts[i]) == Success(defs[i])
    {
      ParseTokenSpec(ids[i]);
    }
    MapAllPointwise(texts, ParseToken, defs);
  }

  /** `MapAll` succeeds with `ys` when every element succeeds with the
      corresponding element of `ys`. */
  lemma {:induction false} MapAllPointwise<A, B>(xs: seq<A>, f: A -> Result<B, ParseError>, ys: seq<B>)
    requires |xs| == |ys|
    requires forall i | 0 <= i < |xs| :: f(xs[i]) == Success(ys[i])
    ensures MapAll(xs, f) == Success(ys)
    decreases |xs|
  {
    if xs != [] {
      assert f(xs[0]) == Success(ys[0]);
      MapAllPointwise(xs[1..], f, ys[1..]);
      assert ys == [ys[0]] + ys[1..];
    }
  }

  /** The codec round trip: a comma-separated list of well-formed tokens
      parses to one definition per token, in order, each the token's
      denotation. */
  lemma ParseIdList(ids: seq<IdSpec>)
    ensures Parse(Join(IdTexts(ids), ',')) == Success(Denotes(ids))
  {
    TokensOfIdTexts(ids);
    MapAllTokens(ids);
  }

  /** Each text in single quotes, as a printed string array shows it. */
  function Quoted(texts: seq<string>): (r: seq<string>)
    ensures |r| == |texts|
  {
    seq(|texts|, i requires 0 <= i < |texts| => "'" + texts[i] + "'")
  }

  /** The decorated form of the list: `['t1','t2',...]`. */
  function Bracketed(texts: seq<string>): string {
    "[" + Join(Quoted(texts), ',') + "]"
  }

  /** The decoration is what the stripper exists for: a bracketed list of
      quoted identifiers parses to the same definitions as the plain
      comma list. */
  lemma ParseBracketedList(ids: seq<IdSpec>)
    ensures Parse(Bracketed(IdTexts(ids))) == Parse(Join(IdTexts(ids), ','))
    ensures Parse(Bracketed(IdTexts(ids))) == Success(Denotes(ids))
  {
    var texts := IdTexts(ids);
    IdTextsClean(texts, ids);
    JoinedIdChars(texts);
    StripUndecorated(Join(texts, ','));
    StripBracketed(texts);
    assert Tokens(Bracketed(texts)) == Tokens(Join(texts, ','));
    ParseIdList(ids);
  }

  /** Stripping a bracketed list of quoted identifier texts leaves their
      plain comma-join. */
  lemma StripBracketed(texts: seq<string>)
    requires forall k | 0 <= k < |texts| :: AllChars(texts[k], IdChar)
    ensures StripDecoration(Bracketed(texts)) == Join(texts, ',')
  {
    var q := Join(Quoted(texts), ',');
    var s := Bracketed(texts);
    QuotedJoinChars(texts);
    StripBrackets(q);
    UnquoteJoin(texts);
    assert StripDecoration(s) == RemoveAll(RemoveFirst(RemoveFirst(s, '['), ']'), '\'');
  }

  /** A join of quoted identifier texts holds no bracket. */
  lemma QuotedJoinChars(texts: seq<string>)
    requires forall k | 0 <= k < |texts| :: AllChars(texts[k], IdChar)
    ensures '[' !in Join(Quoted(texts), ',') && ']' !in Join(Quoted(texts), ',')
    ensures forall k | 0 <= k < |texts| :: '\'' !in texts[k]
  {
    var p := (c: char) => IdChar(c) || c == ',' || c == '\'';
    var qs := Quoted(texts);
    forall k, i | 0 <= k < |qs| && 0 <= i < |qs[k]|
      ensures p(qs[k][i])
    {
      assert AllChars(texts[k], IdChar);
      if 0 < i < |qs[k]| - 1 {
        assert qs[k][i] == texts[k][i - 1];
      }
    }
    JoinChars(qs, ',', p);
    forall k | 0 <= k < |texts|
      ensures '\'' !in texts[k]
    {
      assert AllChars(texts[k], IdChar);
    }
  }

  /** The outer brackets of a bracket-free text are the first `[` and the
      first `]`. */
  lemma StripBrackets(q: string)
    requires '[' !in q && ']' !in q
    ensures RemoveFirst(RemoveFirst("[" + q + "]", '['), ']') == q
  {
    var s := "[" + q + "]";
    assert s[0] == '[';
    assert s[..0] + s[1..] == q + "]";
    var s1 := RemoveFirst(s, '[');
    assert s1 == q + "]";
    assert IndexOf(s1, ']') == |q|;
    assert s1[..|q|] + s1[|q| + 1..] == q;
  }

  /** Dropping every quote from a join of quoted texts gives the join of the
      texts. */
  lemma {:induction false} UnquoteJoin(texts: seq<string>)
    requires forall k | 0 <= k < |texts| :: '\'' !in texts[k]
    ensures Filter(Join(Quoted(texts), ','), Other('\'')) == Join(texts, ',')
    decreases |texts|
  {
    var q := Quoted(texts);
    if |texts| == 1 {
      Unquote(texts[0]);
    } else if |texts| > 1 {
      assert Quoted(texts[1..]) == q[1..];
      UnquoteJoin(texts[1..]);
      Unquote(texts[0]);
      FilterAppend(q[0] + [','], Join(q[1..], ','), Other('\''));
      FilterAppend(q[0], [','], Other('\''));
      assert Filter([','], Other('\'')) == [','];
    }
  }

  lemma Unquote(t: string)
    requires '\'' !in t
    ensures Filter("'" + t + "'", Other('\'')) == t
  {
    FilterAppend("'" + t, "'", Other('\''));
    FilterAppend("'", t, Other('\''));
    assert Filter("'", Other('\'')) == [];
    FilterAll(t, Other('\''));
  }

  /** Every identifier text is a non-blank run of identifier characters. */
  lemma IdTextsClean(texts: seq<string>, ids: seq<IdSpec>)
    requires texts == IdTexts(ids)
    ensures forall k | 0 <= k < |texts| :: AllChars(texts[k], IdChar) && !IsBlank(texts[k])
  {
    forall k | 0 <= k < |texts|
      ensures AllChars(texts[k], IdChar) && !IsBlank(texts[k])
    {
      IdTextFacts(ids[k]);
      assert texts[k][0] in texts[k];
      assert !IsSpace(texts[k][0]) by {
        assert IdChar(texts[k][0]);
      }
    }
  }

  /** A comma-join of identifier texts holds only identifier characters
      and commas. */
  lemma JoinedIdChars(texts: seq<string>)
    requires forall k | 0 <= k < |texts| :: AllChars(texts[k], IdChar)
    ensures forall i | 0 <= i < |Join(texts, ',')| :: IdChar(Join(texts, ',')[i]) || Join(texts, ',')[i] == ','
  {
    var p := (c: char) => IdChar(c) || c == ',';
    forall k, i | 0 <= k < |texts| && 0 <= i < |texts[k]|
      ensures p(texts[k][i])
    {
      assert AllChars(texts[k], IdChar);
    }
    JoinChars(texts, ',', p);
  }

  /** Text without brackets or quotes is left alone by the decoration
      stripper. */
  lemma StripUndecorated(s: string)
    requires forall i | 0 <= i < |s| :: IdChar(s[i]) || s[i] == ','
    ensures StripDecoration(s) == s
  {
    assert '[' !in s && ']' !in s && '\'' !in s;
  }

  /** Joining the identifier texts with commas and cutting the result into
      tokens gives the texts back. */
  lemma TokensOfIdTexts(ids: seq<IdSpec>)
    ensures Tokens(Join(IdTexts(ids), ',')) == IdTexts(ids)
  {
    var texts := IdTexts(ids);
    var s := Join(texts, ',');
    IdTextsClean(texts, ids);
    JoinedIdChars(texts);
    StripUndecorated(s);
    if ids == [] {
      assert Split(s, ',') == [""];
    } else {
      TokensOfCleanTexts(texts);
    }
  }

  /** Non-blank comma-free texts come back from their comma-join. */
  lemma TokensOfCleanTexts(texts: seq<string>)
    requires |texts| >= 1
    requires forall k | 0 <= k < |texts| :: AllChars(texts[k], IdChar) && !IsBlank(texts[k])
    ensures Filter(Split(Join(texts, ','), ','), (t: string) => !IsBlank(t)) == texts
  {
    forall k | 0 <= k < |texts|
      ensures ',' !in texts[k]
    {
      assert AllChars(texts[k], IdChar);
    }
    SplitJoin(texts, ',');
    FilterAll(texts, (t: string) => !IsBlank(t));
  }

  /** Input made only of white space, commas and quotes parses to no
      definitions. */
  lemma ParseBlankInput(s: string)
    requires forall i | 0 <= i < |s| :: IsSpace(s[i]) || s[i] == ',' || s[i] == '\''
    ensures Parse(s) == Success([])
  {
    var t := StripDecoration(s);
    StrippedBlank(s);
    BlankPieces(t);
    NoneKept(Split(t, ','));
    assert Tokens(s) == [];
  }

  /** Removing the decoration from spaces, commas and quotes leaves only
      spaces and commas. */
  lemma StrippedBlank(s: string)
    requires forall i | 0 <= i < |s| :: IsSpace(s[i]) || s[i] == ',' || s[i] == '\''
    ensures forall c | c in StripDecoration(s) :: IsSpace(c) || c == ','
  {
    var t := StripDecoration(s);
    forall c | c in t
      ensures IsSpace(c) || c == ','
    {
      assert c in multiset(t);
      assert c != '\'';
      if c != '[' && c != ']' {
        assert multiset(t)[c] == multiset(s)[c];
        assert c in multiset(s);
      }
    }
  }

  /** Every comma-separated piece of spaces and commas is blank. */
  lemma BlankPieces(t: string)
    requires forall c | c in t :: IsSpace(c) || c == ','
    ensures forall k | 0 <= k < |Split(t, ',')| :: IsBlank(Split(t, ',')[k])
  {
    var pieces := Split(t, ',');
    forall k | 0 <= k < |pieces|
      ensures IsBlank(pieces[k])
    {
      SplitPieceChars(t, ',', k);
      assert AllSpace(pieces[k]) by {
        forall i | 0 <= i < |pieces[k]|
          ensures IsSpace(pieces[k][i])
        {
          assert pieces[k][i] in t;
          assert pieces[k][i] != ',';
        }
      }
    }
  }

  lemma {:induction false} NoneKept(pieces: seq<string>)
    requires forall k | 0 <= k < |pieces| :: IsBlank(pieces[k])
    ensures Filter(pieces, (t: string) => !IsBlank(t)) == []
    decreases |pieces|
  {
    if pieces != [] {
      NoneKept(pieces[1..]);
    }
  }

  lemma {:induction false} SplitPieceChars(s: string, sep: char, k: int)
    requires 0 <= k < |Split(s, sep)|
    ensures forall c | c in Split(s, sep)[k] :: c in s
    decreases |s|
  {
    if s != [] {
      var rest := Split(s[1..], sep);
      if s[0] == sep {
        if k > 0 {
          SplitPieceChars(s[1..], sep, k - 1);
        }
      } else if k == 0 {
        SplitPieceChars(s[1..], sep, 0);
      } else {
        SplitPieceChars(s[1..], sep, k);
      }
    }
  }

  /** A parsed token's window is the one its time part parses to. */
  lemma ParsePartsWindow(spatial: string, timePart: Option<string>)
    requires ParseParts(spatial, timePart).Success?
    ensures ParseTime(timePart).Success?
    ensures ParseParts(spatial, timePart).value.startTime == ParseTime(timePart).value.start
    ensures ParseParts(spatial, timePart).value.endTime == ParseTime(timePart).value.end
  {
  }

  /** A token with no `_` carries no time window. */
  lemma NoUnderscoreNoTime(token: string)
    requires '_' !in Trim(token)
    ensures ParseToken(token).Success? ==> ParseToken(token).value.startTime == None
    ensures ParseToken(token).Success? ==> ParseToken(token).value.endTime == None
  {
    if ParseToken(token).Success? {
      var t := Trim(token);
      assert CutAtUnderscore(t) == (t, None);
      ParsePartsWindow(t, None);
    }
  }

  /** The token is cut at its FIRST `_`: everything after it, further `_`
      included, is the time part. */
  lemma CutsAtFirstUnderscore(spatial: string, rest: string)
    requires '_' !in spatial
    requires NoSpace(spatial + "_" + rest)
    ensures ParseToken(spatial + "_" + rest) == ParseParts(spatial, Some(rest))
  {
    assert Trim(spatial + "_" + rest) == spatial + "_" + rest;
    CutAtFirst(spatial, rest);
  }
}

=== FILE: items.dfy ===
/** Drawable items and the item store: a list of points, lines and voxel
    sets, each with a numeric id drawn from a counter that starts at 1000.
    Every store operation is a transition from one state to the next; a
    caller's two operations are applied one after the other. */
module Items {
  import opened Wrappers
  import opened Seqs
  import opened Voxels
  import opened ParseId
  import opened Projector

  datatype ItemType = PointType | LineType | VoxelType

  datatype Source = Json | Manual

  datatype ItemData =
    | PointData(color: Color, opacity: int, size: int, lat: real, lon: real)
    | LineData(color: Color, opacity: int, size: int, lat1: real, lon1: real, lat2: real, lon2: real)
    | VoxelData(color: Color, opacity: int, voxel: seq<VoxelDefinition>,
                voxelString: Option<string>, keys: Option<seq<string>>)

  datatype Item = Item(id: int, source: Option<Source>, isDeleted: bool, isVisible: bool, data: ItemData)

  function TypeOf(item: Item): ItemType {
    match item.data
    case PointData(_, _, _, _, _) => PointType
    case LineData(_, _, _, _, _, _, _) => LineType
    case VoxelData(_, _, _, _, _) => VoxelType
  }

  /** The identifier list a voxel text denotes, or `[]` when parsing fails
      (the store catches the exception and stores an empty list). */
  function ParseOrEmpty(text: string): seq<VoxelDefinition> {
    match Parse(text)
    case Success(vs) => vs
    case Failure(_) => []
  }

  /** The first id handed out. */
  const FirstId: int := 1000

  /** The data of a freshly added item of each type. */
  function DefaultData(ty: ItemType): ItemData {
    match ty
    case PointType => PointData([255, 0, 0, 204], 80, 10, 0.0, 0.0)
    case LineType => LineData([0, 255, 0, 204], 80, 10, 0.0, 0.0, 45.0, 45.0)
    case VoxelType => VoxelData([0, 0, 255, 76], 30, [], None, None)
  }

  datatype ItemStore = ItemStore(items: seq<Item>, nextId: int)

  const InitialItemStore: ItemStore := ItemStore([], FirstId)

  /** Every item's id is below the counter, and ids are distinct. */
  ghost predicate ValidItems(items: seq<Item>, nextId: int) {
    (forall i | 0 <= i < |items| :: items[i].id < nextId) &&
    (forall i, j | 0 <= i < j < |items| :: items[i].id != items[j].id)
  }

  ghost predicate Valid(s: ItemStore) {
    ValidItems(s.items, s.nextId)
  }

  /** `addObject(type)`: a new item with the counter as id and the type's
      defaults, appended at the end; the counter moves on by one. */
  function AddObject(s: ItemStore, ty: ItemType): ItemStore {
    ItemStore(s.items + [Item(s.nextId, Some(Manual), false, false, DefaultData(ty))], s.nextId + 1)
  }

  /** `deleteItem(id)`. */
  function DeleteItem(s: ItemStore, id: int): ItemStore {
    s.(items := Filter(s.items, (i: Item) => i.id != id))
  }

  /** The effect of `updateVoxel` on one item. */
  function SetVoxelText(item: Item, id: int, text: string): Item {
    if item.id == id && item.data.VoxelData? then
      item.(data := item.data.(voxelString := Some(text), voxel := ParseOrEmpty(text)))
    else item
  }

  /** `updateVoxel(id, text)`. */
  function UpdateVoxel(s: ItemStore, id: int, text: string): (r: ItemStore)
    ensures |r.items| == |s.items| && r.nextId == s.nextId
  {
    s.(items := seq(|s.items|, i requires 0 <= i < |s.items| => SetVoxelText(s.items[i], id, text)))
  }

  /** The effect of `updateColor` on one item, whatever its type. */
  function SetColor(item: Item, id: int, color: Color): Item {
    if item.id == id then item.(data := item.data.(color := color)) else item
  }

  /** `updateColor(id, color)`. */
  function UpdateColor(s: ItemStore, id: int, color: Color): (r: ItemStore)
    ensures |r.items| == |s.items| && r.nextId == s.nextId
  {
    s.(items := seq(|s.items|, i requires 0 <= i < |s.items| => SetColor(s.items[i], id, color)))
  }

  // ---------------------------------------------------------------------
  // Properties

  /** The initial store is valid and every operation keeps it valid: ids
      stay below the counter and never repeat. */
  lemma InitialValid()
    ensures Valid(InitialItemStore)
  {
  }

  lemma AddObjectValid(s: ItemStore, ty: ItemType)
    requires Valid(s)
    ensures Valid(AddObject(s, ty))
  {
  }

  lemma DeleteItemValid(s: ItemStore, id: int)
    requires Valid(s)
    ensures Valid(DeleteItem(s, id))
  {
    var p := (i: Item) => i.id != id;
    var r := Filter(s.items, p);
    FilterIsSubsequence(s.items, p);
    SubsequenceDistinctIds(r, s.items);
    forall i | 0 <= i < |r|
      ensures r[i].id < s.nextId
    {
      assert r[i] in r;
      FilterMember(s.items, p, r[i]);
    }
  }

  /** A subsequence of a list with distinct ids has distinct ids. */
  lemma {:induction false} SubsequenceDistinctIds(a: seq<Item>, b: seq<Item>)
    requires IsSubsequence(a, b)
    requires forall i, j | 0 <= i < j < |b| :: b[i].id != b[j].id
    ensures forall i, j | 0 <= i < j < |a| :: a[i].id != a[j].id
    decreases |b|
  {
    if a != [] {
      assert b != [];
      var b' := b[1..];
      assert forall i, j | 0 <= i < j < |b'| :: b'[i].id != b'[j].id by {
        forall i, j | 0 <= i < j < |b'|
          ensures b'[i].id != b'[j].id
        {
          assert b'[i] == b[i + 1] && b'[j] == b[j + 1];
        }
      }
      if a[0] == b[0] {
        SubsequenceTail(a, b);
        SubsequenceDistinctIds(a[1..], b');
        forall i, j | 0 <= i < j < |a|
          ensures a[i].id != a[j].id
        {
          if i == 0 {
            SubsequenceMember(a[1..], b', a[j]);
            var k :| 0 <= k < |b'| && b'[k] == a[j];
            assert b[k + 1] == a[j];
          } else {
            assert a[i] == a[1..][i - 1] && a[j] == a[1..][j - 1];
          }
        }
      } else {
        SubsequenceTail(a, b);
        SubsequenceDistinctIds(a, b');
      }
    }
  }

  /** Every element of a subsequence is an element of the whole. */
  lemma {:induction false} SubsequenceMember<T>(a: seq<T>, b: seq<T>, x: T)
    requires IsSubsequence(a, b) && x in a
    ensures exists k | 0 <= k < |b| :: b[k] == x
    decreases |b|
  {
    assert b != [];
    SubsequenceTail(a, b);
    if a[0] == b[0] && x == a[0] {
      assert b[0] == x;
    } else if a[0] == b[0] {
      assert x in a[1..];
      SubsequenceMember(a[1..], b[1..], x);
      var k :| 0 <= k < |b[1..]| && b[1..][k] == x;
      assert b[k + 1] == x;
    } else {
      SubsequenceMember(a, b[1..], x);
      var k :| 0 <= k < |b[1..]| && b[1..][k] == x;
      assert b[k + 1] == x;
    }
  }

  lemma UpdatesValid(s: ItemStore, id: int, text: string, color: Color)
    requires Valid(s)
    ensures Valid(UpdateVoxel(s, id, text))
    ensures Valid(UpdateColor(s, id, color))
  {
  }

  /** `addObject` hands out the counter as the new id, appends an item of the
      requested type with that type's defaults, and keeps every earlier item. */
  lemma AddObjectSpec(s: ItemStore, ty: ItemType)
    ensures var r := AddObject(s, ty);
            r.nextId == s.nextId + 1 && |r.items| == |s.items| + 1 &&
            r.items[..|s.items|] == s.items &&
            r.items[|s.items|].id == s.nextId && TypeOf(r.items[|s.items|]) == ty &&
            !r.items[|s.items|].isDeleted && !r.items[|s.items|].isVisible &&
            r.items[|s.items|].source == Some(Manual)
    ensures ty == PointType ==> AddObject(s, ty).items[|s.items|].data == PointData([255, 0, 0, 204], 80, 10, 0.0, 0.0)
    ensures ty == LineType ==> AddObject(s, ty).items[|s.items|].data == LineData([0, 255, 0, 204], 80, 10, 0.0, 0.0, 45.0, 45.0)
    ensures ty == VoxelType ==> AddObject(s, ty).items[|s.items|].data == VoxelData([0, 0, 255, 76], 30, [], None, None)
  {
  }

  /** Deleting the item just added restores the earlier item list. */
  lemma DeleteUndoesAdd(s: ItemStore, ty: ItemType)
    requires Valid(s)
    ensures DeleteItem(AddObject(s, ty), s.nextId).items == s.items
  {
    var p := (i: Item) => i.id != s.nextId;
    var added := [Item(s.nextId, Some(Manual), false, false, DefaultData(ty))];
    FilterAppend(s.items, added, p);
    FilterAll(s.items, p);
  }

  /** `deleteItem` removes exactly the items with that id and keeps the rest
      in order. */
  lemma DeleteItemSpec(s: ItemStore, id: int, x: Item)
    ensures IsSubsequence(DeleteItem(s, id).items, s.items)
    ensures x in DeleteItem(s, id).items <==> x in s.items && x.id != id
    ensures DeleteItem(s, id).nextId == s.nextId
  {
    FilterIsSubsequence(s.items, (i: Item) => i.id != id);
    FilterMember(s.items, (i: Item) => i.id != id, x);
  }

  /** `updateVoxel` touches only a voxel item with the matching id; that item
      keeps its id, source, flags, colour, opacity and keys, records the text,
      and holds the parse result, or `[]` when the text does not parse. */
  lemma UpdateVoxelSpec(s: ItemStore, id: int, text: string, i: int)
    requires 0 <= i < |s.items|
    ensures var before := s.items[i];
            var after := UpdateVoxel(s, id, text).items[i];
            if before.id == id && TypeOf(before) == VoxelType then
              after.id == id && TypeOf(after) == VoxelType &&
              after.data.color == before.data.color &&
              after.isDeleted == before.isDeleted && after.isVisible == before.isVisible &&
              after.data.voxelString == Some(text) &&
              after.(data := before.data) == before &&
              after.data.(voxelString := before.data.voxelString, voxel := before.data.voxel) == before.data &&
              (Parse(text).Success? ==> after.data.voxel == Parse(text).value) &&
              (Parse(text).Failure? ==> after.data.voxel == [])
            else after == before
  {
  }

  /** Repeating an update changes nothing further. */
  lemma UpdatesIdempotent(s: ItemStore, id: int, text: string, color: Color)
    ensures UpdateVoxel(UpdateVoxel(s, id, text), id, text) == UpdateVoxel(s, id, text)
    ensures UpdateColor(UpdateColor(s, id, color), id, color) == UpdateColor(s, id, color)
  {
  }

  /** `updateColor` sets the colour of the item with the matching id, of any
      type, and changes nothing else. */
  lemma UpdateColorSpec(s: ItemStore, id: int, color: Color, i: int)
    requires 0 <= i < |s.items|
    ensures var before := s.items[i];
            var after := UpdateColor(s, id, color).items[i];
            if before.id == id then
              after.data.color == color && TypeOf(after) == TypeOf(before) &&
              after.(data := before.data) == before &&
              after.data.(color := before.data.color) == before.data &&
              (after.data.VoxelData? ==> after.data.voxel == before.data.voxel)
            else after == before
  {
  }
}

=== FILE: json_import.dfy ===
/** The importer for Kasane JSON documents: every structured id of every data
    entry is read as a definition, one definition is kept per spatial key
    (the first occurrence wins), and every id adds one `name: value` line to
    the tooltip of its key. */
module JsonImport {
  import opened Wrappers
  import opened Text
  import opened Seqs
  import opened Voxels
  import opened IdSyntax
  import ParseId

  /** A JSON axis or tick array: `[a]` or `[a, b]`. */
  datatype Span = One(a: int) | Two(a: int, b: int)

  /** An element of a data entry's `value` list. A number, integral or not,
      carries its `String(v)` text (the double's shortest decimal form, such
      as `21.5` or `1e+21`); a compound value (an object or an array) carries
      its `String(v)` and `JSON.stringify(v)` texts. */
  datatype JsonValue =
    | JStr(s: string)
    | JNum(asString: string)
    | JBool(b: bool)
    | JNull
    | JCompound(asString: string, asJson: string)

  /** A structured id: zoom level, optional F/X/Y arrays, optional interval
      `i` and tick array `t`, and the index of its value. */
  datatype KasaneId = KasaneId(z: nat, f: Option<Span>, x: Option<Span>, y: Option<Span>,
                               i: Option<int>, t: Option<Span>, ref: int)

  datatype DataEntry = DataEntry(name: string, values: seq<JsonValue>, ids: seq<KasaneId>)

  /** `value[ref]`: `undefined` (here `None`) outside the list. */
  function ValueAt(values: seq<JsonValue>, ref: int): Option<JsonValue> {
    if 0 <= ref < |values| then Some(values[ref]) else None
  }

  /** `String(v)`. */
  function StringOf(v: Option<JsonValue>): string {
    match v
    case None => "undefined"
    case Some(JStr(s)) => s
    case Some(JNum(s)) => s
    case Some(JBool(b)) => if b then "true" else "false"
    case Some(JNull) => "null"
    case Some(JCompound(s, _)) => s
  }

  /** `formatValue`: the JSON text of an object or array, `String(v)` for
      everything else (`null` included). */
  function FormatValue(v: Option<JsonValue>): string {
    if v.Some? && v.value.JCompound? then v.value.asJson else StringOf(v)
  }

  /** One axis of a spatial key: `-` when absent, `a` or `a:b`. */
  function SpanText(s: Option<Span>): string {
    match s
    case None => "-"
    case Some(One(a)) => IntToString(a)
    case Some(Two(a, b)) => IntToString(a) + ":" + IntToString(b)
  }

  /** `spatialKey`: `z/f/x/y`. */
  function SpatialKey(id: KasaneId): string {
    IntToString(id.z) + "/" + SpanText(id.f) + "/" + SpanText(id.x) + "/" + SpanText(id.y)
  }

  /** `parseDim`: an absent F is the unbounded sentinel, an absent X or Y the
      whole axis; a one-element array is a scalar and a pair is kept as
      stored, without sorting. */
  function JsonDim(dim: Option<Span>, z: nat, isDimF: bool): Dim {
    match dim
    case None => if isDimF then UnboundedF(z) else FullAxis(z)
    case Some(One(a)) => Scalar(a)
    case Some(Two(a, b)) => Pair(a, b)
  }

  /** `parseTime`: no window unless both `i` and `t` are present; tick `t`
      covers `[i * t, i * (t + 1))` and a pair `[t1, t2]` covers
      `[i * t1, i * (t2 + 1))`. */
  function JsonTime(id: KasaneId): ParseId.Window {
    if id.i.None? || id.t.None? then ParseId.Window(None, None)
    else
      var interval := id.i.value;
      match id.t.value
      case One(t) => ParseId.Window(Some(interval * t), Some(Fin(interval * (t + 1))))
      case Two(t1, t2) => ParseId.Window(Some(interval * t1), Some(Fin(interval * (t2 + 1))))
  }

  /** The definition an id is read as. */
  function Definition(id: KasaneId): VoxelDefinition {
    var w := JsonTime(id);
    VoxelDefinition(id.z, JsonDim(id.f, id.z, true), JsonDim(id.x, id.z, false), JsonDim(id.y, id.z, false),
                    w.start, w.end)
  }

  /** One visit of the importer's inner loop: the entry's name, the value the
      id refers to, and the id. */
  datatype Hit = Hit(name: string, value: Option<JsonValue>, id: KasaneId)

  function EntryHits(e: DataEntry): (hs: seq<Hit>)
    ensures |hs| == |e.ids|
  {
    seq(|e.ids|, k requires 0 <= k < |e.ids| => Hit(e.name, ValueAt(e.values, e.ids[k].ref), e.ids[k]))
  }

  /** The visits in data order, and within an entry in id order. */
  function Hits(data: seq<DataEntry>): seq<Hit> {
    Flatten(seq(|data|, j requires 0 <= j < |data| => EntryHits(data[j])))
  }

  function HitKey(h: Hit): string {
    SpatialKey(h.id)
  }

  /** The tooltip line of a visit: `name: value`. */
  function LineOf(h: Hit): string {
    h.name + ": " + FormatValue(h.value)
  }

  /** The tooltip update of one visit with spatial key `key` and line
      `line`: a key seen before gets the line appended after a newline, a new
      key (or one whose text is empty, which JavaScript treats as false)
      starts with `key | line`. */
  function AddLine(m: map<string, string>, key: string, line: string): map<string, string> {
    var existing := if key in m then m[key] else "";
    m[key := if existing != "" then existing + "\n" + line else key + " | " + line]
  }

  /** The tooltip map after a run of visits. */
  function Tooltips<H>(hs: seq<H>, key: H -> string, line: H -> string): map<string, string>
    decreases |hs|
  {
    if hs == [] then map[]
    else AddLine(Tooltips(hs[..|hs| - 1], key, line), key(hs[|hs| - 1]), line(hs[|hs| - 1]))
  }

  datatype JsonVoxelResult = JsonVoxelResult(voxelDefs: seq<VoxelDefinition>, tooltipMap: map<string, string>)

  /** The definitions kept: the first visit of each spatial key. */
  function Kept(data: seq<DataEntry>): seq<Hit> {
    DedupBy(Hits(data), HitKey)
  }

  /** `jsonToVoxelDefinition`. */
  function JsonToVoxelDefinition(data: seq<DataEntry>): (r: JsonVoxelResult)
    ensures |r.voxelDefs| == |Kept(data)|
  {
    var kept := Kept(data);
    JsonVoxelResult(seq(|kept|, k requires 0 <= k < |kept| => Definition(kept[k].id)), Tooltips(Hits(data), HitKey, LineOf))
  }

  // ---------------------------------------------------------------------
  // Agreement with the identifier text

  /** The textual shape of a JSON array: absent is `-`. */
  function SpanShape(s: Option<Span>): Shape {
    match s
    case None => Full
    case Some(One(a)) => Single(a)
    case Some(Two(a, b)) => Between(a, b)
  }

  /** The identifier token with the same meaning as a structured id. */
  function IdSpecOf(id: KasaneId): IdSpec {
    IdSpec(id.z, SpanShape(id.f), SpanShape(id.x), SpanShape(id.y),
           if id.i.Some? && id.t.Some? then Some((id.i.value, SpanShape(id.t))) else None)
  }

  /** A stored pair whose first component exceeds its second. */
  predicate Descending(s: Option<Span>) {
    s.Some? && s.value.Two? && s.value.a > s.value.b
  }

  /** An axis array reads as the value its text denotes, except a descending
      pair on F or Y, which the text parser sorts and the importer keeps. */
  lemma JsonDimAgrees(dim: Option<Span>, z: nat, axis: Axis)
    ensures JsonDim(dim, z, axis == FAxis) == DimOf(z, axis, SpanShape(dim)) <==>
              axis == XAxis || !Descending(dim)
  {
  }

  lemma JsonTimeAgrees(id: KasaneId)
    ensures JsonTime(id) == WindowOfId(IdSpecOf(id))
  {
  }

  lemma SpanShapeText(s: Option<Span>)
    ensures ShapeText(SpanShape(s)) == SpanText(s)
  {
  }

  lemma JoinFour(a: string, b: string, c: string, d: string, sep: char)
    ensures Join([a, b, c, d], sep) == a + [sep] + b + [sep] + c + [sep] + d
  {
    var parts := [a, b, c, d];
    assert parts[1..] == [b, c, d] && parts[1..][1..] == [c, d] && parts[1..][1..][1..] == [d];
    assert Join([d], sep) == d;
    assert Join([c, d], sep) == c + [sep] + d;
    assert Join([b, c, d], sep) == b + [sep] + (c + [sep] + d);
    assert Join(parts, sep) == a + [sep] + (b + [sep] + (c + [sep] + d));
  }

  /** The spatial key is the spatial part of the equivalent identifier text. */
  lemma SpatialKeyText(id: KasaneId)
    ensures SpatialKey(id) == SpatialText(IdSpecOf(id))
  {
    var (z, f, x, y) := (IntToString(id.z), SpanText(id.f), SpanText(id.x), SpanText(id.y));
    SpanShapeText(id.f);
    SpanShapeText(id.x);
    SpanShapeText(id.y);
    JoinFour(z, f, x, y, '/');
    assert SpatialText(IdSpecOf(id)) == Join([z, f, x, y], '/');
  }

  /** The four `/`-pieces of a spatial key. */
  lemma SpatialKeyParts(id: KasaneId)
    ensures Split(SpatialKey(id), '/') == [IntToString(id.z), SpanText(id.f), SpanText(id.x), SpanText(id.y)]
  {
    SpatialKeyText(id);
    SpatialTextFacts(IdSpecOf(id));
    SpanShapeText(id.f);
    SpanShapeText(id.x);
    SpanShapeText(id.y);
  }

  /** The importer and the identifier parser agree: an id whose F and Y pairs
      are ascending is read as the definition that its identifier text parses
      to, and its spatial key parses to the same place without a window. */
  lemma DefinitionDenotes(id: KasaneId)
    requires !Descending(id.f) && !Descending(id.y)
    ensures Definition(id) == Denote(IdSpecOf(id))
    ensures ParseId.ParseToken(IdText(IdSpecOf(id))) == Success(Definition(id))
    ensures ParseId.ParseToken(SpatialKey(id)) == Success(Definition(id).(startTime := None, endTime := None))
  {
    JsonDimAgrees(id.f, id.z, FAxis);
    JsonDimAgrees(id.x, id.z, XAxis);
    JsonDimAgrees(id.y, id.z, YAxis);
    JsonTimeAgrees(id);
    ParseTokenSpec(IdSpecOf(id));
    var bare := IdSpecOf(id).(time := None);
    ParseTokenSpec(bare);
    SpatialKeyText(id);
    assert IdText(bare) == SpatialText(IdSpecOf(id));
  }

  lemma IntToStringNotDash(i: int)
    ensures IntToString(i) != "-"
  {
  }

  /** A pair's text has a colon and the other texts do not; only an absent
      array is written `-`. */
  lemma SpanTextFacts(s: Option<Span>)
    ensures ':' in SpanText(s) <==> s.Some? && s.value.Two?
    ensures SpanText(s) == "-" <==> s.None?
  {
    match s
    case None =>
    case Some(One(a)) =>
      IntToStringChars(a);
      IntToStringNotDash(a);
    case Some(Two(a, b)) =>
      assert SpanText(s)[|IntToString(a)|] == ':';
  }

  /** Two JSON arrays have the same text only when they are the same. */
  lemma SpanTextInjective(a: Option<Span>, b: Option<Span>)
    requires SpanText(a) == SpanText(b)
    ensures a == b
  {
    SpanTextFacts(a);
    SpanTextFacts(b);
    if a.Some? && a.value.Two? {
      var (p, q) := (IntToString(a.value.a), IntToString(a.value.b));
      var (r, t) := (IntToString(b.value.a), IntToString(b.value.b));
      IntToStringChars(a.value.a);
      IntToStringChars(a.value.b);
      IntToStringChars(b.value.a);
      IntToStringChars(b.value.b);
      assert SpanText(a) == Join([p, q], ':');
      assert SpanText(b) == Join([r, t], ':');
      SplitJoin([p, q], ':');
      SplitJoin([r, t], ':');
      IntToStringInjective(a.value.a, b.value.a);
      IntToStringInjective(a.value.b, b.value.b);
    } else if a.Some? {
      IntToStringInjective(a.value.a, b.value.a);
    }
  }

  /** Two ids share a spatial key exactly when they have the same zoom level
      and the same three axis arrays; time and value are not part of it. */
  lemma SpatialKeyInjective(a: KasaneId, b: KasaneId)
    ensures SpatialKey(a) == SpatialKey(b) <==> a.z == b.z && a.f == b.f && a.x == b.x && a.y == b.y
  {
    if SpatialKey(a) == SpatialKey(b) {
      SpatialKeyParts(a);
      SpatialKeyParts(b);
      var pa := [IntToString(a.z), SpanText(a.f), SpanText(a.x), SpanText(a.y)];
      var pb := [IntToString(b.z), SpanText(b.f), SpanText(b.x), SpanText(b.y)];
      assert pa == pb;
      assert pa[0] == pb[0] && pa[1] == pb[1] && pa[2] == pb[2] && pa[3] == pb[3];
      IntToStringInjective(a.z, b.z);
      SpanTextInjective(a.f, b.f);
      SpanTextInjective(a.x, b.x);
      SpanTextInjective(a.y, b.y);
    }
  }

  // ---------------------------------------------------------------------
  // Deduplication and tooltips

  /** One definition per distinct spatial key: the kept visits are in input
      order, carry distinct keys, cover every key, and each is the first visit
      with its key; the result lists their definitions. */
  lemma ImportSpec(data: seq<DataEntry>)
    ensures var hs := Hits(data);
            var kept := Kept(data);
            IsSubsequence(kept, hs) &&
            DistinctKeys(kept, HitKey) &&
            Keys(kept, HitKey) == Keys(hs, HitKey) &&
            (forall h | h in kept :: exists i | 0 <= i < |hs| :: hs[i] == h && FirstWithKey(hs, HitKey, i))
    ensures var kept := Kept(data);
            forall k | 0 <= k < |kept| :: JsonToVoxelDefinition(data).voxelDefs[k] == Definition(kept[k].id)
  {
    DedupBySpec(Hits(data), HitKey);
  }

  /** The tooltip map has a key for every spatial key visited, which is
      exactly the set of keys of the kept definitions, so there are as many
      definitions as tooltips. */
  lemma ImportTooltipKeys(data: seq<DataEntry>)
    ensures JsonToVoxelDefinition(data).tooltipMap.Keys == Keys(Kept(data), HitKey)
    ensures |JsonToVoxelDefinition(data).voxelDefs| == |JsonToVoxelDefinition(data).tooltipMap.Keys|
  {
    var hs := Hits(data);
    var kept := Kept(data);
    DedupFromKeys(hs, HitKey, {});
    DedupFromDistinct(hs, HitKey, {});
    DistinctKeysCount(kept, HitKey);
    TooltipKeys(hs, HitKey, LineOf);
  }

  /** Every first visit of a key contributes its definition. */
  lemma FirstVisitKept(data: seq<DataEntry>, i: int)
    requires 0 <= i < |Hits(data)| && FirstWithKey(Hits(data), HitKey, i)
    ensures Hits(data)[i] in Kept(data)
    ensures Definition(Hits(data)[i].id) in JsonToVoxelDefinition(data).voxelDefs
  {
    var hs := Hits(data);
    var kept := Kept(data);
    DedupBySpec(hs, HitKey);
    assert HitKey(hs[i]) in Keys(hs, HitKey);
    var k :| 0 <= k < |kept| && HitKey(kept[k]) == HitKey(hs[i]);
    assert kept[k] in kept;
    var i' :| 0 <= i' < |hs| && hs[i'] == kept[k] && FirstWithKey(hs, HitKey, i');
    assert HitKey(hs[i']) == HitKey(hs[i]);
    assert i == i';
    assert JsonToVoxelDefinition(data).voxelDefs[k] == Definition(hs[i].id);
  }

  lemma {:induction false} TooltipKeys<H>(hs: seq<H>, key: H -> string, line: H -> string)
    ensures Tooltips(hs, key, line).Keys == Keys(hs, key)
    decreases |hs|
  {
    if hs != [] {
      var init := hs[..|hs| - 1];
      var h := hs[|hs| - 1];
      TooltipKeys(init, key, line);
      KeysAppend(init, [h], key);
      assert Keys([h], key) == {key(h)} by {
        assert [h][0] == h;
      }
      assert hs == init + [h];
    }
  }

  /** The tooltip lines of key `k`, in visit order. */
  function Lines<H>(hs: seq<H>, k: string, key: H -> string, line: H -> string): seq<string>
    decreases |hs|
  {
    if hs == [] then []
    else Lines(hs[..|hs| - 1], k, key, line) + (if key(hs[|hs| - 1]) == k then [line(hs[|hs| - 1])] else [])
  }

  /** The tooltip of a key is `key | ` followed by the lines of all its
      visits, in order, one per line; a key has a tooltip exactly when it was
      visited. */
  lemma {:induction false} TooltipText<H>(hs: seq<H>, k: string, key: H -> string, line: H -> string)
    ensures k in Tooltips(hs, key, line) <==> Lines(hs, k, key, line) != []
    ensures k in Tooltips(hs, key, line) ==>
              Tooltips(hs, key, line)[k] == k + " | " + Join(Lines(hs, k, key, line), '\n')
    decreases |hs|
  {
    if hs != [] {
      var init := hs[..|hs| - 1];
      var h := hs[|hs| - 1];
      TooltipText(init, k, key, line);
      assert Tooltips(hs, key, line) == AddLine(Tooltips(init, key, line), key(h), line(h));
      assert Lines(hs, k, key, line) == Lines(init, k, key, line) + (if key(h) == k then [line(h)] else []);
      TooltipStep(Tooltips(init, key, line), Lines(init, k, key, line), k, key(h), line(h));
    }
  }

  /** One visit keeps the tooltip of `k` equal to the joined lines of `k`. */
  lemma TooltipStep(before: map<string, string>, lines: seq<string>, k: string, hk: string, hl: string)
    requires k in before <==> lines != []
    requires k in before ==> before[k] == k + " | " + Join(lines, '\n')
    ensures var after := AddLine(before, hk, hl);
            var more := lines + (if hk == k then [hl] else []);
            (k in after <==> more != []) && (k in after ==> after[k] == k + " | " + Join(more, '\n'))
  {
    var after := AddLine(before, hk, hl);
    if hk == k && k in before {
      JoinSnoc(lines, hl, '\n');
      assert before[k] != "";
      assert after[k] == before[k] + "\n" + hl;
      assert (k + " | " + Join(lines, '\n')) + "\n" + hl == k + " | " + (Join(lines, '\n') + ['\n'] + hl);
    } else if hk == k {
      var more := lines + [hl];
      assert lines == [] && more == [hl];
      assert after[k] == k + " | " + hl;
      assert Join(more, '\n') == hl;
    } else {
      assert lines + [] == lines;
      assert k in after <==> k in before;
      assert k in after ==> after[k] == before[k];
    }
  }

  /** Keys are textual: an id without X and one with the explicit full pair
      reach the same definition under two keys, so both are kept. */
  lemma SameDefinitionTwoKeys()
    ensures var a := KasaneId(1, None, None, Some(One(0)), None, None, 0);
            var b := KasaneId(1, None, Some(Two(0, 1)), Some(One(0)), None, None, 0);
            Definition(a) == Definition(b) && SpatialKey(a) != SpatialKey(b) &&
            |JsonToVoxelDefinition([DataEntry("n", [], [a, b])]).voxelDefs| == 2
  {
    var a := KasaneId(1, None, None, Some(One(0)), None, None, 0);
    var b := KasaneId(1, None, Some(Two(0, 1)), Some(One(0)), None, None, 0);
    SpatialKeyInjective(a, b);
    var data := [DataEntry("n", [], [a, b])];
    var hs := Hits(data);
    assert hs == [Hit("n", None, a), Hit("n", None, b)] by {
      assert EntryHits(data[0]) == [Hit("n", None, a), Hit("n", None, b)];
      assert Flatten(seq(|data|, j requires 0 <= j < |data| => EntryHits(data[j]))) == EntryHits(data[0]) + Flatten([]);
    }
    var (ka, kb) := (HitKey(hs[0]), HitKey(hs[1]));
    assert ka != kb;
    var seen: set<string> := {} + {ka};
    assert hs[1..] == [hs[1]] && kb !in seen;
    assert DedupFrom(hs[1..], HitKey, seen) == [hs[1]] + DedupFrom([], HitKey, seen + {kb});
    assert Kept(data) == [hs[0]] + DedupFrom(hs[1..], HitKey, seen);
  }
}

=== FILE: legacy_expand.dfy ===
/** The older expander: every definition becomes the Cartesian product of
    its three sorted ranges, with no wrap-around on X and no deduplication. */
module LegacyExpand {
  import opened Seqs
  import opened Voxels
  import opened Expand

  /** The cells of one definition, x outermost, then y, then f. */
  function LegacyOne(v: VoxelDefinition): seq<Cell> {
    Cells(v.Z, EnumerateRange(v.X), EnumerateRange(v.Y), EnumerateRange(v.F))
  }

  /** `hyperVoxelToPureVoxel(Voxels)` of the older expander. */
  function HyperVoxelToPureVoxel(vs: seq<VoxelDefinition>): seq<Cell> {
    if vs == [] then [] else LegacyOne(vs[0]) + HyperVoxelToPureVoxel(vs[1..])
  }

  function LegacyCount(v: VoxelDefinition): nat {
    |EnumerateRange(v.X)| * (|EnumerateRange(v.Y)| * |EnumerateRange(v.F)|)
  }

  function LegacyTotal(vs: seq<VoxelDefinition>): nat {
    if vs == [] then 0 else LegacyCount(vs[0]) + LegacyTotal(vs[1..])
  }

  /** The output length is the sum over definitions of `|xs| * |ys| * |fs|`. */
  lemma {:induction false} LegacyLength(vs: seq<VoxelDefinition>)
    ensures |HyperVoxelToPureVoxel(vs)| == LegacyTotal(vs)
    decreases |vs|
  {
    if vs != [] {
      var v := vs[0];
      CellsLength(v.Z, EnumerateRange(v.X), EnumerateRange(v.Y), EnumerateRange(v.F));
      LegacyLength(vs[1..]);
    }
  }

  lemma {:induction false} LegacyAppend(a: seq<VoxelDefinition>, b: seq<VoxelDefinition>)
    ensures HyperVoxelToPureVoxel(a + b) == HyperVoxelToPureVoxel(a) + HyperVoxelToPureVoxel(b)
    decreases |a|
  {
    if a == [] {
      assert a + b == b;
    } else {
      assert (a + b)[1..] == a[1..] + b;
      LegacyAppend(a[1..], b);
    }
  }

  /** Nothing is deduplicated: a repeated input repeats its cells. */
  lemma LegacyNoDedup(vs: seq<VoxelDefinition>)
    ensures HyperVoxelToPureVoxel(vs + vs) == HyperVoxelToPureVoxel(vs) + HyperVoxelToPureVoxel(vs)
  {
    LegacyAppend(vs, vs);
  }

  /** A cell is produced for a definition exactly when it has the
      definition's zoom level and each coordinate lies between the two
      stored bounds, taken in either order. */
  lemma LegacyMember(v: VoxelDefinition, c: Cell)
    ensures c in LegacyOne(v) <==>
              c.Z == v.Z && InSorted(v.X, c.X) && InSorted(v.Y, c.Y) && InSorted(v.F, c.F)
  {
    CellsMember(v.Z, EnumerateRange(v.X), EnumerateRange(v.Y), EnumerateRange(v.F), c);
    EnumerateMember(v.X, c.X);
    EnumerateMember(v.Y, c.Y);
    EnumerateMember(v.F, c.F);
  }

  /** `n` lies in the sorted range of `d`. */
  predicate InSorted(d: Dim, n: int) {
    match d
    case Scalar(v) => n == v
    case Pair(a, b) => Min(a, b) <= n <= Max(a, b)
  }

  lemma EnumerateMember(d: Dim, n: int)
    ensures n in EnumerateRange(d) <==> InSorted(d, n)
  {
    match d
    case Scalar(v) =>
    case Pair(a, b) => IntsMember(Min(a, b), Max(a, b) + 1, n);
  }

  /** A pair `a > b` on X is read as `b .. a`, not as a wrap-around. */
  lemma LegacyReversedX(v: VoxelDefinition)
    requires Wraps(v.X)
    ensures LegacyOne(v) == Cells(v.Z, Ints(v.X.b, v.X.a + 1), EnumerateRange(v.Y), EnumerateRange(v.F))
  {
  }

  /** Where X does not wrap, the older expander lists exactly the cells of
      the exhaustive mode, in the same order. */
  lemma LegacyAgreesWithExpand(v: VoxelDefinition)
    requires !Wraps(v.X)
    ensures LegacyOne(v) == CoveredCells(ExpandOne(v))
  {
    var xs := EnumerateXRange(v.X, v.Z);
    assert EnumerateRange(v.X) == xs;
    CoveredUnitTiles(Cells(v.Z, xs, EnumerateRange(v.Y), EnumerateRange(v.F)), v.startTime, v.endTime);
  }
}

=== FILE: legacy_layers.dfy ===
/** The older layer builder: the same item selection and time filter, no
    cache, no level of detail, and the item's stored colour used as is. */
module LegacyLayer {
  import opened Seqs
  import opened Expand
  import opened Projector
  import opened Items
  import opened Layer

  /** The polygons of one voxel item, time-filtered. */
  function ItemPolygons(item: Item, compileMode: bool, t: real, lat: real -> real): seq<Polygon> {
    TimeFilter(PvoxelToPolygon(HyperVoxelToPureVoxel(VoxelsOf(item), compileMode), item.data.color, lat), t)
  }

  /** `generatePolygonLayer` of the older builder. */
  function LegacyPolygons(items: seq<Item>, compileMode: bool, t: real, lat: real -> real): seq<Polygon>
    decreases |items|
  {
    if items == [] then []
    else ItemPolygons(items[0], compileMode, t, lat) + LegacyPolygons(items[1..], compileMode, t, lat)
  }

  /** The number of polygons generated before the time filter. */
  function Generated(items: seq<Item>, compileMode: bool): nat
    decreases |items|
  {
    if items == [] then 0
    else |HyperVoxelToPureVoxel(VoxelsOf(items[0]), compileMode)| + Generated(items[1..], compileMode)
  }

  /** Every polygon drawn is shown at `t` by the time filter, and there are
      never more than were generated. */
  lemma {:induction false} LegacyPolygonsSpec(items: seq<Item>, compileMode: bool, t: real, lat: real -> real)
    ensures |LegacyPolygons(items, compileMode, t, lat)| <= Generated(items, compileMode)
    ensures forall i | 0 <= i < |LegacyPolygons(items, compileMode, t, lat)| ::
              ShowAt(LegacyPolygons(items, compileMode, t, lat)[i], t)
    decreases |items|
  {
    if items != [] {
      LegacyPolygonsSpec(items[1..], compileMode, t, lat);
      ItemPolygonsSpec(items[0], compileMode, t, lat);
      var head := ItemPolygons(items[0], compileMode, t, lat);
      var rest := LegacyPolygons(items[1..], compileMode, t, lat);
      assert LegacyPolygons(items, compileMode, t, lat) == head + rest;
      ShowAtAppend(head, rest, t);
    }
  }

  lemma ItemPolygonsSpec(item: Item, compileMode: bool, t: real, lat: real -> real)
    ensures |ItemPolygons(item, compileMode, t, lat)| <= |HyperVoxelToPureVoxel(VoxelsOf(item), compileMode)|
    ensures forall i | 0 <= i < |ItemPolygons(item, compileMode, t, lat)| :: ShowAt(ItemPolygons(item, compileMode, t, lat)[i], t)
  {
    var tiles := HyperVoxelToPureVoxel(VoxelsOf(item), compileMode);
    var ps := PvoxelToPolygon(tiles, item.data.color, lat);
    assert |ps| == |tiles|;
  }

  lemma ShowAtAppend(a: seq<Polygon>, b: seq<Polygon>, t: real)
    requires forall i | 0 <= i < |a| :: ShowAt(a[i], t)
    requires forall i | 0 <= i < |b| :: ShowAt(b[i], t)
    ensures forall i | 0 <= i < |a + b| :: ShowAt((a + b)[i], t)
  {
    forall i | 0 <= i < |a + b|
      ensures ShowAt((a + b)[i], t)
    {
      if i >= |a| {
        assert (a + b)[i] == b[i - |a|];
      }
    }
  }

  /** At full detail, with a colour conversion that returns the stored
      colour, and with no cache hits, the newer builder draws exactly what
      the older one draws. */
  lemma {:induction false} LegacyAgrees(items: seq<Item>, compileMode: bool, t: real,
                                        toRgba: (Color, int) -> Color, lat: real -> real)
    requires forall i | 0 <= i < |items| :: toRgba(items[i].data.color, items[i].data.opacity) == items[i].data.color
    ensures FreshPolygons(items, compileMode, t, 3, toRgba, lat) == LegacyPolygons(items, compileMode, t, lat)
    decreases |items|
  {
    if items != [] {
      assert Lod(VoxelsOf(items[0]), 3) == VoxelsOf(items[0]);
      assert forall i | 0 <= i < |items[1..]| ::
               toRgba(items[1..][i].data.color, items[1..][i].data.opacity) == items[1..][i].data.color by {
        forall i | 0 <= i < |items[1..]|
          ensures toRgba(items[1..][i].data.color, items[1..][i].data.opacity) == items[1..][i].data.color
        {
          assert items[1..][i] == items[i + 1];
        }
      }
      LegacyAgrees(items[1..], compileMode, t, toRgba, lat);
    }
  }

  /** Not deleted and not hidden, whatever the type. */
  predicate Live(item: Item) {
    !item.isDeleted && !item.isVisible
  }

  /** The three selections of the layer builder split the live items by
      type: together they have exactly as many items as there are live
      items, and no item is selected twice. */
  lemma {:induction false} SelectionPartition(items: seq<Item>)
    ensures |SelectItems(items, PointType)| + |SelectItems(items, LineType)| + |SelectItems(items, VoxelType)|
              == |Filter(items, Live)|
    decreases |items|
  {
    if items != [] {
      SelectionPartition(items[1..]);
    }
  }

  lemma SelectionDisjoint(items: seq<Item>, x: Item, a: ItemType, b: ItemType)
    requires a != b
    ensures !(x in SelectItems(items, a) && x in SelectItems(items, b))
  {
    SelectItemsSpec(items, a, x);
    SelectItemsSpec(items, b, x);
  }
}

=== FILE: parse_id.dfy ===
/** The spatiotemporal identifier parser: comma-separated tokens of the form
    `Z/F/X/Y` or `Z/F/X/Y_interval/T` become `VoxelDefinition`s.

    Where the original silently produces NaN (a numeric field that is not a
    decimal integer) or a fractional `2 ** Z` (a negative zoom level), this
    model reports a failure instead; where the original throws a TypeError
    (too few `/` segments, a time part with no `/`), the model reports
    `MissingSegment`. Callers turn every failure into an empty list. */
module ParseId {
  import opened Wrappers
  import opened Text
  import opened Seqs
  import opened Voxels

  datatype ParseError = MissingSegment | NotAnInteger(text: string) | NegativeZoom(z: int)

  /** `Number(s)`, failing where the original would yield NaN. */
  function Number(s: string): Result<int, ParseError> {
    match JsNumber(s)
    case Some(n) => Success(n)
    case None => Failure(NotAnInteger(s))
  }

  /** Removes the first `[`, then the first `]` of what is left, then every
      `'`, keeping the order of the remaining characters. */
  function StripDecoration(s: string): (r: string)
    ensures exists s1, s2 :: FirstRemoved(s, '[', s1) && FirstRemoved(s1, ']', s2) && r == Filter(s2, Other('\''))
    ensures '\'' !in r
    ensures multiset(r)['['] == multiset(s)['['] - (if '[' in s then 1 else 0)
    ensures multiset(r)[']'] == multiset(s)[']'] - (if ']' in s then 1 else 0)
    ensures forall c | c != '[' && c != ']' && c != '\'' :: multiset(r)[c] == multiset(s)[c]
  {
    var s1 := RemoveFirst(s, '[');
    var s2 := RemoveFirst(s1, ']');
    assert FirstRemoved(s, '[', s1) && FirstRemoved(s1, ']', s2) && RemoveAll(s2, '\'') == Filter(s2, Other('\''));
    DecorationCounts(s, s1, s2, RemoveAll(s2, '\''));
    RemoveAll(s2, '\'')
  }

  lemma DecorationCounts(s: string, s1: string, s2: string, r: string)
    requires s1 == RemoveFirst(s, '[') && s2 == RemoveFirst(s1, ']') && r == RemoveAll(s2, '\'')
    ensures multiset(r)['['] == multiset(s)['['] - (if '[' in s then 1 else 0)
    ensures multiset(r)[']'] == multiset(s)[']'] - (if ']' in s then 1 else 0)
    ensures forall c | c != '[' && c != ']' && c != '\'' :: multiset(r)[c] == multiset(s)[c]
  {
    RemoveFirstKeeps(s, '[', ']');
  }

  predicate IsBlank(t: string) {
    Trim(t) == []
  }

  /** The non-blank comma-separated tokens, in input order. */
  function Tokens(s: string): seq<string> {
    Filter(Split(StripDecoration(s), ','), (t: string) => !IsBlank(t))
  }

  /** One axis sub-token. `z` is the token's zoom level. */
  function ParseDim(z: nat, axis: Axis, item: string): Result<Dim, ParseError> {
    if item == "-" then
      Success(if axis == FAxis then UnboundedF(z) else FullAxis(z))
    else if EndsWith(item, ":-") then
      DimFrom(z, Split(item, ':')[0])
    else if StartsWith(item, "-:") then
      assert item[1] == ':';
      DimUpTo(z, axis, Split(item, ':')[1])
    else if IndexOf(item, ':') != -1 then
      DimPair(axis, Split(item, ':'))
    else
      DimSingle(item)
  }

  /** The `a:-` form of an axis value: from `a` to the last index `2^z - 1`. */
  function DimFrom(z: nat, startText: string): Result<Dim, ParseError> {
    var start :- Number(startText);
    Success(Pair(start, Pow2(z) - 1))
  }

  /** The `-:b` form of an axis value: up to `b`, from `-2^z` on F and from
      0 on X and Y. */
  function DimUpTo(z: nat, axis: Axis, endText: string): Result<Dim, ParseError> {
    var end :- Number(endText);
    Success(if axis == FAxis then Pair(-(Pow2(z) as int), end) else Pair(0, end))
  }

  /** The `a:b` form of an axis value: sorted, except on X where `a > b`
      is kept as a range through the antimeridian. */
  function DimPair(axis: Axis, parts: seq<string>): Result<Dim, ParseError>
    requires |parts| >= 2
  {
    var start :- Number(parts[0]);
    var end :- Number(parts[1]);
    Success(if axis != XAxis then Pair(Min(start, end), Max(start, end)) else Pair(start, end))
  }

  /** A bare integer: a single index. */
  function DimSingle(item: string): Result<Dim, ParseError> {
    var n :- Number(item);
    Success(Scalar(n))
  }

  /** A time window: a start and an end bound, both absent for "no window". */
  datatype Window = Window(start: Option<int>, end: Option<EndTime>)

  /** The window of one tick sub-token `tPart` other than `-`, with tick
      length `interval`. */
  function TickWindow(interval: int, tPart: string): Result<Window, ParseError> {
    if EndsWith(tPart, ":-") then
      TickFrom(interval, Split(tPart, ':')[0])
    else if StartsWith(tPart, "-:") then
      assert tPart[1] == ':';
      TickUpTo(interval, Split(tPart, ':')[1])
    else if IndexOf(tPart, ':') != -1 then
      TickPair(interval, Split(tPart, ':'))
    else
      TickSingle(interval, tPart)
  }

  /** `a:-`: from tick `a` on, with no end. */
  function TickFrom(interval: int, startText: string): Result<Window, ParseError> {
    var t :- Number(startText);
    Success(Window(Some(interval * t), Some(PosInf)))
  }

  /** `-:b`: from time 0 to the end of tick `b`. */
  function TickUpTo(interval: int, endText: string): Result<Window, ParseError> {
    var t :- Number(endText);
    Success(Window(Some(0), Some(Fin(interval * (t + 1)))))
  }

  /** A single tick `t`: the window `[interval * t, interval * (t + 1))`. */
  function TickSingle(interval: int, tPart: string): Result<Window, ParseError> {
    var t :- Number(tPart);
    Success(Window(Some(interval * t), Some(Fin(interval * (t + 1)))))
  }

  /** The `a:b` form of a tick sub-token: ticks `a` through `b` inclusive,
      in the order written. */
  function TickPair(interval: int, tList: seq<string>): Result<Window, ParseError>
    requires |tList| >= 2
  {
    var t1 :- Number(tList[0]);
    var t2 :- Number(tList[1]);
    Success(Window(Some(interval * t1), Some(Fin(interval * (t2 + 1)))))
  }

  /** The part after the first `_`, `interval/T`: tick indices are multiplied
      by the interval and the upper tick is exclusive. A `-` tick means no
      window, whatever the interval says. */
  function ParseTime(timePart: Option<string>): Result<Window, ParseError> {
    match timePart
    case None => Success(Window(None, None))
    case Some(tp) =>
      var parts := Split(tp, '/');
      if |parts| < 2 then Failure(MissingSegment)
      else if parts[1] == "-" then Success(Window(None, None))
      else
        var interval :- Number(parts[0]);
        TickWindow(interval, parts[1])
  }

  /** The spatial part and the optional time part of a token, cut at the
      first `_`. */
  function CutAtUnderscore(token: string): (string, Option<string>) {
    var u := IndexOf(token, '_');
    if u != -1 then (token[..u], Some(token[u + 1..])) else (token, None)
  }

  /** The zoom level and the three axis values of a spatial part. */
  datatype Spatial = Spatial(z: nat, f: Dim, x: Dim, y: Dim)

  /** The `/`-pieces of a spatial part: the zoom level, then F, X and Y
      parsed at that zoom level. */
  function ParseSpatial(list: seq<string>): Result<Spatial, ParseError> {
    if |list| < 4 then Failure(MissingSegment)
    else
      var z :- Number(list[0]);
      if z < 0 then Failure(NegativeZoom(z))
      else
        var f :- ParseDim(z, FAxis, list[1]);
        var x :- ParseDim(z, XAxis, list[2]);
        var y :- ParseDim(z, YAxis, list[3]);
        Success(Spatial(z, f, x, y))
  }

  /** One spatial part plus optional time part. */
  function ParseParts(spatialPart: string, timePart: Option<string>): Result<VoxelDefinition, ParseError> {
    var w :- ParseTime(timePart);
    var sp :- ParseSpatial(Split(spatialPart, '/'));
    Success(VoxelDefinition(sp.z, sp.f, sp.x, sp.y, w.start, w.end))
  }

  function ParseToken(token: string): Result<VoxelDefinition, ParseError> {
    var (spatialPart, timePart) := CutAtUnderscore(Trim(token));
    ParseParts(spatialPart, timePart)
  }

  /** Applies `f` to every element in order; the first failure fails the
      whole batch, as an exception thrown inside the original loop does. */
  function MapAll<A, B>(xs: seq<A>, f: A -> Result<B, ParseError>): Result<seq<B>, ParseError> {
    if xs == [] then Success([])
    else
      var y :- f(xs[0]);
      var ys :- MapAll(xs[1..], f);
      Success([y] + ys)
  }

  /** One result per element, in order, or a failure exactly when some
      element fails. */
  lemma {:induction false} MapAllSpec<A, B>(xs: seq<A>, f: A -> Result<B, ParseError>)
    ensures MapAll(xs, f).Success? ==> |MapAll(xs, f).value| == |xs|
    ensures MapAll(xs, f).Success? ==>
              forall i | 0 <= i < |xs| :: f(xs[i]) == Success(MapAll(xs, f).value[i])
    ensures MapAll(xs, f).Failure? <==> exists i | 0 <= i < |xs| :: f(xs[i]).Failure?
  {
    if xs != [] {
      MapAllSpec(xs[1..], f);
      if f(xs[0]).Failure? {
      } else if MapAll(xs[1..], f).Failure? {
        var i :| 0 <= i < |xs[1..]| && f(xs[1..][i]).Failure?;
        assert f(xs[i + 1]).Failure?;
      } else {
        var r := MapAll(xs, f).value;
        assert r == [f(xs[0]).value] + MapAll(xs[1..], f).value;
        forall i | 0 <= i < |xs|
          ensures f(xs[i]) == Success(r[i])
        {
          if i > 0 {
            assert xs[i] == xs[1..][i - 1];
          }
        }
      }
    }
  }

  /** hyperVoxelParse. */
  function Parse(s: string): Result<seq<VoxelDefinition>, ParseError> {
    MapAll(Tokens(s), ParseToken)
  }
}

=== FILE: projector.dfy ===
/** The tile projector: every tile becomes one extruded map polygon, using
    the slippy-map tile naming scheme of OpenStreetMap for the horizontal
    position and `2^25 / 2^Z` metres per altitude step.

    Latitude is `atan(sinh(pi - 2 pi r))` in degrees of a row fraction `r`;
    it is a parameter `lat` here, and only facts that hold for any such
    function (or for any decreasing one) are stated about it. */
module Projector {
  import opened Wrappers
  import opened Text
  import opened Voxels
  import opened ParseId
  import opened Expand

  /** An RGBA colour, channel by channel. */
  type Color = seq<int>

  /** A ring vertex: longitude, latitude, altitude. */
  datatype Point = Point(lon: real, lat: real, alt: real)

  datatype Polygon = Polygon(
    points: seq<Point>,
    elevation: real,
    voxelID: string,
    color: Color,
    startTime: Option<int>,
    endTime: Option<EndTime>)

  datatype Coordinates = Coordinates(maxLon: real, minLon: real, maxLat: real, minLat: real)

  /** The number of tile columns (and rows) at zoom `z`, as a real. */
  function Tiles(z: nat): (n: real)
    ensures n >= 1.0
  {
    Pow2(z) as real
  }

  /** The longitude of the west edge of column `x`, by the slippy-map scheme. */
  function ColumnEdge(z: nat, x: int): real {
    -180.0 + 360.0 * x as real / Tiles(z)
  }

  /** `pvoxelToCoordinates`: the longitude edges of column `X` (not `X2`) and
      the latitudes of the top and bottom edge of row `Y`. */
  function ToCoordinates(t: Tile, lat: real -> real): Coordinates {
    var n := Tiles(t.Z);
    var lonPerTile := 360.0 / n;
    Coordinates(
      -180.0 + lonPerTile * (t.X + 1) as real,
      -180.0 + lonPerTile * t.X as real,
      lat(t.Y as real / n),
      lat((t.Y + 1) as real / n))
  }

  /** `getAltitude`: the base altitude of floor `F`. */
  function Altitude(t: Tile): real {
    33554432.0 / Tiles(t.Z) * t.F as real
  }

  /** `calculateElevation`: the extrusion height of a tile at zoom `Z`. */
  function Elevation(t: Tile): real {
    33554432.0 / Tiles(t.Z)
  }

  /** `generateRectanglePoints`: the closed ring of the box at one altitude. */
  function Ring(c: Coordinates, alt: real): seq<Point> {
    [Point(c.maxLon, c.maxLat, alt),
     Point(c.minLon, c.maxLat, alt),
     Point(c.minLon, c.minLat, alt),
     Point(c.maxLon, c.minLat, alt),
     Point(c.maxLon, c.maxLat, alt)]
  }

  /** `generateVoxelID`: the tile's own `Z/F/X/Y`. */
  function VoxelID(t: Tile): string {
    Join([IntToString(t.Z), IntToString(t.F), IntToString(t.X), IntToString(t.Y)], '/')
  }

  function ToPolygon(t: Tile, color: Color, lat: real -> real): Polygon {
    Polygon(Ring(ToCoordinates(t, lat), Altitude(t)), Elevation(t), VoxelID(t), color, t.startTime, t.endTime)
  }

  /** `pvoxelToPolygon`: one polygon per tile, in order. */
  function PvoxelToPolygon(ts: seq<Tile>, color: Color, lat: real -> real): (ps: seq<Polygon>)
    ensures |ps| == |ts|
  {
    seq(|ts|, i requires 0 <= i < |ts| => ToPolygon(ts[i], color, lat))
  }

  // ---------------------------------------------------------------------
  // Longitude

  /** The west and east edges are those of columns `X` and `X + 1`, so the
      drawn box is one column wide whatever `X2` says. */
  lemma LongitudeEdges(t: Tile, lat: real -> real)
    ensures ToCoordinates(t, lat).minLon == ColumnEdge(t.Z, t.X)
    ensures ToCoordinates(t, lat).maxLon == ColumnEdge(t.Z, t.X + 1)
    ensures ToCoordinates(t, lat).maxLon - ToCoordinates(t, lat).minLon == 360.0 / Tiles(t.Z)
    ensures ToCoordinates(t, lat).maxLon > ToCoordinates(t, lat).minLon
  {
    var n := Tiles(t.Z);
    assert 360.0 / n * t.X as real == 360.0 * t.X as real / n;
    assert 360.0 / n * (t.X + 1) as real == 360.0 * (t.X + 1) as real / n;
  }

  /** Columns `0 .. 2^Z - 1` tile the whole longitude range `[-180, 180]`:
      the first starts at -180, the last ends at 180, and each column's east
      edge is the west edge of the next. */
  lemma ColumnsTileTheGlobe(z: nat, x: int)
    ensures ColumnEdge(z, 0) == -180.0
    ensures ColumnEdge(z, Pow2(z)) == 180.0
    ensures x < Pow2(z) ==> ColumnEdge(z, x) < ColumnEdge(z, x + 1)
    ensures 0 <= x <= Pow2(z) ==> -180.0 <= ColumnEdge(z, x) <= 180.0
  {
    var n := Tiles(z);
    ScaleOfWhole(360.0, n);
    ScaleStep(360.0, x as real, n);
    if 0 <= x <= Pow2(z) {
      ScaleBetween(360.0, x as real, n);
    }
  }

  /** `a * n / n == a`. */
  lemma ScaleOfWhole(a: real, n: real)
    requires n > 0.0
    ensures a * n / n == a
  {
  }

  /** Moving one step right adds `a / n`, which is positive for positive `a`. */
  lemma ScaleStep(a: real, x: real, n: real)
    requires n > 0.0 && a > 0.0
    ensures a * (x + 1.0) / n == a * x / n + a / n
    ensures a / n > 0.0
  {
  }

  /** For `0 <= x <= n`, `a * x / n` lies between 0 and `a`. */
  lemma ScaleBetween(a: real, x: real, n: real)
    requires n > 0.0 && a > 0.0 && 0.0 <= x <= n
    ensures 0.0 <= a * x / n <= a
  {
    assert a * x <= a * n;
    assert a * x / n <= a * n / n;
  }

  // ---------------------------------------------------------------------
  // Latitude

  /** The bottom edge of row `Y` is the top edge of row `Y + 1`: rows of the
      same column share their edges whatever the latitude function. */
  lemma RowsShareEdges(t: Tile, lat: real -> real)
    ensures ToCoordinates(t, lat).minLat == ToCoordinates(t.(Y := t.Y + 1), lat).maxLat
  {
  }

  /** With a strictly decreasing latitude function (as Mercator's is in the
      row fraction), the top edge lies north of the bottom edge. */
  lemma RowOrientation(t: Tile, lat: real -> real)
    requires forall r: real, s: real :: r < s ==> lat(r) > lat(s)
    ensures ToCoordinates(t, lat).maxLat > ToCoordinates(t, lat).minLat
  {
    var n := Tiles(t.Z);
    assert t.Y as real / n < (t.Y + 1) as real / n;
  }

  // ---------------------------------------------------------------------
  // Altitude and extrusion

  lemma Pow2Of25()
    ensures Pow2(25) == 33554432
  {
    assert Pow2(5) == 32 by {
      assert Pow2(1) == 2;
      assert Pow2(2) == 4;
      assert Pow2(3) == 8;
      assert Pow2(4) == 16;
    }
    Pow2Add(5, 5);
    Pow2Add(10, 10);
    Pow2Add(20, 5);
  }

  /** Up to zoom 25 one floor is `2^(25 - Z)` metres, a whole number. */
  lemma AltitudeStep(t: Tile)
    requires t.Z <= 25
    ensures Elevation(t) == Pow2(25 - t.Z) as real
    ensures Altitude(t) == (Pow2(25 - t.Z) * t.F) as real
  {
    FloorTimesTiles(t.Z);
    FloorOf(t, Pow2(25 - t.Z));
  }

  /** When `k * 2^Z == 2^25`, one floor is `k` high and floor `F` starts at `k * F`. */
  lemma FloorOf(t: Tile, k: int)
    requires k * Pow2(t.Z) == 33554432
    ensures Elevation(t) == k as real
    ensures Altitude(t) == (k * t.F) as real
  {
    var p := Pow2(t.Z);
    WholeFloor(k, p, t.F);
    assert Elevation(t) == 33554432.0 / p as real;
    assert Altitude(t) == 33554432.0 / p as real * t.F as real;
  }

  /** `2^(25 - z) * 2^z == 2^25`. */
  lemma FloorTimesTiles(z: nat)
    requires z <= 25
    ensures Pow2(25 - z) * Pow2(z) == 33554432
  {
    Pow2Of25();
    Pow2Add(25 - z, z);
    assert 25 - z + z == 25;
  }

  /** When `k * p == 2^25`, the floor height `2^25 / p` is `k` and floor `f`
      starts at `k * f`. */
  lemma WholeFloor(k: int, p: int, f: int)
    requires p > 0 && k * p == 33554432
    ensures 33554432.0 / p as real == k as real
    ensures 33554432.0 / p as real * f as real == (k * f) as real
  {
    IntProductAsReal(k, p);
    QuotientOf(k as real, p as real, 33554432.0);
    IntProductAsReal(k, f);
  }

  lemma IntProductAsReal(a: int, b: int)
    ensures (a * b) as real == a as real * b as real
  {
  }

  lemma QuotientOf(k: real, n: real, m: real)
    requires n != 0.0 && k * n == m
    ensures m / n == k
  {
  }

  /** The extrusion height is one floor: a tile's box reaches exactly the
      base of the floor above, so floors stack without gaps or overlap. It
      depends on `Z` alone, never on `F`, `F2` or the identifier. */
  lemma FloorsStack(t: Tile, f: int, f2: int, id: string)
    ensures Altitude(t) + Elevation(t) == Altitude(t.(F := t.F + 1))
    ensures Elevation(t) * Tiles(t.Z) == 33554432.0
    ensures Elevation(t) > 0.0
    ensures Elevation(t.(F := f, F2 := f2, originalId := id)) == Elevation(t)
  {
    var e := 33554432.0 / Tiles(t.Z);
    assert Altitude(t) == e * t.F as real;
    assert Altitude(t.(F := t.F + 1)) == e * (t.F + 1) as real;
  }

  // ---------------------------------------------------------------------
  // The ring

  /** Twice the signed (shoelace) area of a closed ring in the lon/lat plane. */
  function ShoelaceSum(ps: seq<Point>): real {
    if |ps| < 2 then 0.0
    else ps[0].lon * ps[1].lat - ps[1].lon * ps[0].lat + ShoelaceSum(ps[1..])
  }

  /** The ring is closed, has five vertices at one altitude, each edge is
      parallel to a meridian or a parallel, its vertices are exactly the four
      corners of the box, and it encloses the box with positive orientation
      (counter-clockwise with north up) whenever the box is not degenerate. */
  lemma RingShape(c: Coordinates, alt: real)
    ensures |Ring(c, alt)| == 5 && Ring(c, alt)[0] == Ring(c, alt)[4]
    ensures forall i | 0 <= i < 5 :: Ring(c, alt)[i].alt == alt
    ensures forall i | 0 <= i < 4 ::
              Ring(c, alt)[i].lon == Ring(c, alt)[i + 1].lon || Ring(c, alt)[i].lat == Ring(c, alt)[i + 1].lat
    ensures forall i | 0 <= i < 5 ::
              Ring(c, alt)[i].lon in {c.minLon, c.maxLon} && Ring(c, alt)[i].lat in {c.minLat, c.maxLat}
    ensures ShoelaceSum(Ring(c, alt)) == 2.0 * (c.maxLon - c.minLon) * (c.maxLat - c.minLat)
  {
    var r := Ring(c, alt);
    var (hi, lo, top, bot) := (c.maxLon, c.minLon, c.maxLat, c.minLat);
    assert ShoelaceSum(r[4..]) == 0.0;
    assert r[3..][1..] == r[4..];
    assert ShoelaceSum(r[3..]) == hi * top - hi * bot;
    assert r[2..][1..] == r[3..];
    assert ShoelaceSum(r[2..]) == lo * bot - hi * bot + hi * top - hi * bot;
    assert r[1..][1..] == r[2..];
    assert ShoelaceSum(r[1..]) == lo * bot - lo * top + lo * bot - hi * bot + hi * top - hi * bot;
    assert ShoelaceSum(r) == hi * top - lo * top + lo * bot - lo * top + lo * bot - hi * bot + hi * top - hi * bot;
  }

  // ---------------------------------------------------------------------
  // The identifier

  /** The polygon's identifier parses back to a single-cell definition of
      the tile's own `Z`, `F`, `X` and `Y`, with no window; `X2`, `Y2`, `F2`
      and the originating identifier play no part. */
  lemma VoxelIdParses(t: Tile)
    ensures ParseToken(VoxelID(t)) == Success(VoxelDefinition(t.Z, Scalar(t.F), Scalar(t.X), Scalar(t.Y), None, None))
  {
    assert VoxelID(t) == CellId(Cell(t.Z, t.F, t.X, t.Y));
    CellIdParses(Cell(t.Z, t.F, t.X, t.Y));
  }

  /** Different cells get different identifiers. */
  lemma VoxelIdInjective(t: Tile, u: Tile)
    requires VoxelID(t) == VoxelID(u)
    ensures t.Z == u.Z && t.F == u.F && t.X == u.X && t.Y == u.Y
  {
    VoxelIdParses(t);
    VoxelIdParses(u);
  }

  /** On a unit tile of the exhaustive mode the identifier is the tile's
      originating identifier. */
  lemma UnitTileId(c: Cell, st: Option<int>, et: Option<EndTime>)
    ensures VoxelID(UnitTile(c, st, et)) == UnitTile(c, st, et).originalId
  {
  }

  // ---------------------------------------------------------------------
  // The whole list

  /** Polygon `i` is the projection of tile `i`: it carries the given colour,
      the tile's window unchanged, and an identifier naming the tile's cell. */
  lemma PolygonsSpec(ts: seq<Tile>, color: Color, lat: real -> real, i: int)
    requires 0 <= i < |ts|
    ensures PvoxelToPolygon(ts, color, lat)[i].color == color
    ensures PvoxelToPolygon(ts, color, lat)[i].startTime == ts[i].startTime
    ensures PvoxelToPolygon(ts, color, lat)[i].endTime == ts[i].endTime
    ensures ParseToken(PvoxelToPolygon(ts, color, lat)[i].voxelID)
              == Success(VoxelDefinition(ts[i].Z, Scalar(ts[i].F), Scalar(ts[i].X), Scalar(ts[i].Y), None, None))
    ensures PvoxelToPolygon(ts, color, lat)[i].points[0] == PvoxelToPolygon(ts, color, lat)[i].points[4]
  {
    VoxelIdParses(ts[i]);
  }

  /** Projection distributes over concatenation. */
  lemma PolygonsAppend(a: seq<Tile>, b: seq<Tile>, color: Color, lat: real -> real)
    ensures PvoxelToPolygon(a + b, color, lat) == PvoxelToPolygon(a, color, lat) + PvoxelToPolygon(b, color, lat)
  {
  }
}

=== FILE: seqs.dfy ===
/** Sequence combinators the voxel code uses through Array.prototype.filter,
    `flat`, `Array.from({length})` and the "seen set" deduplication loops. */
module Seqs {

  /** Array.prototype.filter. */
  function Filter<T>(s: seq<T>, p: T -> bool): (r: seq<T>)
    ensures |r| <= |s|
    ensures forall k | 0 <= k < |r| :: p(r[k])
    ensures forall x | x in r :: x in s
  {
    if s == [] then []
    else if p(s[0]) then [s[0]] + Filter(s[1..], p)
    else Filter(s[1..], p)
  }

  /** A kept element is exactly an element of `s` that satisfies `p`. */
  lemma {:induction false} FilterMember<T>(s: seq<T>, p: T -> bool, x: T)
    ensures x in Filter(s, p) <==> x in s && p(x)
    decreases |s|
  {
    if s != [] {
      FilterMember(s[1..], p, x);
      assert s == [s[0]] + s[1..];
    }
  }

  lemma {:induction false} FilterAppend<T>(a: seq<T>, b: seq<T>, p: T -> bool)
    ensures Filter(a + b, p) == Filter(a, p) + Filter(b, p)
    decreases |a|
  {
    if a != [] {
      assert (a + b)[1..] == a[1..] + b;
      FilterAppend(a[1..], b, p);
    } else {
      assert a + b == b;
    }
  }

  /** Filtering a non-empty sequence: the filtered prefix, then the last
      element if it is kept. */
  lemma FilterSnoc<T>(s: seq<T>, p: T -> bool)
    requires s != []
    ensures Filter(s, p) == Filter(s[..|s| - 1], p) + (if p(s[|s| - 1]) then [s[|s| - 1]] else [])
  {
    var init, last := s[..|s| - 1], s[|s| - 1];
    assert s == init + [last];
    FilterAppend(init, [last], p);
    assert [last][1..] == [];
    assert Filter([last], p) == (if p(last) then [last] else []);
  }

  lemma FilterAll<T>(s: seq<T>, p: T -> bool)
    requires forall k | 0 <= k < |s| :: p(s[k])
    ensures Filter(s, p) == s
    decreases |s|
  {
    if s != [] {
      FilterAll(s[1..], p);
    }
  }

  /** `a` is obtained from `b` by deleting elements, keeping the order. */
  predicate IsSubsequence<T(==)>(a: seq<T>, b: seq<T>)
    decreases |b|
  {
    if a == [] then true
    else if b == [] then false
    else if a[0] == b[0] then IsSubsequence(a[1..], b[1..])
    else IsSubsequence(a, b[1..])
  }

  lemma {:induction false} SubsequenceTail<T>(a: seq<T>, b: seq<T>)
    requires a != [] && IsSubsequence(a, b)
    ensures IsSubsequence(a[1..], b)
    decreases |b|, 0
  {
    if a[0] == b[0] {
      SubsequencePrepend(a[1..], b[1..], b[0]);
      assert [b[0]] + b[1..] == b;
    } else {
      SubsequenceTail(a, b[1..]);
      SubsequencePrepend(a[1..], b[1..], b[0]);
      assert [b[0]] + b[1..] == b;
    }
  }

  lemma {:induction false} SubsequencePrepend<T>(a: seq<T>, b: seq<T>, x: T)
    requires IsSubsequence(a, b)
    ensures IsSubsequence(a, [x] + b)
    decreases |b|, 1
  {
    assert ([x] + b)[1..] == b;
    if a != [] && a[0] == x {
      SubsequenceTail(a, b);
    }
  }

  lemma SubsequenceCons<T>(a: seq<T>, b: seq<T>, x: T)
    requires IsSubsequence(a, b)
    ensures IsSubsequence([x] + a, [x] + b)
    ensures IsSubsequence(a, [x] + b)
  {
    assert ([x] + a)[1..] == a;
    assert ([x] + b)[1..] == b;
    SubsequencePrepend(a, b, x);
  }

  lemma {:induction false} FilterIsSubsequence<T>(s: seq<T>, p: T -> bool)
    ensures IsSubsequence(Filter(s, p), s)
    decreases |s|
  {
    if s != [] {
      FilterIsSubsequence(s[1..], p);
      assert s == [s[0]] + s[1..];
      SubsequenceCons(Filter(s[1..], p), s[1..], s[0]);
    }
  }

  /** In-order concatenation (Array.prototype.flat, or repeated `push(...xs)`). */
  function Flatten<T>(ss: seq<seq<T>>): seq<T> {
    if ss == [] then [] else ss[0] + Flatten(ss[1..])
  }

  lemma {:induction false} FlattenAppend<T>(a: seq<seq<T>>, b: seq<seq<T>>)
    ensures Flatten(a + b) == Flatten(a) + Flatten(b)
    decreases |a|
  {
    if a == [] {
      assert a + b == b;
    } else {
      assert (a + b)[1..] == a[1..] + b;
      FlattenAppend(a[1..], b);
    }
  }

  /** `s.flatMap(f)`: the in-order concatenation of `f` over `s`. */
  function FlatMap<A, B>(s: seq<A>, f: A -> seq<B>): seq<B> {
    if s == [] then [] else f(s[0]) + FlatMap(s[1..], f)
  }

  /** Mapping each element to a one-element sequence yields those elements. */
  lemma {:induction false} FlatMapSingletons<A, B>(s: seq<A>, f: A -> seq<B>, r: seq<B>)
    requires |s| == |r| && forall i | 0 <= i < |s| :: f(s[i]) == [r[i]]
    ensures FlatMap(s, f) == r
    decreases |s|
  {
    if s != [] {
      assert forall i | 0 <= i < |s[1..]| :: f(s[1..][i]) == [r[1..][i]] by {
        forall i | 0 <= i < |s[1..]|
          ensures f(s[1..][i]) == [r[1..][i]]
        {
          assert s[1..][i] == s[i + 1] && r[1..][i] == r[i + 1];
        }
      }
      FlatMapSingletons(s[1..], f, r[1..]);
      assert r == [r[0]] + r[1..];
    }
  }

  lemma FlatMapSingle<A, B>(x: A, f: A -> seq<B>)
    ensures FlatMap([x], f) == f(x)
  {
    assert [x][1..] == [];
    assert FlatMap([x][1..], f) == [];
  }

  lemma {:induction false} FlatMapAppend<A, B>(a: seq<A>, b: seq<A>, f: A -> seq<B>)
    ensures FlatMap(a + b, f) == FlatMap(a, f) + FlatMap(b, f)
    decreases |a|
  {
    if a == [] {
      assert a + b == b;
    } else {
      assert (a + b)[1..] == a[1..] + b;
      FlatMapAppend(a[1..], b, f);
    }
  }

  /** The integers `a, a+1, ..., b-1` (empty when `a >= b`): the values of a
      counting `for` loop or of `Array.from({length: b - a}, (_, i) => a + i)`. */
  function Ints(a: int, b: int): (r: seq<int>)
    ensures |r| == if a < b then b - a else 0
    ensures forall k | 0 <= k < |r| :: r[k] == a + k
    decreases b - a
  {
    if a < b then [a] + Ints(a + 1, b) else []
  }

  lemma IntsMember(a: int, b: int, x: int)
    ensures x in Ints(a, b) <==> a <= x < b
  {
    if a <= x < b {
      assert Ints(a, b)[x - a] == x;
    }
  }

  lemma IntsSplit(a: int, m: int, b: int)
    requires a <= m <= b
    ensures Ints(a, b) == Ints(a, m) + Ints(m, b)
  {
    assert forall k | 0 <= k < b - a :: Ints(a, b)[k] == (Ints(a, m) + Ints(m, b))[k];
  }

  lemma IntsNoDuplicates(a: int, b: int)
    ensures forall i, j | 0 <= i < j < |Ints(a, b)| :: Ints(a, b)[i] != Ints(a, b)[j]
  {
  }

  /** Keeps the first element for each key, in input order: the loop that
      pushes an element only when its key is not yet in a `seen` set.
      `seen` holds the keys met before `s`. */
  function DedupFrom<T, K(==)>(s: seq<T>, key: T -> K, seen: set<K>): seq<T>
    decreases |s|
  {
    if s == [] then []
    else if key(s[0]) in seen then DedupFrom(s[1..], key, seen)
    else [s[0]] + DedupFrom(s[1..], key, seen + {key(s[0])})
  }

  function DedupBy<T, K(==)>(s: seq<T>, key: T -> K): seq<T> {
    DedupFrom(s, key, {})
  }

  function Keys<T, K>(s: seq<T>, key: T -> K): set<K> {
    set i | 0 <= i < |s| :: key(s[i])
  }

  lemma KeysCons<T, K>(x: T, r: seq<T>, key: T -> K)
    ensures Keys([x] + r, key) == {key(x)} + Keys(r, key)
  {
    var s := [x] + r;
    forall y | y in Keys(s, key)
      ensures y in {key(x)} + Keys(r, key)
    {
      var i :| 0 <= i < |s| && key(s[i]) == y;
      if i > 0 {
        assert s[i] == r[i - 1];
      }
    }
    forall y | y in Keys(r, key)
      ensures y in Keys(s, key)
    {
      var i :| 0 <= i < |r| && key(r[i]) == y;
      assert s[i + 1] == r[i];
    }
    assert key(s[0]) in Keys(s, key);
  }

  lemma KeysAppend<T, K>(a: seq<T>, b: seq<T>, key: T -> K)
    ensures Keys(a + b, key) == Keys(a, key) + Keys(b, key)
  {
    var s := a + b;
    forall y | y in Keys(s, key)
      ensures y in Keys(a, key) + Keys(b, key)
    {
      var i :| 0 <= i < |s| && key(s[i]) == y;
      if i < |a| {
        assert s[i] == a[i];
      } else {
        assert s[i] == b[i - |a|];
      }
    }
    forall y | y in Keys(a, key)
      ensures y in Keys(s, key)
    {
      var i :| 0 <= i < |a| && key(a[i]) == y;
      assert s[i] == a[i];
    }
    forall y | y in Keys(b, key)
      ensures y in Keys(s, key)
    {
      var i :| 0 <= i < |b| && key(b[i]) == y;
      assert s[i + |a|] == b[i];
    }
  }

  lemma {:induction false} DedupFromKeys<T, K>(s: seq<T>, key: T -> K, seen: set<K>)
    ensures Keys(DedupFrom(s, key, seen), key) == Keys(s, key) - seen
    decreases |s|
  {
    if s != [] {
      var k := key(s[0]);
      assert s == [s[0]] + s[1..];
      KeysCons(s[0], s[1..], key);
      if k in seen {
        DedupFromKeys(s[1..], key, seen);
      } else {
        DedupFromKeys(s[1..], key, seen + {k});
        var r := DedupFrom(s[1..], key, seen + {k});
        KeysCons(s[0], r, key);
      }
    }
  }

  predicate DistinctKeys<T, K(==)>(s: seq<T>, key: T -> K) {
    forall i, j | 0 <= i < j < |s| :: key(s[i]) != key(s[j])
  }

  /** Putting an element with a new key in front keeps the keys distinct. */
  lemma DistinctKeysCons<T, K>(x: T, r: seq<T>, key: T -> K)
    requires DistinctKeys(r, key) && key(x) !in Keys(r, key)
    ensures DistinctKeys([x] + r, key)
  {
    var s := [x] + r;
    forall i, j | 0 <= i < j < |s|
      ensures key(s[i]) != key(s[j])
    {
      assert s[j] == r[j - 1];
      if i == 0 {
        assert key(r[j - 1]) in Keys(r, key);
      } else {
        assert s[i] == r[i - 1];
      }
    }
  }

  /** A list whose keys are distinct has as many keys as elements. */
  lemma {:induction false} DistinctKeysCount<T, K>(s: seq<T>, key: T -> K)
    requires DistinctKeys(s, key)
    ensures |Keys(s, key)| == |s|
    decreases |s|
  {
    if s != [] {
      var r := s[1..];
      assert DistinctKeys(r, key) by {
        forall i, j | 0 <= i < j < |r|
          ensures key(r[i]) != key(r[j])
        {
          assert r[i] == s[i + 1] && r[j] == s[j + 1];
        }
      }
      DistinctKeysCount(r, key);
      assert s == [s[0]] + r;
      KeysCons(s[0], r, key);
      assert key(s[0]) !in Keys(r, key) by {
        forall i | 0 <= i < |r|
          ensures key(r[i]) != key(s[0])
        {
          assert r[i] == s[i + 1];
        }
      }
    }
  }

  lemma {:induction false} DedupFromDistinct<T, K>(s: seq<T>, key: T -> K, seen: set<K>)
    ensures DistinctKeys(DedupFrom(s, key, seen), key)
    ensures forall x | x in DedupFrom(s, key, seen) :: key(x) !in seen
    decreases |s|
  {
    if s != [] {
      var k := key(s[0]);
      if k in seen {
        DedupFromDistinct(s[1..], key, seen);
      } else {
        DedupFromDistinct(s[1..], key, seen + {k});
        var r := DedupFrom(s[1..], key, seen + {k});
        var out := [s[0]] + r;
        forall i, j | 0 <= i < j < |out|
          ensures key(out[i]) != key(out[j])
        {
          if i == 0 {
            assert out[j] in r;
          } else {
            assert out[i] == r[i - 1] && out[j] == r[j - 1];
          }
        }
      }
    }
  }

  lemma {:induction false} DedupFromSubsequence<T, K>(s: seq<T>, key: T -> K, seen: set<K>)
    ensures IsSubsequence(DedupFrom(s, key, seen), s)
    decreases |s|
  {
    if s != [] {
      var k := key(s[0]);
      assert s == [s[0]] + s[1..];
      if k in seen {
        DedupFromSubsequence(s[1..], key, seen);
        SubsequenceCons(DedupFrom(s[1..], key, seen), s[1..], s[0]);
      } else {
        DedupFromSubsequence(s[1..], key, seen + {k});
        SubsequenceCons(DedupFrom(s[1..], key, seen + {k}), s[1..], s[0]);
      }
    }
  }

  /** `s[i]` is the first element of `s` with its key. */
  predicate FirstWithKey<T, K(==)>(s: seq<T>, key: T -> K, i: int)
    requires 0 <= i < |s|
  {
    forall j | 0 <= j < i :: key(s[j]) != key(s[i])
  }

  lemma {:induction false} DedupFromFirst<T, K>(s: seq<T>, key: T -> K, seen: set<K>, x: T)
    requires x in DedupFrom(s, key, seen)
    ensures exists i | 0 <= i < |s| :: s[i] == x && FirstWithKey(s, key, i)
    decreases |s|
  {
    var k := key(s[0]);
    if k in seen {
      DedupFromFirst(s[1..], key, seen, x);
      var i :| 0 <= i < |s[1..]| && s[1..][i] == x && FirstWithKey(s[1..], key, i);
      DedupFromDistinct(s[1..], key, seen);
      assert key(x) != k;
      assert s[i + 1] == x && FirstWithKey(s, key, i + 1);
    } else if x == s[0] {
      assert FirstWithKey(s, key, 0);
    } else {
      var r := DedupFrom(s[1..], key, seen + {k});
      assert x in r;
      DedupFromFirst(s[1..], key, seen + {k}, x);
      var i :| 0 <= i < |s[1..]| && s[1..][i] == x && FirstWithKey(s[1..], key, i);
      DedupFromDistinct(s[1..], key, seen + {k});
      assert key(x) != k;
      assert s[i + 1] == x && FirstWithKey(s, key, i + 1);
    }
  }

  /** The four facts that pin down first-occurrence deduplication: one element
      per key, every key of the input kept, input order kept, and each kept
      element is the first one of the input carrying its key. */
  lemma DedupBySpec<T, K>(s: seq<T>, key: T -> K)
    ensures DistinctKeys(DedupBy(s, key), key)
    ensures Keys(DedupBy(s, key), key) == Keys(s, key)
    ensures IsSubsequence(DedupBy(s, key), s)
    ensures forall x | x in DedupBy(s, key) ::
              exists i | 0 <= i < |s| :: s[i] == x && FirstWithKey(s, key, i)
  {
    DedupFromDistinct(s, key, {});
    DedupFromKeys(s, key, {});
    DedupFromSubsequence(s, key, {});
    forall x | x in DedupBy(s, key)
      ensures exists i | 0 <= i < |s| :: s[i] == x && FirstWithKey(s, key, i)
    {
      DedupFromFirst(s, key, {}, x);
    }
  }
}

=== FILE: text.dfy ===
/** The string operations of the JavaScript runtime that the voxel code relies
    on: decimal rendering of integers (`String(n)`, template literals),
    `Number(s)` restricted to decimal integers, `trim`, `split`, `join`,
    `indexOf`, `startsWith`, `endsWith` and `replace`. */
module Text {
  import opened Wrappers
  import opened Seqs

  predicate IsDigit(c: char) {
    '0' <= c <= '9'
  }

  predicate AllDigits(s: string) {
    forall i | 0 <= i < |s| :: IsDigit(s[i])
  }

  function DigitChar(d: nat): (c: char)
    requires d < 10
    ensures IsDigit(c)
  {
    ('0' as int + d) as char
  }

  function DigitValue(c: char): (d: nat)
    requires IsDigit(c)
    ensures d < 10
  {
    (c as int) - ('0' as int)
  }

  /** Decimal rendering of a natural number, most significant digit first. */
  function NatToString(n: nat): (s: string)
    ensures |s| >= 1 && AllDigits(s)
    decreases n
  {
    if n < 10 then [DigitChar(n)] else NatToString(n / 10) + [DigitChar(n % 10)]
  }

  /** Value of a string of decimal digits, read most significant digit first. */
  function DigitsValue(s: string): nat
    requires AllDigits(s)
  {
    if s == [] then 0 else DigitsValue(s[..|s| - 1]) * 10 + DigitValue(s[|s| - 1])
  }

  lemma {:induction false} NatToStringValue(n: nat)
    ensures DigitsValue(NatToString(n)) == n
    decreases n
  {
    if n >= 10 {
      var s := NatToString(n);
      assert s[..|s| - 1] == NatToString(n / 10);
      NatToStringValue(n / 10);
    }
  }

  /** `String(i)` for an integer `i`: an optional minus sign, then digits. */
  function IntToString(i: int): (s: string)
    ensures |s| >= 1 && IsDigit(s[|s| - 1])
    ensures s[0] == '-' <==> i < 0
    ensures forall k | 0 < k < |s| :: IsDigit(s[k])
    ensures i >= 0 ==> IsDigit(s[0])
    ensures i < 0 ==> |s| >= 2
  {
    if i < 0 then "-" + NatToString(-i) else NatToString(i)
  }

  /** The characters String.prototype.trim and Number() skip: the ECMAScript
      WhiteSpace (tab, vertical tab, form feed, space, no-break space, byte
      order mark and the Unicode space separators) and LineTerminator sets. */
  predicate IsSpace(c: char) {
    c == '\t' || c == '\n' || c == '\U{000B}' || c == '\U{000C}' || c == '\r'
    || c == ' ' || c == '\U{00A0}' || c == '\U{1680}'
    || ('\U{2000}' <= c <= '\U{200A}')
    || c == '\U{2028}' || c == '\U{2029}' || c == '\U{202F}' || c == '\U{205F}'
    || c == '\U{3000}' || c == '\U{FEFF}'
  }

  predicate AllSpace(s: string) {
    forall i | 0 <= i < |s| :: IsSpace(s[i])
  }

  predicate NoSpace(s: string) {
    forall i | 0 <= i < |s| :: !IsSpace(s[i])
  }

  /** Length of the run of white space at the start of `s`. */
  function LeadingSpaces(s: string): (k: nat)
    ensures k <= |s| && AllSpace(s[..k])
    ensures k == |s| || !IsSpace(s[k])
  {
    if |s| > 0 && IsSpace(s[0]) then
      var k := 1 + LeadingSpaces(s[1..]);
      assert s[..k] == [s[0]] + s[1..][..k - 1];
      k
    else 0
  }

  /** Length of the run of white space at the end of `s`. */
  function TrailingSpaces(s: string): (k: nat)
    ensures k <= |s| && AllSpace(s[|s| - k..])
    ensures k == |s| || !IsSpace(s[|s| - 1 - k])
  {
    if |s| > 0 && IsSpace(s[|s| - 1]) then
      var k := 1 + TrailingSpaces(s[..|s| - 1]);
      assert s[|s| - k..] == s[..|s| - 1][|s| - k..] + [s[|s| - 1]];
      k
    else 0
  }

  /** String.prototype.trim. */
  function Trim(s: string): (r: string)
    ensures r == [] || (!IsSpace(r[0]) && !IsSpace(r[|r| - 1]))
    ensures r == [] <==> AllSpace(s)
    ensures NoSpace(s) ==> r == s
    ensures |r| <= |s|
  {
    var a := LeadingSpaces(s);
    var b := TrailingSpaces(s[a..]);
    assert AllSpace(s) ==> a == |s|;
    assert a < |s| ==> b < |s[a..]|;
    if a == |s| then
      assert AllSpace(s) by {
        assert s[..a] == s;
      }
      []
    else
      assert !AllSpace(s);
      s[a..][..|s[a..]| - b]
  }

  /** `Number(s)` on the decimal-integer subset of its input language: after
      trimming, the empty string is 0, and an optional sign followed by one or
      more decimal digits is that integer. Every other string (NaN, fractions,
      exponents, hexadecimal, "Infinity") is `None`. */
  function JsNumber(s: string): Option<int> {
    var t := Trim(s);
    if t == [] then Some(0)
    else if t[0] == '-' && |t| > 1 && AllDigits(t[1..]) then Some(-(DigitsValue(t[1..]) as int))
    else if t[0] == '+' && |t| > 1 && AllDigits(t[1..]) then Some(DigitsValue(t[1..]))
    else if AllDigits(t) then Some(DigitsValue(t))
    else None
  }

  /** `Number(String(i)) == i`: decimal rendering and reading are inverse. */
  lemma IntToStringRoundTrip(i: int)
    ensures JsNumber(IntToString(i)) == Some(i)
  {
    if i < 0 {
      NegativeRoundTrip(i);
    } else {
      NatRoundTrip(i);
    }
  }

  lemma NegativeRoundTrip(i: int)
    requires i < 0
    ensures JsNumber(IntToString(i)) == Some(i)
  {
    var s := IntToString(i);
    var d := NatToString(-i);
    assert s[1..] == d;
    NatToStringValue(-i);
    assert DigitsValue(s[1..]) == -i;
    NegativeDigitsNumber(s);
    assert JsNumber(s) == Some(i);
  }

  lemma NatRoundTrip(n: nat)
    ensures JsNumber(IntToString(n)) == Some(n)
  {
    var s := IntToString(n);
    assert s == NatToString(n);
    NatToStringValue(n);
    DigitsNumber(s);
  }

  /** Number() of a run of digits is its decimal value. */
  lemma DigitsNumber(d: string)
    requires |d| >= 1 && AllDigits(d)
    ensures JsNumber(d) == Some(DigitsValue(d))
  {
    assert NoSpace(d) by {
      forall k | 0 <= k < |d|
        ensures !IsSpace(d[k])
      {
        assert IsDigit(d[k]);
      }
    }
    assert Trim(d) == d;
  }

  /** Number() of a minus sign and a run of digits is the negated value. */
  lemma NegativeDigitsNumber(t: string)
    requires |t| >= 2 && t[0] == '-' && AllDigits(t[1..])
    ensures JsNumber(t) == Some(-(DigitsValue(t[1..]) as int))
  {
    assert NoSpace(t) by {
      forall k | 0 <= k < |t|
        ensures !IsSpace(t[k])
      {
        if k > 0 {
          assert t[k] == t[1..][k - 1];
        }
      }
    }
    assert Trim(t) == t;
  }

  lemma IntToStringInjective(a: int, b: int)
    requires IntToString(a) == IntToString(b)
    ensures a == b
  {
    IntToStringRoundTrip(a);
    IntToStringRoundTrip(b);
  }

  predicate StartsWith(s: string, p: string) {
    |p| <= |s| && s[..|p|] == p
  }

  predicate EndsWith(s: string, p: string) {
    |p| <= |s| && s[|s| - |p|..] == p
  }

  /** String.prototype.indexOf for a single character: -1 when absent. */
  function IndexOf(s: string, c: char): (r: int)
    ensures -1 <= r < |s|
    ensures r == -1 <==> c !in s
    ensures r >= 0 ==> s[r] == c && c !in s[..r]
  {
    if s == [] then -1
    else if s[0] == c then 0
    else
      var k := IndexOf(s[1..], c);
      if k == -1 then -1
      else
        assert s[..k + 1] == [s[0]] + s[1..][..k];
        k + 1
  }

  /** String.prototype.split with a one-character separator. */
  function Split(s: string, sep: char): (parts: seq<string>)
    ensures |parts| >= 1
    ensures forall k | 0 <= k < |parts| :: sep !in parts[k]
    ensures |parts| == 1 <==> sep !in s
  {
    if s == [] then [[]]
    else if s[0] == sep then [[]] + Split(s[1..], sep)
    else
      var rest := Split(s[1..], sep);
      [[s[0]] + rest[0]] + rest[1..]
  }

  /** Array.prototype.join with a one-character separator. */
  function Join(parts: seq<string>, sep: char): string {
    if |parts| == 0 then []
    else if |parts| == 1 then parts[0]
    else parts[0] + [sep] + Join(parts[1..], sep)
  }

  lemma {:induction false} SplitNoSeparator(s: string, sep: char)
    requires sep !in s
    ensures Split(s, sep) == [s]
    decreases |s|
  {
    if s != [] {
      assert sep !in s[1..] by {
        assert forall k | 0 <= k < |s[1..]| :: s[1..][k] == s[k + 1];
      }
      SplitNoSeparator(s[1..], sep);
      assert [s[0]] + s[1..] == s;
    }
  }

  lemma {:induction false} SplitCons(a: string, b: string, sep: char)
    requires sep !in a
    ensures Split(a + [sep] + b, sep) == [a] + Split(b, sep)
    decreases |a|
  {
    if a == [] {
      assert a + [sep] + b == [sep] + b;
      assert ([sep] + b)[1..] == b;
    } else {
      var s := a + [sep] + b;
      assert s[0] == a[0] && s[1..] == a[1..] + [sep] + b;
      SplitCons(a[1..], b, sep);
      assert [a[0]] + a[1..] == a;
    }
  }

  /** Splitting the join of separator-free parts gives the parts back. */
  lemma {:induction false} SplitJoin(parts: seq<string>, sep: char)
    requires |parts| >= 1
    requires forall k | 0 <= k < |parts| :: sep !in parts[k]
    ensures Split(Join(parts, sep), sep) == parts
    decreases |parts|
  {
    if |parts| == 1 {
      SplitNoSeparator(parts[0], sep);
    } else {
      SplitJoin(parts[1..], sep);
      SplitCons(parts[0], Join(parts[1..], sep), sep);
      assert [parts[0]] + parts[1..] == parts;
    }
  }

  /** Every character of a join is the separator or a character of a part. */
  lemma {:induction false} JoinChars(parts: seq<string>, sep: char, p: char -> bool)
    requires p(sep)
    requires forall k, i | 0 <= k < |parts| && 0 <= i < |parts[k]| :: p(parts[k][i])
    ensures forall i | 0 <= i < |Join(parts, sep)| :: p(Join(parts, sep)[i])
    decreases |parts|
  {
    if |parts| > 1 {
      JoinChars(parts[1..], sep, p);
      assert forall k, i | 0 <= k < |parts[1..]| && 0 <= i < |parts[1..][k]| :: parts[1..][k][i] == parts[k + 1][i];
      var j := Join(parts, sep);
      assert j == parts[0] + [sep] + Join(parts[1..], sep);
      forall i | 0 <= i < |j|
        ensures p(j[i])
      {
        if i < |parts[0]| {
          assert j[i] == parts[0][i];
        } else if i == |parts[0]| {
          assert j[i] == sep;
        } else {
          assert j[i] == Join(parts[1..], sep)[i - |parts[0]| - 1];
        }
      }
    } else if |parts| == 1 {
      assert Join(parts, sep) == parts[0];
    }
  }

  /** Appending a part to a non-empty join adds the separator and the part. */
  lemma {:induction false} JoinSnoc(parts: seq<string>, x: string, sep: char)
    requires |parts| >= 1
    ensures Join(parts + [x], sep) == Join(parts, sep) + [sep] + x
    decreases |parts|
  {
    if |parts| == 1 {
      assert (parts + [x])[1..] == [x];
    } else {
      assert (parts + [x])[1..] == parts[1..] + [x];
      JoinSnoc(parts[1..], x, sep);
    }
  }

  /** Joining the pieces of a split restores the original string. */
  lemma {:induction false} JoinSplit(s: string, sep: char)
    ensures Join(Split(s, sep), sep) == s
    decreases |s|
  {
    if s != [] {
      var rest := Split(s[1..], sep);
      JoinSplit(s[1..], sep);
      assert [s[0]] + s[1..] == s;
      if s[0] == sep {
        assert Split(s, sep) == [[]] + rest;
        JoinEmptyHead(rest, sep);
      } else {
        assert Split(s, sep) == [[s[0]] + rest[0]] + rest[1..];
        JoinCharHead(s[0], rest, sep);
      }
    }
  }

  /** An empty first part contributes only its separator. */
  lemma JoinEmptyHead(parts: seq<string>, sep: char)
    requires |parts| >= 1
    ensures Join([[]] + parts, sep) == [sep] + Join(parts, sep)
  {
    var all := [[]] + parts;
    assert all[0] == [] && all[1..] == parts;
  }

  /** A character put before the first part comes first in the join. */
  lemma JoinCharHead(c: char, parts: seq<string>, sep: char)
    requires |parts| >= 1
    ensures Join([[c] + parts[0]] + parts[1..], sep) == [c] + Join(parts, sep)
  {
    var all := [[c] + parts[0]] + parts[1..];
    assert all[0] == [c] + parts[0] && all[1..] == parts[1..];
    if |parts| > 1 {
      assert Join(parts, sep) == parts[0] + [sep] + Join(parts[1..], sep);
    }
  }

  /** `r` is `s` without its first `c`, or `s` itself when it holds no `c`. */
  predicate FirstRemoved(s: string, c: char, r: string) {
    if c in s then exists i | 0 <= i < |s| :: s[i] == c && c !in s[..i] && r == s[..i] + s[i + 1..]
    else r == s
  }

  /** `s.replace(c, "")` with a string pattern: removes the first `c` only. */
  function RemoveFirst(s: string, c: char): (r: string)
    ensures FirstRemoved(s, c, r)
    ensures c !in s ==> r == s
    ensures multiset(r)[c] == multiset(s)[c] - (if c in s then 1 else 0)
    ensures forall d | d != c :: multiset(r)[d] == multiset(s)[d]
  {
    var i := IndexOf(s, c);
    if i < 0 then s
    else
      assert s == s[..i] + [s[i]] + s[i + 1..];
      assert multiset(s) == multiset(s[..i] + s[i + 1..]) + multiset{c};
      s[..i] + s[i + 1..]
  }

  /** Removing the first `c` leaves every other character where it was found. */
  lemma RemoveFirstKeeps(s: string, c: char, d: char)
    requires d != c
    ensures d in RemoveFirst(s, c) <==> d in s
  {
    var r := RemoveFirst(s, c);
    assert d in r <==> d in multiset(r);
    assert d in s <==> d in multiset(s);
  }

  /** The test "is not `c`". */
  function Other(c: char): char -> bool {
    (x: char) => x != c
  }

  /** `s.replace(/c/g, "")`: removes every `c`, keeping the other characters in order. */
  function RemoveAll(s: string, c: char): (r: string)
    ensures r == Filter(s, Other(c))
    ensures c !in r
    ensures forall d | d != c :: multiset(r)[d] == multiset(s)[d]
    ensures c !in s ==> r == s
  {
    if s == [] then []
    else
      assert s == [s[0]] + s[1..];
      if s[0] == c then RemoveAll(s[1..], c) else [s[0]] + RemoveAll(s[1..], c)
  }
}

=== FILE: viewport.dfy ===
/** Zoom-dependent level of detail and the viewport filter: definitions
    whose zoom level is too fine for the map zoom, or whose (linearly
    approximated) box lies outside the viewport widened by a margin, are
    dropped. Coordinates are exact rationals here. */
module Viewport {
  import opened Wrappers
  import opened Seqs
  import opened Voxels

  datatype ViewportState = ViewportState(zoom: real, longitude: real, latitude: real)

  /** `getMinVoxelZoomLevel`: the finest definition zoom level drawn at a map zoom. */
  function MinVoxelZoomLevel(mapZoom: real): (r: nat)
    ensures r in {2, 4, 8, 12, 16, 24}
  {
    if mapZoom < 3.0 then 2
    else if mapZoom < 6.0 then 4
    else if mapZoom < 9.0 then 8
    else if mapZoom < 12.0 then 12
    else if mapZoom < 15.0 then 16
    else 24
  }

  /** `getDetailLevel`: 0 (coarsest) to 3 (full detail). */
  function DetailLevel(zoom: real): (r: nat)
    ensures r <= 3
  {
    if zoom < 5.0 then 0
    else if zoom < 10.0 then 1
    else if zoom < 15.0 then 2
    else 3
  }

  /** Zooming in never lowers the finest zoom level drawn, and the bands
      change exactly at map zoom 3, 6, 9, 12 and 15. */
  lemma MinVoxelZoomMonotone(a: real, b: real)
    requires a <= b
    ensures MinVoxelZoomLevel(a) <= MinVoxelZoomLevel(b)
    ensures MinVoxelZoomLevel(a) == 2 <==> a < 3.0
    ensures MinVoxelZoomLevel(a) == 24 <==> a >= 15.0
    ensures MinVoxelZoomLevel(a) <= 8 <==> a < 9.0
  {
  }

  /** Zooming in never lowers the detail level; the bands change exactly at
      zoom 5, 10 and 15. */
  lemma DetailLevelMonotone(a: real, b: real)
    requires a <= b
    ensures DetailLevel(a) <= DetailLevel(b)
    ensures DetailLevel(a) == 0 <==> a < 5.0
    ensures DetailLevel(a) <= 1 <==> a < 10.0
    ensures DetailLevel(a) == 3 <==> a >= 15.0
  {
  }

  /** `longitudeInRange`: membership in the arc running east from `min` to
      `max`, which passes the antimeridian when `min > max`. */
  predicate LongitudeInRange(lon: real, min: real, max: real) {
    if min <= max then lon >= min && lon <= max
    else lon >= min || lon <= max
  }

  /** A wrapped arc is the complement of the open gap between its ends. */
  lemma LongitudeInRangeGap(lon: real, min: real, max: real)
    requires min > max
    ensures LongitudeInRange(lon, min, max) <==> !(max < lon < min)
  {
  }

  /** The longitude window `[lon - m, lon + m]` and the clamped latitude
      window of a viewport. */
  datatype Bounds = Bounds(lonMin: real, lonMax: real, latMin: real, latMax: real)

  function ViewWindow(vp: ViewportState, margin: real): (w: Bounds)
    ensures -85.0 <= w.latMin && w.latMax <= 85.0
  {
    Bounds(vp.longitude - margin, vp.longitude + margin,
           RMax(-85.0, vp.latitude - margin), RMin(85.0, vp.latitude + margin))
  }

  function RMax(a: real, b: real): real { if a >= b then a else b }
  function RMin(a: real, b: real): real { if a <= b then a else b }

  /** The first and second stored bound of an axis value (a scalar is both). */
  function Lower(d: Dim): int { if d.Scalar? then d.v else d.a }
  function Upper(d: Dim): int { if d.Scalar? then d.v else d.b }

  /** The box a definition is compared against: longitudes from the west edge of
      column `X[0]` to the east edge of column `X[1]`, and latitudes from a
      linear 180-degree scale that starts at 85 in row 0. */
  datatype Box = Box(lonMin: real, lonMax: real, latMin: real, latMax: real)

  function BoxOf(v: VoxelDefinition): Box {
    var n := Pow2(v.Z) as real;
    var lonPerTile := 360.0 / n;
    var latPerTile := 180.0 / n;
    Box(-180.0 + lonPerTile * Lower(v.X) as real,
        -180.0 + lonPerTile * (Upper(v.X) + 1) as real,
        85.0 - latPerTile * (Upper(v.Y) + 1) as real,
        85.0 - latPerTile * Lower(v.Y) as real)
  }

  /** The three-way longitude test of the filter. */
  predicate LonIntersects(b: Box, w: Bounds, lon: real) {
    LongitudeInRange(b.lonMin, w.lonMin, w.lonMax) ||
    LongitudeInRange(b.lonMax, w.lonMin, w.lonMax) ||
    LongitudeInRange(lon, b.lonMin, b.lonMax)
  }

  predicate LatIntersects(b: Box, w: Bounds) {
    b.latMax >= w.latMin && b.latMin <= w.latMax
  }

  /** The predicate of `filterVoxelsByViewport`. */
  predicate Keep(v: VoxelDefinition, vp: ViewportState, margin: real) {
    if v.Z > MinVoxelZoomLevel(vp.zoom) then false
    else
      var b := BoxOf(v);
      var w := ViewWindow(vp, margin);
      LonIntersects(b, w, vp.longitude) && LatIntersects(b, w)
  }

  /** `filterVoxelsByViewport(voxels, viewport, marginDegrees)`. */
  function FilterVoxelsByViewport(vs: seq<VoxelDefinition>, vp: ViewportState, margin: real): (r: seq<VoxelDefinition>)
    ensures |r| <= |vs|
  {
    Filter(vs, (v: VoxelDefinition) => Keep(v, vp, margin))
  }

  /** The default margin of 10 degrees. */
  const DefaultMargin: real := 10.0

  /** `filterVoxelArraysByViewport`: every inner list filtered on its own. */
  function FilterVoxelArraysByViewport(vss: seq<seq<VoxelDefinition>>, vp: ViewportState): (r: seq<seq<VoxelDefinition>>)
    ensures |r| == |vss|
  {
    seq(|vss|, i requires 0 <= i < |vss| => FilterVoxelsByViewport(vss[i], vp, DefaultMargin))
  }

  // ---------------------------------------------------------------------
  // Properties

  /** Some longitude of the window lies on the arc from `min` to `max`. */
  ghost predicate ArcMeets(min: real, max: real, lo: real, hi: real) {
    exists l :: lo <= l <= hi && LongitudeInRange(l, min, max)
  }

  /** The three-way longitude test is exactly "the window `[lon - m, lon + m]`
      meets the voxel's longitude arc", for the plain and the wrapped arc. */
  lemma LonTestIsIntersection(b: Box, lon: real, m: real)
    requires m >= 0.0
    ensures LonIntersects(b, Bounds(lon - m, lon + m, 0.0, 0.0), lon) <==> ArcMeets(b.lonMin, b.lonMax, lon - m, lon + m)
  {
    var (lo, hi) := (lon - m, lon + m);
    var (L, U) := (b.lonMin, b.lonMax);
    if LonIntersects(b, Bounds(lo, hi, 0.0, 0.0), lon) {
      if LongitudeInRange(L, lo, hi) {
        assert LongitudeInRange(L, L, U);
      } else if LongitudeInRange(U, lo, hi) {
        assert LongitudeInRange(U, L, U);
      } else {
        assert lo <= lon <= hi && LongitudeInRange(lon, L, U);
      }
    }
    if ArcMeets(L, U, lo, hi) {
      var l :| lo <= l <= hi && LongitudeInRange(l, L, U);
      if L <= U {
        if L < lo && U > hi {
          assert LongitudeInRange(lon, L, U);
        }
      } else if l >= L {
        if L < lo {
          assert LongitudeInRange(lon, L, U);
        }
      } else {
        if U > hi {
          assert LongitudeInRange(lon, L, U);
        }
      }
    }
  }

  /** What the filter keeps: a definition survives exactly when its zoom
      level is drawn at this map zoom, its longitude arc meets the widened
      longitude window, and its latitude box meets the latitude window
      clamped to [-85, 85]. */
  lemma KeepSpec(v: VoxelDefinition, vp: ViewportState, margin: real)
    requires margin >= 0.0
    ensures Keep(v, vp, margin) <==>
              v.Z <= MinVoxelZoomLevel(vp.zoom) &&
              ArcMeets(BoxOf(v).lonMin, BoxOf(v).lonMax, vp.longitude - margin, vp.longitude + margin) &&
              BoxOf(v).latMax >= RMax(-85.0, vp.latitude - margin) &&
              BoxOf(v).latMin <= RMin(85.0, vp.latitude + margin)
  {
    var b := BoxOf(v);
    var w := ViewWindow(vp, margin);
    LonTestIsIntersection(b, vp.longitude, margin);
    assert LonIntersects(b, w, vp.longitude) <==> LonIntersects(b, Bounds(vp.longitude - margin, vp.longitude + margin, 0.0, 0.0), vp.longitude);
  }

  /** The filter keeps the definitions that pass, in their input order. */
  lemma FilterSpec(vs: seq<VoxelDefinition>, vp: ViewportState, margin: real, v: VoxelDefinition)
    ensures IsSubsequence(FilterVoxelsByViewport(vs, vp, margin), vs)
    ensures v in FilterVoxelsByViewport(vs, vp, margin) <==> v in vs && Keep(v, vp, margin)
    ensures v in FilterVoxelsByViewport(vs, vp, margin) ==> v.Z <= MinVoxelZoomLevel(vp.zoom)
  {
    FilterIsSubsequence(vs, (v: VoxelDefinition) => Keep(v, vp, margin));
    FilterMember(vs, (v: VoxelDefinition) => Keep(v, vp, margin), v);
  }

  /** A wrapping X range that runs all the way round (`lo = hi + 1`) is
      treated as a single meridian: here every one of the eight columns at
      zoom 3 is covered, yet a viewport centred at longitude -100 drops it. */
  lemma FullWrapDropped()
    ensures var v := VoxelDefinition(3, Scalar(0), Pair(5, 4), Pair(0, 7), None, None);
            !Keep(v, ViewportState(10.0, -100.0, 0.0), DefaultMargin)
  {
    var v := VoxelDefinition(3, Scalar(0), Pair(5, 4), Pair(0, 7), None, None);
    assert Pow2(3) == 8;
    assert BoxOf(v).lonMin == 45.0 && BoxOf(v).lonMax == 45.0;
  }

  /** Filtering the lists one by one and concatenating equals filtering the
      concatenation. */
  lemma {:induction false} FilterArraysFlatten(vss: seq<seq<VoxelDefinition>>, vp: ViewportState)
    ensures Flatten(FilterVoxelArraysByViewport(vss, vp)) == FilterVoxelsByViewport(Flatten(vss), vp, DefaultMargin)
    decreases |vss|
  {
    var p := (v: VoxelDefinition) => Keep(v, vp, DefaultMargin);
    if vss == [] {
    } else {
      var r := FilterVoxelArraysByViewport(vss, vp);
      assert r[1..] == FilterVoxelArraysByViewport(vss[1..], vp);
      FilterArraysFlatten(vss[1..], vp);
      assert Flatten(vss) == vss[0] + Flatten(vss[1..]);
      FilterAppend(vss[0], Flatten(vss[1..]), p);
    }
  }
}

=== FILE: voxel_store.dfy ===
/** The voxel store: voxel items with ids from a counter starting at 1000,
    the colour overrides and the tooltip texts keyed by spatial key. As with
    the item store, every operation is a transition from one state to the
    next. */
module VoxelStore {
  import opened Wrappers
  import opened Seqs
  import opened Voxels
  import opened Projector
  import opened Items
  import opened ColorPanel
  import opened ParseId

  datatype VoxelState = VoxelState(items: seq<Item>, nextId: int,
                                   overrides: map<string, Color>, tooltips: map<string, string>)

  const InitialVoxelState: VoxelState := VoxelState([], FirstId, map[], map[])

  /** What a caller may pass to `addVoxel`. */
  datatype VoxelInput = VoxelInput(color: Color, opacity: int, voxel: seq<VoxelDefinition>,
                                   source: Option<Source>, keys: Option<seq<string>>)

  /** The store holds voxel items only, with distinct ids below the counter. */
  ghost predicate ValidState(s: VoxelState) {
    ValidItems(s.items, s.nextId) && forall i | 0 <= i < |s.items| :: s.items[i].data.VoxelData?
  }

  /** The spatial keys recorded on an item (none on other types). */
  function KeysOf(item: Item): seq<string> {
    if item.data.VoxelData? && item.data.keys.Some? then item.data.keys.value else []
  }

  /** The item added by `addVoxel`: the caller's data, or an empty blue item. */
  function NewVoxelItem(id: int, data: Option<VoxelInput>): Item {
    match data
    case None => Item(id, Some(Manual), false, false, VoxelData([0, 0, 255, 76], 30, [], None, None))
    case Some(d) =>
      Item(id, Some(if d.source.Some? then d.source.value else Manual), false, false,
           VoxelData(d.color, d.opacity, d.voxel, None, d.keys))
  }

  /** `addVoxel(data)`: returns the new id, which is the counter. */
  function AddVoxel(s: VoxelState, data: Option<VoxelInput>): (VoxelState, int) {
    (s.(items := s.items + [NewVoxelItem(s.nextId, data)], nextId := s.nextId + 1), s.nextId)
  }

  /** The first item with an id (`find`). */
  function FindItem(items: seq<Item>, id: int): (r: Option<Item>)
    ensures r.Some? ==> r.value in items && r.value.id == id
    ensures r.Some? ==> exists k | 0 <= k < |items| :: items[k] == r.value && forall j | 0 <= j < k :: items[j].id != id
    ensures r.None? <==> forall i | 0 <= i < |items| :: items[i].id != id
    decreases |items|
  {
    if items == [] then None
    else if items[0].id == id then Some(items[0])
    else
      var r := FindItem(items[1..], id);
      assert forall i | 0 < i < |items| :: items[i] == items[1..][i - 1];
      if r.Some? then
        var k :| 0 <= k < |items[1..]| && items[1..][k] == r.value && forall j | 0 <= j < k :: items[1..][j].id != id;
        assert items[k + 1] == r.value && forall j | 0 <= j < k + 1 :: items[j].id != id;
        r
      else r
  }

  /** `deleteVoxel(id)`: when the first item with the id records keys, they
      leave the tooltip map and the colour overrides; then every item with
      the id is dropped. */
  function DeleteVoxel(s: VoxelState, id: int): VoxelState {
    var target := FindItem(s.items, id);
    var keys := if target.Some? then KeysOf(target.value) else [];
    var gone := set k | k in keys;
    var s' := if |keys| > 0 then s.(tooltips := s.tooltips - gone, overrides := s.overrides - gone) else s;
    s'.(items := Filter(s.items, (i: Item) => i.id != id))
  }

  /** `updateVoxelString(id, text)`. */
  function UpdateVoxelString(s: VoxelState, id: int, text: string): VoxelState {
    s.(items := UpdateVoxel(ItemStore(s.items, s.nextId), id, text).items)
  }

  /** `updateVoxelColor(id, color)`. */
  function UpdateVoxelColor(s: VoxelState, id: int, color: Color): VoxelState {
    s.(items := UpdateColor(ItemStore(s.items, s.nextId), id, color).items)
  }

  /** The loop of `addTooltips`: a copy of the old map with each incoming
      entry set in turn. */
  function MergeTooltips(prev: map<string, string>, entries: seq<(string, string)>): map<string, string>
    decreases |entries|
  {
    if entries == [] then prev
    else
      var e := entries[|entries| - 1];
      MergeTooltips(prev, entries[..|entries| - 1])[e.0 := e.1]
  }

  /** `addTooltips(newTooltips)`, the incoming map given by its entries. */
  function AddTooltips(s: VoxelState, entries: seq<(string, string)>): VoxelState {
    s.(tooltips := MergeTooltips(s.tooltips, entries))
  }

  // ---------------------------------------------------------------------
  // Properties

  lemma InitialStateValid()
    ensures ValidState(InitialVoxelState)
  {
  }

  /** `addVoxel` hands out the counter, moves it on by one, appends the new
      item after every earlier one, and leaves the maps alone; without data
      the item is an empty blue voxel set of opacity 30. */
  lemma AddVoxelSpec(s: VoxelState, data: Option<VoxelInput>)
    ensures var (r, id) := AddVoxel(s, data);
            id == s.nextId && r.nextId == s.nextId + 1 &&
            |r.items| == |s.items| + 1 && r.items[..|s.items|] == s.items &&
            r.items[|s.items|].id == id && r.items[|s.items|].data.VoxelData? &&
            !r.items[|s.items|].isDeleted && !r.items[|s.items|].isVisible &&
            r.overrides == s.overrides && r.tooltips == s.tooltips
    ensures data.None? ==>
              AddVoxel(s, data).0.items[|s.items|].data == VoxelData([0, 0, 255, 76], 30, [], None, None) &&
              AddVoxel(s, data).0.items[|s.items|].source == Some(Manual)
    ensures data.Some? ==>
              var d := AddVoxel(s, data).0.items[|s.items|].data;
              d.color == data.value.color && d.opacity == data.value.opacity &&
              d.voxel == data.value.voxel && d.keys == data.value.keys
    ensures data.Some? ==>
              AddVoxel(s, data).0.items[|s.items|].source ==
                Some(if data.value.source.Some? then data.value.source.value else Manual)
  {
  }

  lemma AddVoxelValid(s: VoxelState, data: Option<VoxelInput>)
    requires ValidState(s)
    ensures ValidState(AddVoxel(s, data).0)
  {
  }

  /** `deleteVoxel` drops exactly the items with the id, keeps the rest in
      order, and removes exactly the keys recorded on the first such item
      from both maps; every other map entry is unchanged. */
  lemma DeleteVoxelSpec(s: VoxelState, id: int, x: Item, k: string)
    ensures IsSubsequence(DeleteVoxel(s, id).items, s.items)
    ensures x in DeleteVoxel(s, id).items <==> x in s.items && x.id != id
    ensures var removed := FindItem(s.items, id).Some? && k in KeysOf(FindItem(s.items, id).value);
            (k in DeleteVoxel(s, id).tooltips <==> k in s.tooltips && !removed) &&
            (k in DeleteVoxel(s, id).overrides <==> k in s.overrides && !removed)
    ensures k in DeleteVoxel(s, id).tooltips ==> DeleteVoxel(s, id).tooltips[k] == s.tooltips[k]
    ensures k in DeleteVoxel(s, id).overrides ==> DeleteVoxel(s, id).overrides[k] == s.overrides[k]
    ensures DeleteVoxel(s, id).nextId == s.nextId
  {
    FilterIsSubsequence(s.items, (i: Item) => i.id != id);
    FilterMember(s.items, (i: Item) => i.id != id, x);
  }

  lemma DeleteVoxelValid(s: VoxelState, id: int)
    requires ValidState(s)
    ensures ValidState(DeleteVoxel(s, id))
  {
    DeleteItemValid(ItemStore(s.items, s.nextId), id);
    var r := DeleteVoxel(s, id).items;
    forall i | 0 <= i < |r|
      ensures r[i].data.VoxelData?
    {
      assert r[i] in r;
      FilterMember(s.items, (i: Item) => i.id != id, r[i]);
    }
  }

  /** Deleting the voxel just added restores the item list and takes the
      keys it recorded out of both maps; when it records no keys, it restores
      the whole state but the counter. */
  lemma DeleteUndoesAdd(s: VoxelState, data: Option<VoxelInput>)
    requires ValidState(s)
    ensures DeleteVoxel(AddVoxel(s, data).0, s.nextId).items == s.items
    ensures var gone := set k | k in KeysOf(NewVoxelItem(s.nextId, data));
            DeleteVoxel(AddVoxel(s, data).0, s.nextId).tooltips == s.tooltips - gone &&
            DeleteVoxel(AddVoxel(s, data).0, s.nextId).overrides == s.overrides - gone
    ensures KeysOf(NewVoxelItem(s.nextId, data)) == [] ==>
              DeleteVoxel(AddVoxel(s, data).0, s.nextId) == s.(nextId := s.nextId + 1)
  {
    var x := NewVoxelItem(s.nextId, data);
    var gone := set k | k in KeysOf(x);
    DeleteAddedState(s, data);
    if KeysOf(x) == [] {
      assert gone == {};
      assert s.tooltips - gone == s.tooltips;
      assert s.overrides - gone == s.overrides;
    }
  }

  /** The state after deleting the voxel just added: the old items, the
      advanced counter, and the maps with that voxel's keys taken out. */
  lemma DeleteAddedState(s: VoxelState, data: Option<VoxelInput>)
    requires ValidState(s)
    ensures var x := NewVoxelItem(s.nextId, data);
            var gone := set k | k in KeysOf(x);
            var after := DeleteVoxel(AddVoxel(s, data).0, s.nextId);
            after.items == s.items && after.nextId == s.nextId + 1 &&
            after.tooltips == (if |KeysOf(x)| > 0 then s.tooltips - gone else s.tooltips) &&
            after.overrides == (if |KeysOf(x)| > 0 then s.overrides - gone else s.overrides)
  {
    var x := NewVoxelItem(s.nextId, data);
    DeleteAddedItems(s, x);
    FindLast(s.items, x);
  }

  /** Filtering out a fresh id after appending an item with it gives the
      old list back. */
  lemma DeleteAddedItems(s: VoxelState, x: Item)
    requires ValidState(s) && x.id == s.nextId
    ensures Filter(s.items + [x], (i: Item) => i.id != s.nextId) == s.items
  {
    var p := (i: Item) => i.id != s.nextId;
    FilterAppend(s.items, [x], p);
    FilterAll(s.items, p);
  }

  /** The first item with an id that no earlier item carries is the one
      appended. */
  lemma {:induction false} FindLast(items: seq<Item>, x: Item)
    requires forall i | 0 <= i < |items| :: items[i].id != x.id
    ensures FindItem(items + [x], x.id) == Some(x)
    decreases |items|
  {
    if items != [] {
      assert (items + [x])[1..] == items[1..] + [x];
      FindLast(items[1..], x);
    }
  }

  /** `updateVoxelString` changes only the item with the matching id, which
      records the text and holds its parse, or `[]` when parsing fails; the
      counter and both maps are unchanged. */
  lemma UpdateVoxelStringSpec(s: VoxelState, id: int, text: string, i: int)
    requires ValidState(s) && 0 <= i < |s.items|
    ensures var before := s.items[i];
            var after := UpdateVoxelString(s, id, text).items[i];
            if before.id == id then
              after.(data := before.data) == before &&
              after.data.voxelString == Some(text) &&
              after.data.color == before.data.color && after.data.opacity == before.data.opacity &&
              after.data.keys == before.data.keys &&
              (Parse(text).Success? ==> after.data.voxel == Parse(text).value) &&
              (Parse(text).Failure? ==> after.data.voxel == [])
            else after == before
    ensures |UpdateVoxelString(s, id, text).items| == |s.items|
    ensures UpdateVoxelString(s, id, text).(items := s.items) == s
  {
  }

  /** `updateVoxelColor` changes only the colour of the matching item. */
  lemma UpdateVoxelColorSpec(s: VoxelState, id: int, color: Color, i: int)
    requires 0 <= i < |s.items|
    ensures var before := s.items[i];
            var after := UpdateVoxelColor(s, id, color).items[i];
            if before.id == id then after == before.(data := before.data.(color := color))
            else after == before
    ensures |UpdateVoxelColor(s, id, color).items| == |s.items|
    ensures UpdateVoxelColor(s, id, color).(items := s.items) == s
  {
  }

  lemma UpdatesKeepValid(s: VoxelState, id: int, text: string, color: Color)
    requires ValidState(s)
    ensures ValidState(UpdateVoxelString(s, id, text))
    ensures ValidState(UpdateVoxelColor(s, id, color))
  {
    UpdatesValid(ItemStore(s.items, s.nextId), id, text, color);
  }

  /** The incoming entries as a map (for a JavaScript map, keys are
      distinct; a repeated key would keep its last value). */
  function EntryMap(entries: seq<(string, string)>): map<string, string> {
    SetAll(entries, (e: (string, string)) => e.0, (e: (string, string)) => Some(e.1))
  }

  /** The merge loop is the right-biased union: incoming keys take the new
      value and every other key keeps its old one. */
  lemma {:induction false} MergeTooltipsUnion(prev: map<string, string>, entries: seq<(string, string)>)
    ensures MergeTooltips(prev, entries) == prev + EntryMap(entries)
    decreases |entries|
  {
    if entries != [] {
      MergeTooltipsUnion(prev, entries[..|entries| - 1]);
    }
  }

  /** `addTooltips` keys by key: the new text for an incoming key, the old
      text for any other key; the rest of the state is untouched. */
  lemma AddTooltipsSpec(s: VoxelState, entries: seq<(string, string)>, k: string)
    ensures k in AddTooltips(s, entries).tooltips <==> k in s.tooltips || k in EntryMap(entries)
    ensures k in EntryMap(entries) ==> AddTooltips(s, entries).tooltips[k] == EntryMap(entries)[k]
    ensures k !in EntryMap(entries) && k in s.tooltips ==> AddTooltips(s, entries).tooltips[k] == s.tooltips[k]
    ensures AddTooltips(s, entries).(tooltips := s.tooltips) == s
  {
    MergeTooltipsUnion(s.tooltips, entries);
  }
}

=== FILE: voxels.dfy ===
/** The value types shared by the parser, the JSON importer and the range
    compiler: a dimension value, a time bound, and `VoxelDefinition`. */
module Voxels {
  import opened Wrappers

  /** One axis of a definition: a single index, or an inclusive pair kept in
      the order it was stored. On X a first component larger than the second
      means the range wraps through the antimeridian; on F the pair
      `UnboundedF` is an inverted sentinel for "no bound". */
  datatype Dim = Scalar(v: int) | Pair(a: int, b: int)

  /** An end time: a finite tick or JavaScript's `Infinity`. */
  datatype EndTime = Fin(t: int) | PosInf

  datatype Axis = FAxis | XAxis | YAxis

  /** A parsed identifier: zoom level, altitude band F, tile column X, tile
      row Y, and an optional time window (both bounds absent = no window). */
  datatype VoxelDefinition = VoxelDefinition(
    Z: nat,
    F: Dim,
    X: Dim,
    Y: Dim,
    startTime: Option<int>,
    endTime: Option<EndTime>)

  /** `2 ** z`. */
  function Pow2(z: nat): (r: nat)
    ensures r >= 1
  {
    if z == 0 then 1 else 2 * Pow2(z - 1)
  }

  lemma {:induction false} Pow2Add(a: nat, b: nat)
    ensures Pow2(a + b) == Pow2(a) * Pow2(b)
    decreases a
  {
    if a > 0 {
      Pow2Add(a - 1, b);
      assert Pow2(a + b) == 2 * Pow2(a - 1 + b);
    }
  }

  /** The F value of an absent or `-` altitude: `[2^Z - 1, -2^Z]`. */
  function UnboundedF(z: nat): Dim {
    Pair(Pow2(z) - 1, -(Pow2(z) as int))
  }

  /** The X or Y value of an absent or `-` axis: the scalar 0 at zoom 0,
      otherwise every index `[0, 2^Z - 1]`. */
  function FullAxis(z: nat): Dim {
    if z == 0 then Scalar(0) else Pair(0, Pow2(z) - 1)
  }

  function Min(a: int, b: int): int {
    if a <= b then a else b
  }

  function Max(a: int, b: int): int {
    if a <= b then b else a
  }
}

=== FILE: wrappers.dfy ===
/** Option and Result datatypes used across the model. `Result` is
    failure-compatible, so parsers can propagate an error with `:-`. */
module Wrappers {

  datatype Option<+T> = None | Some(value: T)

  datatype Result<+T, +E> = Success(value: T) | Failure(error: E) {

    predicate IsFailure() {
      Failure?
    }

    function PropagateFailure<U>(): Result<U, E>
      requires Failure?
    {
      Failure(error)
    }

    function Extract(): T
      requires Success?
    {
      value
    }
  }
}
